=== FILE: README.md ===
# Gaollive core in Dafny

This project is a Dafny model of the core of Gaollive, an Arabic football live-score and
streaming backend written in TypeScript, together with the pure helpers of its web client.
Randomness (`Math.random`) enters the model as reals in `[0, 1)`, and the clock (`Date.now`) as an
integer. Every operation is then a sequential, deterministic function.

What is modelled:

- **Js**: the JavaScript value semantics the code relies on.
  - A property is undefined, null, NaN or a value (`Slot`).
  - `++` on such a property.
  - `parseInt` on decimal text.
  - `String.prototype.includes` and `padStart`.
  - Decimal `toString`.
- **Seqs**: `Array.prototype.filter`, `map` and `find`.
- **Schema**: the records (tournament, team, match, standing, event) and the partial match update.
  - The shallow merge `{...match, ...updates}` is stated against an object view.
- **Storage**: the in-memory store `MemStorage`.
  - Insertion-ordered maps with id counters.
  - Seed data and id counters after initialisation.
  - Getters, filters by status or tournament, standings sorted by position.
  - `create*` and `updateMatch`.
- **Realtime**: the WebSocket hub as a state machine over a client list, an open set and a log of sent messages.
  - Connect (with its live-matches snapshot) and close.
  - Message dispatch.
  - Fan-out to open clients.
  - The per-tick match simulation and a whole tick over the live matches.
  - `broadcastMatchUpdate`.
- **Admin**: the admin router.
  - The key gate.
  - PUT/POST of matches, tournaments and standings.
  - `/stats` and `/streams`.
  - The live-update dispatch.
  - One `Handle` that puts the gate, as written, in front of every route, and the corrected router beside it.
- **Routes**: the public read routes.
  - Get-by-id with 404.
  - `/api/matches` query precedence.
  - The enriched match and standings joins.
- **SportsApi**: the external-data simulator, the stream sources and `syncMatchData`.
- **Streaming**: the streaming service.
  - Server choice by region and load.
  - The five playlist URLs.
  - The load fluctuation clamp.
  - The health rule and the quality thresholds.
- **ArabicUtils**: Arabic-Indic numerals, the minute caption, the score line and the status label.
- **StreamAnalytics**: the stream analytics panel.
  - Viewer draw and peak.
  - Region and quality split.
  - Health and the twenty-reading history.
  - Status text and colour.
- **UpcomingFixtures**: the reminder toggle and the kick-off time.
- **TournamentCards**: icon, colour and type label of a tournament card.

The server exports a `DatabaseStorage` instance as `storage` (storage.ts:443). The model follows
`MemStorage` (storage.ts:29-358), the in-memory implementation of the same interface.

## Model

| member | source | states |
|---|---|---|
| Js.Increment | realtime.ts:125 | `x++` on a number adds one, on null gives 1, and on undefined or NaN gives NaN |
| Js.ParseIntToDecimal | admin.ts:22 | `parseInt` of an integer's decimal text, sign included, gives that integer back |
| Js.PadStart | upcoming-fixtures.tsx:60 | text at least as long as the width is kept; shorter text is filled on the left to exactly the width and ends with the original |
| Js.DigitsRoundTrip | arabic-utils.ts:3 | reading the decimal digits of a natural back gives the natural |
| Seqs.Find | routes.ts:116-118 | `find` returns nothing exactly when no element satisfies the predicate, else the first element that does |
| Seqs.FilterCounts | storage.ts:297 | `filter` keeps every occurrence of an element that satisfies the predicate and no other element |
| Seqs.FilterIsSubsequence | storage.ts:297 | `filter` keeps the relative order of the elements it keeps |
| Schema.MergeIsSpread | storage.ts:329 | the merged match, seen as an object, is the old match overridden by exactly the keys present in the update, explicit undefined included |
| Schema.MergeIdempotent | storage.ts:329 | spreading the same update twice gives what spreading it once gives |
| Storage.Put | storage.ts:330 | `Map.set` replaces the entry of a present key in place and appends an absent key at the end |
| Storage.Lookup | storage.ts:304-306 | `Map.get` gives undefined exactly for an absent key, else a stored value under that key |
| Storage.NextId | storage.ts:69-72 | the `Math.max(counter, id + 1)` loop leaves the counter no lower than before and above every seeded id |
| Storage.NumberedLoad | storage.ts:69-72 | loading seed rows numbered 1, 2, … gives exactly those rows, keys distinct, all below the counter |
| Storage.Initialize | storage.ts:39-251 | after construction each table holds exactly its seed rows, in seed order |
| Storage.InitializeValid | storage.ts:39-50 | after construction each map has distinct keys, each record's id is its key, and each counter exceeds every key |
| Storage.SeedMatchesConsistent | storage.ts:104-219 | seeded upcoming matches have no minute and score 0-0; seeded live matches have a minute |
| Storage.InitialStatusesKnown | storage.ts:39-251 | every match stored at start-up is live or upcoming |
| Storage.GetMatchesByStatus | storage.ts:296-298 | the result holds only stored matches with that status, and every such match |
| Storage.GetMatchesByTournament | storage.ts:300-302 | the result holds only stored matches of that tournament, and every such match |
| Storage.MatchFiltersPreserveOrder | storage.ts:296-302 | both filters keep insertion order, and the status filter keeps every copy of a matching record |
| Storage.SortByPositionProperties | storage.ts:337 | sorting by position gives an ascending permutation |
| Storage.SortByPositionStable | storage.ts:337 | rows with equal position keep their insertion order, as the stable `Array.prototype.sort` does |
| Storage.GetStandingsByTournament | storage.ts:334-338 | the rows come out ascending by position and are, with multiplicity, exactly the stored rows of that tournament |
| Storage.StandingsByTournamentSpec | storage.ts:334-338 | a tournament's standings are ascending by position and are exactly its stored rows; equal positions keep insertion order |
| Storage.CreateTournament | storage.ts:261-271 | the counter becomes the id and advances by one; country defaults to null and isActive to true; the record is stored under its id |
| Storage.CreateTeam | storage.ts:281-290 | the counter becomes the id and advances by one; logo defaults to null; the record is stored under its id |
| Storage.CreateMatch | storage.ts:308-323 | the counter becomes the id; tournament and team ids, minute and stream become null and the scores 0 only when undefined or null, any other given value (NaN included) is kept; status and match date are copied as given, absent included; the record is stored under its id |
| Storage.CreateStanding | storage.ts:340-357 | the counter becomes the id; tournament and team ids become null and the seven counts 0 only when undefined or null, any other given value is kept; position is copied; the record is stored under its id |
| Storage.CreateMatchAppends | storage.ts:308-323 | on a well-formed store a created match is appended at the end, its id is fresh, and it can be fetched by that id |
| Storage.CreateOthersValid | storage.ts:261-357 | creating a tournament, team or standing keeps the store well-formed; a standing is appended at the end |
| Storage.UpdateMatch | storage.ts:325-332 | an absent id gives undefined and changes nothing; a present id gives the merge of the old match and the update, and only the match map changes |
| Storage.UpdateMatchFrame | storage.ts:325-332 | an update keeps the store well-formed and the key order; it rewrites only the entry under the id, to the merge |
| Storage.UpdateMatchLookups | storage.ts:325-332 | after an update the id fetches the returned match, and every other id fetches what it did before |
| Storage.UpdateMatchIdempotent | storage.ts:325-332 | applying the same update twice leaves store and result as applying it once |
| Realtime.BroadcastToAll | realtime.ts:87-94 | one delivery of the same message per registered open client, and none to anyone else |
| Realtime.BroadcastOncePerSocket | realtime.ts:87-94 | with distinct clients, each registered open client receives the message exactly once and every other client never |
| Realtime.Connect | realtime.ts:42-62 | the socket becomes registered and open, and is sent the store's live matches; the store is untouched and clients stay distinct |
| Realtime.Close | realtime.ts:46-49 | the socket is no longer registered; other clients' registration, the store and the sent messages are unchanged |
| Realtime.CloseIdempotent | realtime.ts:46-49 | closing twice is the same as closing once |
| Realtime.LeaveOpen | realtime.ts:46-49 | the transport takes a socket out of OPEN: it stays registered, no other socket's state changes, and the store and sends are untouched |
| Realtime.ClosingSocketIsSkipped | realtime.ts:87-94 | a registered socket no longer OPEN gets no delivery from a broadcast, while every other registered OPEN socket still gets it |
| Realtime.Receive | realtime.ts:51-73 | only `get_live_matches` sends, and only a snapshot to the sender; subscribe, unknown types and unparseable text change nothing |
| Realtime.SimulateStep | realtime.ts:111-156 | the minute moves on by 1 to 3 from `currentMinute` or 0 and is capped at 95; a goal happens only before 90, raising one side by one with one goal event for that side at the new minute; status changes only to finished, and only at 90 or later |
| Realtime.SimulateMatchUpdate | realtime.ts:111-182 | the store receives the step's four fields through `updateMatch`; then the step's values and events go to every open client, found or not |
| Realtime.BroadcastMatchesWrite | realtime.ts:158-179 | the broadcast carries exactly the four values stored for the match; every other match is untouched |
| Realtime.TickOver | realtime.ts:100-104 | stepping a snapshot of matches leaves the hub alone and never drops a sent message |
| Realtime.Tick | realtime.ts:98-104 | a tick leaves the hub alone, keeps everything sent before as a prefix, and adds exactly one message per live match per open client |
| Realtime.TickOverSends | realtime.ts:98-104 | a tick's messages are the per-match broadcasts in order, and the client set is unchanged |
| Realtime.TickOverStore | realtime.ts:98-104 | a tick keeps the store well-formed and its key order, and rewrites no match outside the run |
| Realtime.TickKeepsOthers | realtime.ts:100-104 | a tick over the live matches leaves every match that was not live unchanged |
| Realtime.TickAnnouncesLive | realtime.ts:100-104 | a tick sends one match update per live match per open client, each about a match that was live |
| Realtime.TickOverKeepsKnown | realtime.ts:100-104 | each step writes back the status it read or `finished`, so a store whose statuses are live, upcoming or finished keeps them so |
| Realtime.TickKeepsStatusesKnown | realtime.ts:98-104 | a tick introduces no status other than live, upcoming or finished |
| Realtime.LiveIdIsLive | storage.ts:296-298 | an id taken from the live filter fetches a stored live match |
| Realtime.BroadcastMatchUpdate | realtime.ts:184-189 | `{matchId, ...update}` goes to every open client; the store and the clients are not touched |
| Admin.AdminAuthAsWritten | admin.ts:8-14 | with no key configured a request passes exactly when it has no header; with a key configured it passes exactly when its header equals the key |
| Admin.AdminAuth | admin.ts:8-14 | the corrected gate never admits a request without the header |
| Admin.AdminAuthAsWrittenOpensUnconfigured | admin.ts:8-14 | with no key configured, the gate as written lets a request without the header through, and the corrected gate does not |
| Admin.AdminAuthAgreement | admin.ts:8-14 | the corrected gate agrees with the written one whenever a key is configured, refuses everything otherwise, and never admits more |
| Admin.UpdateMatchRoute | admin.ts:20-57 | 404 exactly when the id does not parse or names no match, and then nothing changes; otherwise it writes first, replies with the merged match, and broadcasts the body when a hub is attached |
| Admin.UpdateMatchRouteStores | admin.ts:20-57 | a 200 reply's match is the one now stored, carries the body's four fields, and no other match changed |
| Admin.CreateMatchRoute | admin.ts:60-74 | POST replies with the created match and changes only the store, as `createMatch` does |
| Admin.UpdateTournamentRoute | admin.ts:77-97 | 404 exactly when the tournament is absent; otherwise a fixed acknowledgement; never a change |
| Admin.RowStanding | admin.ts:134-139 | a row takes the path's tournament id unless it carries its own |
| Admin.CreateStandings | admin.ts:134-139 | the loop creates one standing per row, so the standing counter advances by the number of rows, and tournaments, teams and matches are untouched |
| Admin.CreateStandingsAppends | admin.ts:128-149 | each row is created in order with consecutive fresh ids after the existing standings, which are kept |
| Admin.UpdateStandingsRoute | admin.ts:128-149 | a body without a standings array fails with 500 and changes nothing; otherwise every row is created and an acknowledgement follows |
| Admin.StatsAsWritten | admin.ts:107-114 | the total is the live count plus the number of matches that are not live |
| Admin.StatsScheduledAlwaysZero | admin.ts:107-114 | when every match is live, upcoming or finished, as after start-up and any number of ticks, the `scheduledMatches` count as written is 0 |
| Admin.CreatedScheduledIsCounted | admin.ts:60-74 | a POST whose status is `scheduled` is stored as given and raises the written count by one |
| Admin.CountStats | admin.ts:107-114 | the intended counts: totals, live and finished as written, the not-yet-played count over `upcoming`, each at most the total |
| Admin.StatsPartition | admin.ts:107-114 | the corrected counts of live, finished and upcoming matches add up to the total |
| Admin.StatsRoute | admin.ts:100-125 | `/stats` replies with the counts as written, `scheduled` counted literally, and changes nothing |
| Admin.StreamInfos | admin.ts:152-162 | one entry per live match, in order, carrying its id, stream URL and status, with a viewer count in [1000, 11000) |
| Admin.StreamsRoute | admin.ts:152-173 | `/streams` lists, in order, one entry per live match built from that match and its viewer draw, and changes nothing |
| Admin.LiveUpdatePayload | admin.ts:184-216 | only goal and card produce an update, each with one event; goal carries both scores; card carries no score, and its text is the yellow one exactly for `yellow_card` |
| Admin.LiveUpdateRoute | admin.ts:176-227 | live-update never writes the store; it broadcasts only for goal or card; any other type is acknowledged with no effect |
| Admin.Dispatch | admin.ts:20-227 | an admitted request is never answered 401 and never changes the hub's clients |
| Admin.Handle | admin.ts:8-17 | the gate as written: a header different from the configured key (either may be absent) gets 401 and changes nothing; a header equal to it, absent equal to absent included, is never answered 401 |
| Admin.HandleCorrected | admin.ts:8-17 | the intended router: with no key configured every request gets 401; any other reply means the request presented the configured key |
| Admin.UnconfiguredRouterIsOpen | admin.ts:8-17 | with no key configured and no header, the written router dispatches the request and the corrected one answers 401 |
| Admin.ConfiguredRoutersAgree | admin.ts:8-17 | with a key configured, the written and the corrected router give the same outcome |
| Admin.HandleEffects | admin.ts:17-227 | only PUT of a match and live-update send messages; live-update, stats, streams and PUT of a tournament leave the store unchanged |
| Routes.TournamentRoute | routes.ts:17-28 | 404 exactly when the id does not parse or storage has no such tournament; otherwise the stored one |
| Routes.TeamRoute | routes.ts:41-52 | 404 exactly when the id does not parse or storage has no such team; otherwise the stored one |
| Routes.MatchRoute | routes.ts:75-86 | 404 exactly when the id does not parse or storage has no such match; otherwise the stored one |
| Routes.LookupByStoredId | routes.ts:17-86 | every stored record is found again through its id written in decimal |
| Routes.MatchesRoute | routes.ts:55-72 | a non-empty status gives exactly the status filter, and with neither filter all matches come back |
| Routes.MatchesRouteSelects | routes.ts:55-72 | a non-empty status wins over a tournament filter, and with neither all matches come back; the selection keeps storage order; a tournament that does not parse selects nothing |
| Routes.StandingsRoute | routes.ts:89-97 | a tournament id that does not parse gives no rows; otherwise the sorted standings of that tournament |
| Routes.Enrich | routes.ts:114-119 | the enriched list keeps length, order and every original field, and attaches the first team or tournament with a matching id |
| Routes.EnrichedMatchesResolve | routes.ts:100-125 | on a well-formed store each join gives exactly the record stored under the referenced id, or nothing for a missing id |
| Routes.EnrichedMatchesRoute | routes.ts:100-125 | one enriched entry per match of the status filter, or per stored match when no status is given |
| Routes.EnrichedStandingsRoute | routes.ts:128-143 | the enriched standings keep storage order and attach the first team whose id is the row's teamId |
| Routes.JoinIsLookup | routes.ts:116-118 | on a well-formed store, finding the first record with an id equals fetching that id |
| SportsApi.AwayTeam | sports-api.ts:63-67 | the redraw loop returns the first drawn team different from home; with no such draw there is no result |
| SportsApi.GenerateOne | sports-api.ts:60-81 | a generated match has id `ext_<n>`, stream `/live/<n>`, two different teams, scores in [0, 3], minute in [1, 90], and status live exactly when the draw exceeds 0.3, else finished |
| SportsApi.GenerateRealisticMatchData | sports-api.ts:46-83 | when the draws yield a result it has exactly five matches |
| SportsApi.GeneratedMatches | sports-api.ts:46-83 | the five matches are numbered 1 to 5 in order and each obeys the bounds above |
| SportsApi.GeneratedIdsDistinct | sports-api.ts:62 | the generated ids are pairwise distinct |
| SportsApi.GetStreamSources | sports-api.ts:86-108 | three hls sources, 1080p then 720p then 480p, each URL containing the match id |
| SportsApi.SyncOneStep | sports-api.ts:117-131 | any iteration, on the store as earlier iterations left it: no mentioning snapshot match, or its id no longer stored, changes nothing; otherwise the stored record under the first mentioning match's id gets the four fields merged in, and every other id reads as before |
| SportsApi.SyncOneSpec | sports-api.ts:117-131 | an external match with no local match mentioning its id writes nothing; otherwise only the first such local match gets the four fields |
| SportsApi.SyncOver | sports-api.ts:117-131 | the loop over external matches changes only the match table |
| SportsApi.SyncMatchData | sports-api.ts:112-138 | a sync changes only the match table: tournaments, teams, standings and counters are kept; no external matches means no change |
| SportsApi.SyncMatchDataFrame | sports-api.ts:112-138 | a sync keeps the store well-formed and rewrites no local match that no external id mentions |
| Streaming.PreferredRegion | streaming.ts:71-72 | a region starting with `me`, or none, gives me-south-1; otherwise one starting with `eu` gives eu-west-1; anything else gives us-east-1 |
| Streaming.LeastLoadedIndex | streaming.ts:79-81 | the reduce keeps a server of minimal load ratio, the earliest one on ties |
| Streaming.GetOptimalServer | streaming.ts:70-90 | with no active server there is no choice (the source throws); otherwise the choice is an active server of the list |
| Streaming.OptimalServerIsLeastLoaded | streaming.ts:70-90 | an active server in the preferred region wins when there is one, with minimal load among them; otherwise the choice has minimal load among all active servers |
| Streaming.StreamUrlsSpec | streaming.ts:93-104 | each quality's URL is the chosen endpoint, `/live/match-<id>/`, the quality path and `/playlist.m3u8`; distinct qualities have distinct URLs |
| Streaming.GenerateStreamUrls | streaming.ts:93-104 | URLs exist exactly when a server can be chosen |
| Streaming.Fluctuate | streaming.ts:110-116 | the new load stays in [0, capacity], equals the old load plus the fluctuation when that is in range, and only the load changes |
| Streaming.FluctuateAll | streaming.ts:107-118 | every server, in order, is fluctuated with its own draw |
| Streaming.FluctuationKeepsLoadInRange | streaming.ts:107-118 | after a fluctuation every server's load lies within its capacity, and its identity, region and status are kept |
| Streaming.HealthStatus | streaming.ts:133-134 | healthy exactly when latency < 100 and buffer > 70; degraded exactly when not healthy, latency < 150 and buffer > 50; otherwise offline |
| Streaming.CheckStreamHealth | streaming.ts:121-139 | the simulated readings lie in their ranges, and the status is the rule applied to them |
| Streaming.SimulatedHealthOfflineOnlyByBuffer | streaming.ts:128-134 | since simulated latency is below 150, a simulated stream is offline exactly when its buffer is at most 50 |
| Streaming.GetRecommendedQuality | streaming.ts:193-199 | the quality is one of the five, and 4K never goes to a mobile device |
| Streaming.QualityMonotone | streaming.ts:193-199 | for a fixed device more bandwidth never gives a lower quality; 720p or better exactly above 2500, 480p or better exactly above 1000 |
| ArabicUtils.FormatArabicNumber | arabic-utils.ts:1-4 | the text is all Arabic-Indic; for a natural it has one digit per decimal digit, each digit d written as U+0660 + d |
| ArabicUtils.NegativeDropsSign | arabic-utils.ts:1-4 | the minus sign has no Arabic-Indic digit, so a negative number prints as its absolute value |
| ArabicUtils.ArabicRoundTrip | arabic-utils.ts:1-4 | reading the Arabic-Indic text back gives the decimal text, and so the number |
| ArabicUtils.FormatArabicInjective | arabic-utils.ts:1-4 | distinct naturals print differently |
| ArabicUtils.FormatMatchTime | arabic-utils.ts:6-8 | the caption is the fixed minute prefix followed by the number |
| ArabicUtils.MatchTimeReadsBack | arabic-utils.ts:6-8 | the part after the prefix reads back as the minute |
| ArabicUtils.FormatScore | arabic-utils.ts:10-12 | the away score comes first and the home score last, with ` - ` between them |
| ArabicUtils.ScoreLineInjective | arabic-utils.ts:10-12 | for non-negative scores the score line determines both scores |
| ArabicUtils.GetMatchStatus | arabic-utils.ts:33-41 | live, upcoming and finished get their Arabic labels; any other string is returned as is |
| ArabicUtils.MatchStatusIdempotent | arabic-utils.ts:33-41 | a label is not a status key, so labelling twice is labelling once |
| StreamAnalytics.CurrentViewers | stream-analytics.tsx:55 | the simulated viewer count lies in [10000, 59999] |
| StreamAnalytics.NextPeak | stream-analytics.tsx:57-58 | the new peak is the larger of 1.3 times the reading and the old peak |
| StreamAnalytics.PeakDominates | stream-analytics.tsx:57-58 | over any run of readings the peak never falls and is at least 1.3 times every reading |
| StreamAnalytics.Split | stream-analytics.tsx:59-69 | the floor shares are non-negative and add up to the viewer count, less at most 2 by region and at most 3 by quality |
| StreamAnalytics.HealthAgreesWithServer | stream-analytics.tsx:76-77 | the panel classifies every latency and buffer reading as the streaming service does |
| StreamAnalytics.NextHistory | stream-analytics.tsx:84 | the history keeps at most the last 19 old readings in order, then the new reading, and never exceeds 20 |
| StreamAnalytics.HistoryIsLastTwenty | stream-analytics.tsx:84 | after any run of readings the history is the last twenty of the old history followed by the run |
| StreamAnalytics.StatusColor | stream-analytics.tsx:90-97 | the three statuses get their colours and any other string the grey default |
| StreamAnalytics.StatusText | stream-analytics.tsx:99-106 | the three statuses get their texts and any other string the unknown text |
| StreamAnalytics.PanelStatusIsKnown | stream-analytics.tsx:76-106 | every status the panel computes has a known text and colour, and different statuses differ in both |
| UpcomingFixtures.ToggleReminder | upcoming-fixtures.tsx:45-55 | the id is in the new set exactly when it was not in the old one; every other id keeps its membership |
| UpcomingFixtures.ToggleInvolution | upcoming-fixtures.tsx:45-55 | toggling an id twice restores the set, and toggles of two ids commute |
| UpcomingFixtures.FormatTime | upcoming-fixtures.tsx:57-62 | for a valid date the text is three characters longer than the hour and ends with the minute's tens and units digits |
| UpcomingFixtures.FormatTimeSpec | upcoming-fixtures.tsx:57-62 | the unpadded Arabic hour, a colon, then exactly two Arabic digits of the minute, tens first; an invalid date gives `:٠٠` |
| TournamentCards.TournamentIcon | tournament-cards.tsx:15-26 | cup gives the trophy, league the crown, international the globe, and anything else the medal |
| TournamentCards.JsRemainder4 | tournament-cards.tsx:35 | the JavaScript remainder by 4 agrees with the mathematical one for non-negative ids and is never positive for negative ids |
| TournamentCards.TournamentColor | tournament-cards.tsx:28-36 | a non-negative id gets palette entry id mod 4; a negative id with a non-zero remainder gets undefined |
| TournamentCards.ColorPeriodic | tournament-cards.tsx:35 | ids congruent mod 4 share a colour, and neighbouring ids never do |
| TournamentCards.TypeLabel | tournament-cards.tsx:76 | league and cup get their labels, and every other type the international label |
| TournamentCards.LabelMatchesIcon | tournament-cards.tsx:15-26 | a card has the international label exactly when its icon is neither trophy nor crown |

## Left out

- WebSocket transport, `JSON.stringify` / `JSON.parse` on the wire and server construction (realtime.ts:33-39) are left out. Messages are datatypes, and a client message is either parsed with a `type` slot or unparseable.
- A JSON message that parses to `null` makes `message.type` throw inside the async handler. That is an unhandled rejection, not a caught error, and it is not modelled.
- The 30-second `setInterval` (realtime.ts:96-109) is left out. A tick is one sequential pass of the step over the live matches.
- Concurrency is left out. Interleavings between the timer and admin requests are async I/O, so the model has no locking.
- Send failures are left out. A failed `send` leaves the client registered, so nothing in the model unregisters on failure.
- `DatabaseStorage` (storage.ts:361-441) is left out. It is the exported instance, but its drizzle `.set` skips undefined keys while `MemStorage` overwrites them. The drizzle/pg table builders in schema.ts only give the record shapes.
- Storage.UpdateMatch: the `id` key of a partial update is not modelled. No caller in the core passes one.
- Storage.CreateMatch / Storage.CreateStanding: extra keys of the POST body or of a bulk-standings row are kept by the spread `...match` / `...standing` (storage.ts:311, 343) and returned by the read routes; records in the model have only the schema's fields, so such keys are not modelled.
- Headers sent as arrays, and `parseInt` on leading whitespace or a `0x` prefix, are left out. The model reads an optional `+` or `-` sign followed by decimal digits.
- Query values are single strings in the model (`Routes.Query` is an optional string). Express can parse a repeated or bracketed key into an array or object, and routes.ts:57-63 and 102-106 only cast it `as string`. So `?status=a&status=b` is truthy and filters by an array, which matches nothing, and `?tournament=1&tournament=2` reaches `parseInt("1,2")`, which is 1. Neither is modelled.
- ArabicUtils.GetMatchStatus: the source indexes a plain object literal, so `Object.prototype` keys such as `constructor` would return a function. The model treats them as unknown strings.
- ArabicUtils.FormatArabicNumber: only integers are modelled. A fraction's `.` is dropped like the sign, and that is not stated. The model writes the exact decimal digits of every integer, while `toString` (arabic-utils.ts:3) switches to exponent form from 1e21 (`1e+21`, whose `e` and `+` are dropped) and above 2^53 prints the shortest digits that round-trip the double, not the exact ones. The digit-level contract holds in the source only for safe integers.
- ArabicUtils.FormatArabicInjective: holds in the source only below 1e21: 10^21 prints `1e+21`, which maps to the same text as 121. The same bound applies to ArabicRoundTrip and ScoreLineInjective, which rest on the exact-digit model.
- `formatMatchDate` (arabic-utils.ts:14-31) is left out: it is day arithmetic on `Date` values.
- `getViewerStats` (streaming.ts:142-165) is left out: it is floating-point shares of a random count.
- `preloadMatchContent` (streaming.ts:168-190) is left out: it only does network fetches.
- `fetchTeamStats` and `fetchPlayerStats` (sports-api.ts:152-173) are left out: they are random stubs with no logic.
- `fetchLiveMatches` (sports-api.ts:30-44) is left out: it only wraps the generator. `syncMatchData` takes the external matches as a parameter.
- Storage.CreateStanding: `position` is a number in every modelled insert. A bulk-standings row without one would be stored with position undefined and sorted by NaN comparisons; that is not modelled.
- Realtime.TickOver: states only the hub and the length of the sends; the exact sends and the store are stated by `TickOverSends` and `TickOverStore`.
- SportsApi.AwayTeam: the away-team redraw loop may never end in the source. The model gives a finite list of draws and returns no result when none of them differs from home.
- StreamAnalytics.Split: floating-point rounding of `Math.floor(current * share)` is modelled with exact reals. The same holds for the peak, the health readings and the load fluctuation.
- The analytics panel's interval and React state updates (stream-analytics.tsx:51-88) are left out. Each tick is a function of the previous peak and history; the effect is re-created whenever the peak changes, so a tick reads the latest peak.
- UpcomingFixtures.FormatTimeSpec: `new Date(dateString)` and time zones are left out. The local hour and minute are inputs, and an unparseable date is `InvalidDate`.
- Rendering, DOM and media state, local-storage auth and routing in the client components are left out.

## Findings

| source | as written | input that shows it | evidently intended | confidence | as-written member | corrected member |
|---|---|---|---|---|---|---|
| admin.ts:8-14 | the gate compares the `x-admin-key` header with `process.env.ADMIN_API_KEY` using `!==` | `ADMIN_API_KEY` unset and a request without the header: `undefined !== undefined` is false, so every admin route is open | with no key configured, no request is admitted | not executed | Admin.UnconfiguredRouterIsOpen | Admin.HandleCorrected |
| admin.ts:107-114 | `scheduledMatches` counts matches whose status is `scheduled` | a store written only by seeding and ticks: both store only `live`, `upcoming` or `finished`, so the count stays 0 while upcoming matches wait; only an admin POST with status `scheduled` is ever counted | count the `upcoming` matches, so that live + finished + scheduled is the total | not executed | Admin.StatsScheduledAlwaysZero | Admin.StatsPartition |

=== FILE: admin.dfy ===
/** The admin router: the key gate in front of every route, the match update that
    writes first and broadcasts only on success, match creation, the tournament and
    standings routes, the statistics counts, the stream list, and the manual
    live-update dispatch that broadcasts without writing. */
module Admin {
  import opened Js
  import opened Seqs
  import opened Schema
  import opened Storage
  import opened Realtime

  /** `process.env.ADMIN_API_KEY`, and whether `app.get('realtimeService')` is set. */
  datatype Config = Config(adminKey: Option<string>, realtimeAttached: bool)

  // ---------------------------------------------------------------- the gate

  /** `adminAuth` as written: a request passes when its `x-admin-key` header is
      strictly equal to the configured key, so with no key configured a request
      without the header passes too (`undefined !== undefined` is false). */
  function AdminAuthAsWritten(header: Option<string>, adminKey: Option<string>): (pass: bool)
    ensures adminKey.None? ==> (pass <==> header.None?)
    ensures adminKey.Some? ==> (pass <==> header.Some? && header.value == adminKey.value)
  {
    header == adminKey
  }

  /** The gate the middleware is meant to be: a configured key, presented exactly. */
  function AdminAuth(header: Option<string>, adminKey: Option<string>): (pass: bool)
    ensures pass ==> header.Some?
  {
    adminKey.Some? && header == adminKey
  }

  /** The written gate admits anybody when the key is not configured. */
  lemma AdminAuthAsWrittenOpensUnconfigured()
    ensures AdminAuthAsWritten(None, None)
    ensures !AdminAuth(None, None)
  {
  }

  /** Once a key is configured the two gates agree on every header, and otherwise the
      intended gate refuses every request. */
  lemma AdminAuthAgreement(header: Option<string>, adminKey: Option<string>)
    ensures adminKey.Some? ==> (AdminAuth(header, adminKey) <==> AdminAuthAsWritten(header, adminKey))
    ensures adminKey.None? ==> !AdminAuth(header, adminKey)
    ensures AdminAuth(header, adminKey) ==> AdminAuthAsWritten(header, adminKey)
  {
  }

  // ---------------------------------------------------------------- requests and replies

  /** The destructured body of PUT /matches/:id; a key the body lacks is `undefined`. */
  datatype MatchUpdateBody = MatchUpdateBody(
    homeScore: Slot<int>, awayScore: Slot<int>, currentMinute: Slot<int>,
    status: Slot<string>, events: Slot<seq<MatchEvent>>)

  /** The `data` object of a live update. */
  datatype LiveData = LiveData(
    homeScore: Slot<int>, awayScore: Slot<int>, minute: Slot<int>,
    playerName: Slot<string>, playerNameAr: Slot<string>, teamId: Slot<int>, cardType: Slot<string>)

  /** One row of PUT /standings: the standing, and whether the row carries its own
      `tournamentId` key, which then wins over the one in the path. */
  datatype StandingRow = StandingRow(ownTournamentId: bool, standing: InsertStanding)

  datatype Route =
    | PutMatch(id: string, body: MatchUpdateBody)
    | PostMatch(insert: InsertMatch)
    | PutTournament(id: string)
    | GetStats
    | PutStandings(tournamentId: string, rows: Option<seq<StandingRow>>)  // None: not iterable
    | GetStreams(viewerDraws: seq<real>)                                  // one Math.random() per live match
    | PostLiveUpdate(matchId: string, kind: Slot<string>, data: Option<LiveData>, now: int)  // None: null or absent

  datatype Request = Request(adminKey: Option<string>, route: Route)

  datatype Stats = Stats(
    totalTournaments: nat, totalTeams: nat, totalMatches: nat,
    liveMatches: nat, finishedMatches: nat, scheduledMatches: nat)

  datatype StreamInfo = StreamInfo(
    matchId: int, streamUrl: Slot<string>, status: Slot<string>,
    viewers: int, quality: string, bitrate: string)

  datatype Body =
    | Failure(error: string)
    | MatchSaved(saved: Match, message: string)
    | Acknowledged(message: string)
    | StatsReport(stats: Stats, message: string)
    | StreamList(streams: seq<StreamInfo>, message: string)

  datatype Reply = Reply(status: int, body: Body)

  datatype Outcome = Outcome(sys: System, reply: Reply)

  const Unauthorized := Reply(401, Failure("Unauthorized"))
  const InternalError := Reply(500, Failure("Internal server error"))

  // ---------------------------------------------------------------- PUT /matches/:id

  /** The update object handed to `updateMatch`: all four keys, even those the body lacks. */
  function BodyPatch(b: MatchUpdateBody): MatchPatch
  {
    LivePatch(b.homeScore, b.awayScore, b.currentMinute, b.status)
  }

  /** The update handed to `broadcastMatchUpdate`: the same four values plus the events. */
  function BodyUpdate(b: MatchUpdateBody): PartialUpdate
  {
    PartialUpdate(Some(b.homeScore), Some(b.awayScore), Some(b.currentMinute), Some(b.status), Some(b.events))
  }

  /** Write first; an absent match (or an id `parseInt` cannot read) is 404 with nothing
      sent; otherwise broadcast when the realtime service is attached and return the record. */
  function UpdateMatchRoute(sys: System, cfg: Config, id: string, b: MatchUpdateBody): (r: Outcome)
    ensures r.sys.hub == sys.hub
    ensures r.reply.status == 200 || r.reply.status == 404
    ensures r.reply.status == 404 <==> ParseInt(id).None? || GetMatchById(sys.store, ParseInt(id).value).None?
    ensures r.reply.status == 404 ==> r.sys == sys && r.reply.body == Failure("Match not found")
    ensures r.reply.status == 200 ==>
      && r.reply.body.MatchSaved?
      && r.reply.body.saved == Merge(GetMatchById(sys.store, ParseInt(id).value).value, BodyPatch(b))
      && r.sys.store == UpdateMatch(sys.store, ParseInt(id).value, BodyPatch(b)).store
      && (cfg.realtimeAttached ==>
            r.sys.sent == sys.sent + BroadcastToAll(sys.hub, MatchUpdate(UpdatePayload(Val(ParseInt(id).value), BodyUpdate(b)))))
      && (!cfg.realtimeAttached ==> r.sys.sent == sys.sent)
  {
    match ParseInt(id)
    case None => Outcome(sys, Reply(404, Failure("Match not found")))
    case Some(n) =>
      var written := UpdateMatch(sys.store, n, BodyPatch(b));
      match written.result
      case None => Outcome(sys, Reply(404, Failure("Match not found")))
      case Some(saved) =>
        var stored := sys.(store := written.store);
        var told := if cfg.realtimeAttached then BroadcastMatchUpdate(stored, Val(n), BodyUpdate(b)) else stored;
        Outcome(told, Reply(200, MatchSaved(saved, "تم تحديث المباراة بنجاح")))
  }

  /** After a successful update the store holds exactly the record the reply carries,
      whose four live fields are the body's values (an absent one written as `undefined`),
      and every other match is as it was. */
  lemma UpdateMatchRouteStores(sys: System, cfg: Config, id: string, b: MatchUpdateBody)
    requires Valid(sys.store)
    ensures var r := UpdateMatchRoute(sys, cfg, id, b);
      r.reply.status == 200 ==>
        && Valid(r.sys.store)
        && GetMatchById(r.sys.store, ParseInt(id).value) == Some(r.reply.body.saved)
        && r.reply.body.saved.homeScore == b.homeScore && r.reply.body.saved.awayScore == b.awayScore
        && r.reply.body.saved.currentMinute == b.currentMinute && r.reply.body.saved.status == b.status
        && (forall k :: k != ParseInt(id).value ==> GetMatchById(r.sys.store, k) == GetMatchById(sys.store, k))
  {
    var r := UpdateMatchRoute(sys, cfg, id, b);
    if r.reply.status == 200 {
      var n := ParseInt(id).value;
      var written := UpdateMatch(sys.store, n, BodyPatch(b));
      UpdateMatchFrame(sys.store, n, BodyPatch(b));
      UpdateMatchLookups(sys.store, n, BodyPatch(b), n);
      assert r.sys.store == written.store;
      assert Some(r.reply.body.saved) == written.result;
      forall k | k != n ensures GetMatchById(written.store, k) == GetMatchById(sys.store, k) {
        UpdateMatchLookups(sys.store, n, BodyPatch(b), k);
      }
    }
  }

  // ---------------------------------------------------------------- the other writes

  /** POST /matches: `createMatch` on the body, always a success. */
  function CreateMatchRoute(sys: System, insert: InsertMatch): (r: Outcome)
    ensures r.reply.status == 200 && r.reply.body.MatchSaved?
    ensures r.sys == sys.(store := CreateMatch(sys.store, insert).store)
    ensures r.reply.body.saved == CreateMatch(sys.store, insert).record
  {
    var created := CreateMatch(sys.store, insert);
    Outcome(sys.(store := created.store), Reply(200, MatchSaved(created.record, "تم إنشاء المباراة بنجاح")))
  }

  /** PUT /tournaments/:id: a lookup and nothing else; 404 exactly when there is no such tournament. */
  function UpdateTournamentRoute(sys: System, id: string): (r: Outcome)
    ensures r.sys == sys
    ensures r.reply.status == 404 <==> ParseInt(id).None? || GetTournamentById(sys.store, ParseInt(id).value).None?
    ensures r.reply.status != 404 ==> r.reply == Reply(200, Acknowledged("تم تحديث البطولة بنجاح"))
  {
    match ParseInt(id)
    case None => Outcome(sys, Reply(404, Failure("Tournament not found")))
    case Some(n) =>
      if GetTournamentById(sys.store, n).None? then Outcome(sys, Reply(404, Failure("Tournament not found")))
      else Outcome(sys, Reply(200, Acknowledged("تم تحديث البطولة بنجاح")))
  }

  /** `{ tournamentId, ...standing }`: the row's own key wins over the path's. */
  function RowStanding(tournamentId: Slot<int>, row: StandingRow): (st: InsertStanding)
    ensures !row.ownTournamentId ==> st == row.standing.(tournamentId := tournamentId)
    ensures row.ownTournamentId ==> st == row.standing
  {
    if row.ownTournamentId then row.standing else row.standing.(tournamentId := tournamentId)
  }

  /** `createStanding` for each row in order. */
  function CreateStandings(s: Store, tournamentId: Slot<int>, rows: seq<StandingRow>): (r: Store)
    ensures r.nextStandingId == s.nextStandingId + |rows|
    ensures r.tournaments == s.tournaments && r.teams == s.teams && r.matches == s.matches
    decreases |rows|
  {
    if |rows| == 0 then s
    else CreateStandings(CreateStanding(s, RowStanding(tournamentId, rows[0])).store, tournamentId, rows[1..])
  }

  /** Each row becomes a new standing with the next id, appended after the existing
      ones; nothing is replaced, whatever the rows say. */
  lemma {:induction false} CreateStandingsAppends(s: Store, tournamentId: Slot<int>, rows: seq<StandingRow>)
    requires Valid(s)
    ensures var r := CreateStandings(s, tournamentId, rows);
      && Valid(r)
      && |r.standings| == |s.standings| + |rows|
      && ValuesOf(r.standings)[..|s.standings|] == ValuesOf(s.standings)
      && var added := ValuesOf(r.standings)[|s.standings|..];
         forall i :: 0 <= i < |rows| ==>
           added[i].id == s.nextStandingId + i && added[i].position == rows[i].standing.position
    decreases |rows|
  {
    if |rows| > 0 {
      var c := CreateStanding(s, RowStanding(tournamentId, rows[0]));
      var none: InsertTournament := InsertTournament(Undefined, "", "", "", Undefined, "", Undefined);
      var noTeam: InsertTeam := InsertTeam(Undefined, "", "", "", Undefined);
      CreateOthersValid(s, none, noTeam, RowStanding(tournamentId, rows[0]));
      CreateStandingsAppends(c.store, tournamentId, rows[1..]);
      var r := CreateStandings(s, tournamentId, rows);
      assert r == CreateStandings(c.store, tournamentId, rows[1..]);
      var before := ValuesOf(s.standings);
      var mid := ValuesOf(c.store.standings);
      var after := ValuesOf(r.standings);
      assert mid == before + [c.record];
      assert |mid| == |before| + 1;
      assert after[..|mid|] == mid;
      assert after[..|before|] == before by {
        assert after[..|before|] == mid[..|before|];
      }
      var added := after[|before|..];
      var later := after[|mid|..];
      assert added == [c.record] + later by {
        assert added[0] == after[|before|] == mid[|before|] == c.record;
        assert added[1..] == later;
      }
      forall i | 0 <= i < |rows|
        ensures added[i].id == s.nextStandingId + i && added[i].position == rows[i].standing.position
      {
        if i > 0 {
          assert added[i] == later[i - 1];
          assert rows[1..][i - 1] == rows[i];
        }
      }
    }
  }

  /** PUT /standings/:tournamentId: one `createStanding` per row; rows that are not an
      array make the loop throw, which is a 500 with nothing created. */
  function UpdateStandingsRoute(sys: System, tournamentId: string, rows: Option<seq<StandingRow>>): (r: Outcome)
    ensures r.sys.hub == sys.hub && r.sys.sent == sys.sent
    ensures rows.None? ==> r.sys == sys && r.reply == InternalError
    ensures rows.Some? ==>
      && r.reply == Reply(200, Acknowledged("تم تحديث جدول الترتيب بنجاح"))
      && r.sys.store == CreateStandings(sys.store, PathId(tournamentId), rows.value)
  {
    match rows
    case None => Outcome(sys, InternalError)
    case Some(rs) =>
      Outcome(sys.(store := CreateStandings(sys.store, PathId(tournamentId), rs)),
        Reply(200, Acknowledged("تم تحديث جدول الترتيب بنجاح")))
  }

  /** `parseInt` of a path segment as a property value: NaN when it reads no digits. */
  function PathId(text: string): (r: Slot<int>)
    ensures ParseInt(text).None? <==> r == NaN
    ensures ParseInt(text).Some? ==> r == Val(ParseInt(text).value)
  {
    match ParseInt(text)
    case None => NaN
    case Some(n) => Val(n)
  }

  // ---------------------------------------------------------------- GET /stats

  /** GET /stats as written: the finished count is of status "finished" and the
      scheduled count is of status "scheduled". */
  function StatsAsWritten(s: Store): (r: Stats)
    ensures r.totalMatches == r.liveMatches + |Filter(GetMatches(s), NotHasStatus("live"))|
  {
    FilterSplit(GetMatches(s), HasStatus("live"), NotHasStatus("live"));
    Stats(|GetTournaments(s)|, |GetTeams(s)|, |GetMatches(s)|,
      |GetMatchesByStatus(s, "live")|,
      |Filter(GetMatches(s), HasStatus("finished"))|,
      |Filter(GetMatches(s), HasStatus("scheduled"))|)
  }

  function NotHasStatus(status: string): Match -> bool
  {
    (m: Match) => m.status != Val(status)
  }

  lemma {:induction false} FilterSplit(s: seq<Match>, p: Match -> bool, q: Match -> bool)
    requires forall m :: q(m) <==> !p(m)
    ensures |s| == |Filter(s, p)| + |Filter(s, q)|
    decreases |s|
  {
    if |s| > 0 {
      FilterSplit(s[1..], p, q);
    }
  }

  /** In a store whose statuses are the known ones (start-up and any number of ticks,
      see `InitialStatusesKnown` and `TickKeepsStatusesKnown`) "scheduled" is carried by
      no match, so the written count is 0 even when matches are waiting to be played. */
  lemma StatsScheduledAlwaysZero(s: Store)
    requires KnownStatuses(s)
    ensures StatsAsWritten(s).scheduledMatches == 0
  {
    var ms := GetMatches(s);
    forall i | 0 <= i < |ms| ensures !HasStatus("scheduled")(ms[i]) {
      assert ms[i] == s.matches[i].value;
    }
    FilterNone(ms, HasStatus("scheduled"));
  }

  /** An admin POST can store "scheduled" (the body's status is kept as given), and the
      written count then sees it: outside start-up and ticks the count is not always 0. */
  lemma CreatedScheduledIsCounted(sys: System, m: InsertMatch)
    requires Valid(sys.store) && m.status == Val("scheduled")
    ensures StatsAsWritten(CreateMatchRoute(sys, m).sys.store).scheduledMatches
         == StatsAsWritten(sys.store).scheduledMatches + 1
  {
    var c := CreateMatch(sys.store, m);
    CreateMatchAppends(sys.store, m);
    FilterAppend(GetMatches(sys.store), [c.record], HasStatus("scheduled"));
  }

  /** GET /stats with the not-yet-played count taken over "upcoming", the status the
      seeds and the clients use for a fixture that has not started. */
  function CountStats(s: Store): (r: Stats)
    ensures r.totalTournaments == |GetTournaments(s)| && r.totalTeams == |GetTeams(s)| && r.totalMatches == |GetMatches(s)|
    ensures r.liveMatches == |GetMatchesByStatus(s, "live")|
    ensures r.finishedMatches == StatsAsWritten(s).finishedMatches
    ensures r.scheduledMatches <= r.totalMatches && r.liveMatches <= r.totalMatches && r.finishedMatches <= r.totalMatches
  {
    StatsAsWritten(s).(scheduledMatches := |Filter(GetMatches(s), HasStatus("upcoming"))|)
  }

  function InStatuses(a: string, b: string): Match -> bool
  {
    (m: Match) => m.status == Val(a) || m.status == Val(b)
  }

  lemma {:induction false} FilterDisjoint(s: seq<Match>, a: string, b: string)
    requires a != b
    ensures |Filter(s, InStatuses(a, b))| == |Filter(s, HasStatus(a))| + |Filter(s, HasStatus(b))|
    decreases |s|
  {
    if |s| > 0 {
      FilterDisjoint(s[1..], a, b);
    }
  }

  /** With the intended count the three numbers partition the matches of a store
      whose statuses are the known ones. */
  lemma StatsPartition(s: Store)
    requires KnownStatuses(s)
    ensures var r := CountStats(s);
      r.liveMatches + r.finishedMatches + r.scheduledMatches == r.totalMatches
  {
    var ms := GetMatches(s);
    FilterSplit(ms, HasStatus("live"), NotHasStatus("live"));
    forall i | 0 <= i < |ms| ensures NotHasStatus("live")(ms[i]) == InStatuses("finished", "upcoming")(ms[i]) {
      assert ms[i] == s.matches[i].value;
    }
    FilterSame(ms, NotHasStatus("live"), InStatuses("finished", "upcoming"));
    FilterDisjoint(ms, "finished", "upcoming");
  }

  lemma {:induction false} FilterSame(s: seq<Match>, p: Match -> bool, q: Match -> bool)
    requires forall i :: 0 <= i < |s| ==> p(s[i]) == q(s[i])
    ensures Filter(s, p) == Filter(s, q)
    decreases |s|
  {
    if |s| > 0 {
      FilterSame(s[1..], p, q);
    }
  }

  /** GET /stats: the counts as written and a fixed message, nothing changed. What the
      written counts mean is pinned down by `StatsScheduledAlwaysZero` (no "scheduled"
      match after start-up and ticks) and `CreatedScheduledIsCounted` (an admin POST can
      store one); `StatsPartition` states the intended counts. */
  function StatsRoute(sys: System): (r: Outcome)
    ensures r.sys == sys
    ensures r.reply == Reply(200, StatsReport(StatsAsWritten(sys.store), "إحصائيات النظام"))
  {
    Outcome(sys, Reply(200, StatsReport(StatsAsWritten(sys.store), "إحصائيات النظام")))
  }

  // ---------------------------------------------------------------- GET /streams

  /** One entry per live match, in order, with a simulated viewer count. */
  function StreamInfos(live: seq<Match>, viewerDraws: seq<real>): (r: seq<StreamInfo>)
    requires |viewerDraws| == |live|
    requires forall i :: 0 <= i < |viewerDraws| ==> IsRandom(viewerDraws[i])
    ensures |r| == |live|
    ensures forall i :: 0 <= i < |r| ==>
      && r[i].matchId == live[i].id && r[i].streamUrl == live[i].streamUrl && r[i].status == live[i].status
      && 1000 <= r[i].viewers < 11000
      && r[i].quality == "1080p" && r[i].bitrate == "5000 kbps"
  {
    seq(|live|, i requires 0 <= i < |live| =>
      StreamInfo(live[i].id, live[i].streamUrl, live[i].status, Viewers(viewerDraws[i]), "1080p", "5000 kbps"))
  }

  /** `Math.floor(Math.random() * 10000) + 1000` */
  function Viewers(draw: real): (v: int)
    requires IsRandom(draw)
    ensures 1000 <= v < 11000
  {
    FloorOfRandom(draw, 10000);
    (draw * 10000.0).Floor + 1000
  }

  function StreamsRoute(sys: System, viewerDraws: seq<real>): (r: Outcome)
    requires |viewerDraws| == |GetMatchesByStatus(sys.store, "live")|
    requires forall i :: 0 <= i < |viewerDraws| ==> IsRandom(viewerDraws[i])
    ensures r.sys == sys
    ensures r.reply.status == 200 && r.reply.body.StreamList?
    ensures |r.reply.body.streams| == |GetMatchesByStatus(sys.store, "live")|
    ensures r.reply.body.streams == StreamInfos(GetMatchesByStatus(sys.store, "live"), viewerDraws)
  {
    Outcome(sys, Reply(200, StreamList(StreamInfos(GetMatchesByStatus(sys.store, "live"), viewerDraws), "قائمة البث المباشر")))
  }

  // ---------------------------------------------------------------- POST /live-update/:matchId

  function LiveGoalEvent(matchId: Slot<int>, d: LiveData, now: int): MatchEvent
  {
    MatchEvent(now, matchId, d.minute, Val("goal"), d.playerName, d.playerNameAr, d.teamId, "Goal!", "هدف!")
  }

  function CardEvent(matchId: Slot<int>, d: LiveData, now: int): MatchEvent
  {
    MatchEvent(now, matchId, d.minute, d.cardType, d.playerName, d.playerNameAr, d.teamId,
      Interpolate(d.cardType) + " card",
      if d.cardType == Val("yellow_card") then "كارت أصفر" else "كارت أحمر")
  }

  /** The update a live-update broadcasts: a goal carries both scores and one goal
      event; a card carries its event only; any other type broadcasts nothing. */
  function LiveUpdatePayload(kind: Slot<string>, matchId: Slot<int>, d: LiveData, now: int): (u: Option<PartialUpdate>)
    ensures u.Some? <==> kind == Val("goal") || kind == Val("card")
    ensures u.Some? ==> u.value.currentMinute.None? && u.value.status.None?
    ensures u.Some? ==> u.value.events.Some? && u.value.events.value.Val? && |u.value.events.value.v| == 1
    ensures u.Some? ==> u.value.events.value.v[0].matchId == matchId && u.value.events.value.v[0].id == now
    ensures kind == Val("goal") ==>
      u.value.homeScore == Some(d.homeScore) && u.value.awayScore == Some(d.awayScore)
      && u.value.events.value.v[0].kind == Val("goal")
    ensures kind == Val("card") ==>
      u.value.homeScore.None? && u.value.awayScore.None?
      && u.value.events.value.v[0].kind == d.cardType
      && (u.value.events.value.v[0].descriptionAr == "كارت أصفر" <==> d.cardType == Val("yellow_card"))
      && (u.value.events.value.v[0].descriptionAr != "كارت أصفر" ==> u.value.events.value.v[0].descriptionAr == "كارت أحمر")
  {
    if kind == Val("goal") then
      Some(PartialUpdate(Some(d.homeScore), Some(d.awayScore), None, None, Some(Val([LiveGoalEvent(matchId, d, now)]))))
    else if kind == Val("card") then
      Some(PartialUpdate(None, None, None, None, Some(Val([CardEvent(matchId, d, now)]))))
    else None
  }

  /** POST /live-update/:matchId: no store access at all. A goal or card with no realtime
      service or no `data` object throws before anything is sent: 500. Any other type is a
      success that sends nothing. */
  function LiveUpdateRoute(sys: System, cfg: Config, matchId: string, kind: Slot<string>, data: Option<LiveData>, now: int): (r: Outcome)
    ensures r.sys.store == sys.store && r.sys.hub == sys.hub
    ensures r.reply == InternalError || r.reply == Reply(200, Acknowledged("تم إرسال التحديث المباشر"))
    ensures r.reply == InternalError <==>
      (kind == Val("goal") || kind == Val("card")) && (!cfg.realtimeAttached || data.None?)
    ensures r.reply == InternalError ==> r.sys == sys
    ensures !(kind == Val("goal") || kind == Val("card")) ==> r.sys == sys
    ensures r.reply != InternalError && (kind == Val("goal") || kind == Val("card")) ==>
      r.sys.sent == sys.sent + BroadcastToAll(sys.hub,
        MatchUpdate(UpdatePayload(PathId(matchId), LiveUpdatePayload(kind, PathId(matchId), data.value, now).value)))
  {
    var ok := Reply(200, Acknowledged("تم إرسال التحديث المباشر"));
    if !(kind == Val("goal") || kind == Val("card")) then Outcome(sys, ok)
    else if !cfg.realtimeAttached || data.None? then Outcome(sys, InternalError)
    else
      var u := LiveUpdatePayload(kind, PathId(matchId), data.value, now).value;
      Outcome(BroadcastMatchUpdate(sys, PathId(matchId), u), ok)
  }

  // ---------------------------------------------------------------- the router

  /** What a route needs beyond the request: one viewer draw per live match for GET /streams. */
  predicate Drawn(sys: System, req: Request)
  {
    req.route.GetStreams? ==>
      |req.route.viewerDraws| == |GetMatchesByStatus(sys.store, "live")|
      && forall i :: 0 <= i < |req.route.viewerDraws| ==> IsRandom(req.route.viewerDraws[i])
  }

  /** The routes behind the gate. */
  function Dispatch(sys: System, cfg: Config, req: Request): (r: Outcome)
    requires Drawn(sys, req)
    ensures r.reply != Unauthorized
    ensures r.sys.hub == sys.hub
  {
    match req.route
    case PutMatch(id, b) => UpdateMatchRoute(sys, cfg, id, b)
    case PostMatch(insert) => CreateMatchRoute(sys, insert)
    case PutTournament(id) => UpdateTournamentRoute(sys, id)
    case GetStats => StatsRoute(sys)
    case PutStandings(t, rows) => UpdateStandingsRoute(sys, t, rows)
    case GetStreams(draws) => StreamsRoute(sys, draws)
    case PostLiveUpdate(id, kind, data, now) => LiveUpdateRoute(sys, cfg, id, kind, data, now)
  }

  /** `router.use(adminAuth)` and the routes behind it, with the gate as written. */
  function Handle(sys: System, cfg: Config, req: Request): (r: Outcome)
    requires Drawn(sys, req)
    ensures req.adminKey != cfg.adminKey ==> r == Outcome(sys, Unauthorized)
    ensures req.adminKey == cfg.adminKey ==> r.reply != Unauthorized
    ensures r.sys.hub == sys.hub
  {
    if !AdminAuthAsWritten(req.adminKey, cfg.adminKey) then Outcome(sys, Unauthorized)
    else Dispatch(sys, cfg, req)
  }

  /** The router with the intended gate in front. */
  function HandleCorrected(sys: System, cfg: Config, req: Request): (r: Outcome)
    requires Drawn(sys, req)
    ensures cfg.adminKey.None? ==> r == Outcome(sys, Unauthorized)
    ensures r.reply != Unauthorized ==> req.adminKey.Some? && req.adminKey == cfg.adminKey
    ensures r.sys.hub == sys.hub
  {
    if !AdminAuth(req.adminKey, cfg.adminKey) then Outcome(sys, Unauthorized)
    else Dispatch(sys, cfg, req)
  }

  /** With no key configured, the router as written answers a request without the
      header as if it were authorised; the intended router refuses it. */
  lemma UnconfiguredRouterIsOpen(sys: System, cfg: Config, req: Request)
    requires Drawn(sys, req)
    requires cfg.adminKey.None? && req.adminKey.None?
    ensures Handle(sys, cfg, req) == Dispatch(sys, cfg, req)
    ensures Handle(sys, cfg, req).reply != Unauthorized
    ensures HandleCorrected(sys, cfg, req).reply == Unauthorized
  {
  }

  /** Once a key is configured the two routers behave alike on every request. */
  lemma ConfiguredRoutersAgree(sys: System, cfg: Config, req: Request)
    requires Drawn(sys, req)
    requires cfg.adminKey.Some?
    ensures Handle(sys, cfg, req) == HandleCorrected(sys, cfg, req)
  {
    AdminAuthAgreement(req.adminKey, cfg.adminKey);
  }

  /** Only three routes ever send anything, and only the match and standings writes and
      match creation change the store. */
  lemma HandleEffects(sys: System, cfg: Config, req: Request)
    requires Drawn(sys, req)
    ensures var r := Handle(sys, cfg, req);
      && (!(req.route.PutMatch? || req.route.PostLiveUpdate?) ==> r.sys.sent == sys.sent)
      && (req.route.PostLiveUpdate? || req.route.GetStats? || req.route.GetStreams? || req.route.PutTournament? ==>
            r.sys.store == sys.store)
  {
  }
}

=== FILE: analytics.dfy ===
/** The stream analytics panel's state updates: the simulated viewer count, the peak,
    the per-region and per-quality split, the health classification, the sliding
    history of the last twenty readings, and the status text and colour. */
module StreamAnalytics {
  import opened Js
  import Streaming

  /** `Math.floor(Math.random() * 50000) + 10000` */
  function CurrentViewers(draw: real): (n: int)
    requires IsRandom(draw)
    ensures 10000 <= n <= 59999
  {
    assert draw * 50000.0 < 50000.0;
    (draw * 50000.0).Floor + 10000
  }

  /** `Math.max(current * 1.3, peak)`, in exact arithmetic. */
  function NextPeak(current: int, peak: real): (r: real)
    ensures r >= peak && r >= current as real * 1.3
    ensures r == peak || r == current as real * 1.3
  {
    var scaled := current as real * 1.3;
    if scaled > peak then scaled else peak
  }

  /** Over any run of readings the peak never falls and is at least 1.3 times every
      reading seen. */
  lemma {:induction false} PeakDominates(readings: seq<int>, peak: real)
    ensures PeakAfter(readings, peak) >= peak
    ensures forall i :: 0 <= i < |readings| ==> PeakAfter(readings, peak) >= readings[i] as real * 1.3
    decreases |readings|
  {
    if |readings| > 0 {
      var last := readings[|readings| - 1];
      var before := readings[..|readings| - 1];
      PeakDominates(before, peak);
      assert forall i :: 0 <= i < |before| ==> before[i] == readings[i];
    }
  }

  /** The peak after a run of ticks. */
  function PeakAfter(readings: seq<int>, peak: real): real
  {
    if |readings| == 0 then peak
    else NextPeak(readings[|readings| - 1], PeakAfter(readings[..|readings| - 1], peak))
  }

  /** The region and quality breakdowns, `Math.floor(current * share)`, in exact arithmetic. */
  datatype Breakdown = Breakdown(middleEast: int, europe: int, america: int, p1080: int, p720: int, p480: int, p360: int)

  function Split(current: nat): (b: Breakdown)
    ensures 0 <= b.middleEast && 0 <= b.europe && 0 <= b.america
    ensures current - 2 <= b.middleEast + b.europe + b.america <= current
    ensures 0 <= b.p1080 && 0 <= b.p720 && 0 <= b.p480 && 0 <= b.p360
    ensures current - 3 <= b.p1080 + b.p720 + b.p480 + b.p360 <= current
  {
    var c := current as real;
    Breakdown((c * 0.6).Floor, (c * 0.25).Floor, (c * 0.15).Floor,
              (c * 0.4).Floor, (c * 0.35).Floor, (c * 0.2).Floor, (c * 0.05).Floor)
  }

  /** The status the panel shows: the same rule as the server-side check, as the
      string the panel stores. */
  function HealthStatus(latency: real, bufferHealth: real): (s: string)
    ensures s in {"healthy", "degraded", "offline"}
  {
    if latency < 100.0 && bufferHealth > 70.0 then "healthy"
    else if latency < 150.0 && bufferHealth > 50.0 then "degraded"
    else "offline"
  }

  function HealthName(h: Streaming.Health): string
  {
    match h
    case Healthy => "healthy"
    case Degraded => "degraded"
    case Down => "offline"
  }

  /** The panel and the streaming service classify every reading alike. */
  lemma HealthAgreesWithServer(latency: real, bufferHealth: real)
    ensures HealthStatus(latency, bufferHealth) == HealthName(Streaming.HealthStatus(latency, bufferHealth))
  {
  }

  /** `[...prev.slice(-19), current]` */
  function NextHistory(prev: seq<int>, current: int): (r: seq<int>)
    ensures |r| <= 20 && |r| == (if |prev| < 19 then |prev| else 19) + 1
    ensures r[|r| - 1] == current
    ensures r[..|r| - 1] == prev[|prev| - (|r| - 1)..]
  {
    var from := if |prev| < 19 then 0 else |prev| - 19;
    prev[from..] + [current]
  }

  /** The last `n` items of `s` (all of them when there are fewer). */
  function LastN(s: seq<int>, n: nat): (r: seq<int>)
    ensures |r| == if |s| < n then |s| else n
  {
    if |s| < n then s else s[|s| - n..]
  }

  /** One tick on the last twenty of `s` gives the last twenty of `s` and the reading. */
  lemma NextOfLastTwenty(s: seq<int>, x: int)
    ensures NextHistory(LastN(s, 20), x) == LastN(s + [x], 20)
  {
    var h := LastN(s, 20);
    var all := s + [x];
    if |s| < 19 {
      assert NextHistory(h, x) == all;
    } else {
      assert h[|h| - 19..] == s[|s| - 19..];
      assert all[|all| - 20..] == s[|s| - 19..] + [x];
    }
  }

  /** Starting from any history of at most twenty, after a run of readings the history
      is the last twenty of the old history followed by the run. */
  lemma {:induction false} HistoryIsLastTwenty(start: seq<int>, readings: seq<int>)
    requires |start| <= 20
    ensures HistoryAfter(start, readings) == LastN(start + readings, 20)
    decreases |readings|
  {
    if |readings| == 0 {
      assert start + readings == start;
    } else {
      var before := readings[..|readings| - 1];
      var last := readings[|readings| - 1];
      HistoryIsLastTwenty(start, before);
      var h := HistoryAfter(start, before);
      assert HistoryAfter(start, readings) == NextHistory(h, last);
      NextOfLastTwenty(start + before, last);
      SplitLast(start, readings);
    }
  }

  lemma SplitLast(a: seq<int>, r: seq<int>)
    requires |r| > 0
    ensures a + r == (a + r[..|r| - 1]) + [r[|r| - 1]]
  {
    assert r == r[..|r| - 1] + [r[|r| - 1]];
  }

  /** The history after a run of ticks. */
  function HistoryAfter(start: seq<int>, readings: seq<int>): seq<int>
  {
    if |readings| == 0 then start
    else NextHistory(HistoryAfter(start, readings[..|readings| - 1]), readings[|readings| - 1])
  }

  /** `getStatusColor(status)` */
  function StatusColor(status: string): (r: string)
    ensures status == "healthy" ==> r == "text-green-600 bg-green-100"
    ensures status == "degraded" ==> r == "text-yellow-600 bg-yellow-100"
    ensures status == "offline" ==> r == "text-red-600 bg-red-100"
    ensures status !in {"healthy", "degraded", "offline"} ==> r == "text-gray-600 bg-gray-100"
  {
    if status == "healthy" then "text-green-600 bg-green-100"
    else if status == "degraded" then "text-yellow-600 bg-yellow-100"
    else if status == "offline" then "text-red-600 bg-red-100"
    else "text-gray-600 bg-gray-100"
  }

  /** `getStatusText(status)` */
  function StatusText(status: string): (r: string)
    ensures status == "healthy" ==> r == "ممتاز"
    ensures status == "degraded" ==> r == "متوسط"
    ensures status == "offline" ==> r == "غير متاح"
    ensures status !in {"healthy", "degraded", "offline"} ==> r == "غير معروف"
  {
    if status == "healthy" then "ممتاز"
    else if status == "degraded" then "متوسط"
    else if status == "offline" then "غير متاح"
    else "غير معروف"
  }

  /** Every status the panel's own rule produces gets a known text and colour, and the
      three of them are told apart by both. */
  lemma PanelStatusIsKnown(latency: real, bufferHealth: real, other: real, otherBuffer: real)
    ensures var s := HealthStatus(latency, bufferHealth);
      StatusText(s) != "غير معروف" && StatusColor(s) != "text-gray-600 bg-gray-100"
    ensures var s, t := HealthStatus(latency, bufferHealth), HealthStatus(other, otherBuffer);
      s != t ==> StatusText(s) != StatusText(t) && StatusColor(s) != StatusColor(t)
  {
    var s, t := HealthStatus(latency, bufferHealth), HealthStatus(other, otherBuffer);
    assert StatusText(s)[0] != 'غ' || StatusText(s)[1] != 'ي' || |StatusText(s)| != |"غير معروف"|;
    assert StatusColor(s)[7] != 'a';
    if s != t {
      assert StatusText(s)[1] != StatusText(t)[1] || StatusText(s)[0] != StatusText(t)[0];
      assert StatusColor(s)[7] != StatusColor(t)[7];
    }
  }
}

=== FILE: arabic.dfy ===
/** The client's Arabic text helpers: Arabic-Indic digits, the match-minute caption,
    the score line and the status label. */
module ArabicUtils {
  import opened Js

  /** The Arabic-Indic digit for `d`: U+0660 + d. */
  function ArabicDigit(d: int): (c: char)
    requires 0 <= d < 10
    ensures IsArabicDigit(c)
  {
    ('٠' as int + d) as char
  }

  predicate IsArabicDigit(c: char)
  {
    '٠' <= c <= '٩'
  }

  predicate AllArabic(s: string)
  {
    forall i :: 0 <= i < |s| ==> IsArabicDigit(s[i])
  }

  /** `arabicNumbers[parseInt(ch)]` joined: a digit becomes its Arabic-Indic digit, and
      any other character (`parseInt` gives NaN, the lookup undefined) joins as nothing. */
  function ArabicOf(c: char): (r: string)
    ensures IsDigit(c) ==> r == [ArabicDigit(DigitValue(c))]
    ensures !IsDigit(c) ==> r == ""
  {
    if IsDigit(c) then [ArabicDigit(DigitValue(c))] else ""
  }

  /** `s.split('').map(...).join('')` */
  function ArabicText(s: string): (r: string)
    ensures AllArabic(r)
    ensures AllDigits(s) ==> |r| == |s| && forall i :: 0 <= i < |s| ==> r[i] == ArabicDigit(DigitValue(s[i]))
  {
    if |s| == 0 then "" else ArabicOf(s[0]) + ArabicText(s[1..])
  }

  /** `formatArabicNumber(num)` on an integer. */
  function FormatArabicNumber(n: int): (r: string)
    ensures AllArabic(r)
    ensures n >= 0 ==> |r| == |Digits(n)| && forall i :: 0 <= i < |r| ==> r[i] == ArabicDigit(DigitValue(Digits(n)[i]))
  {
    ArabicText(ToDecimal(n))
  }

  /** A negative number loses its sign: the `-` has no Arabic-Indic digit. */
  lemma NegativeDropsSign(n: int)
    requires n < 0
    ensures FormatArabicNumber(n) == FormatArabicNumber(-n)
  {
    var s := "-" + Digits(-n);
    assert s[0] == '-' && s[1..] == Digits(-n);
  }

  /** Reads Arabic-Indic digits back as decimal digits. */
  function WesternText(r: string): (s: string)
    requires AllArabic(r)
    ensures |s| == |r| && AllDigits(s)
  {
    seq(|r|, i requires 0 <= i < |r| => DigitChar(r[i] as int - '٠' as int))
  }

  /** Reading the Arabic text back gives the decimal text and so the number itself. */
  lemma ArabicRoundTrip(n: nat)
    ensures WesternText(FormatArabicNumber(n)) == Digits(n)
    ensures DigitsValue(WesternText(FormatArabicNumber(n))) == n
  {
    var d, a := Digits(n), FormatArabicNumber(n);
    var w := WesternText(a);
    forall i | 0 <= i < |d| ensures w[i] == d[i] {
      DigitBack(d[i]);
    }
    assert w == d;
    DigitsRoundTrip(n);
  }

  /** A digit read back from its Arabic-Indic form. */
  lemma DigitBack(c: char)
    requires IsDigit(c)
    ensures DigitChar(ArabicDigit(DigitValue(c)) as int - '٠' as int) == c
  {
  }

  /** Distinct naturals are written differently. */
  lemma FormatArabicInjective(m: nat, n: nat)
    requires FormatArabicNumber(m) == FormatArabicNumber(n)
    ensures m == n
  {
    ArabicRoundTrip(m);
    ArabicRoundTrip(n);
  }

  const MinutePrefix: string := "الدقيقة "

  /** `formatMatchTime(minutes)` */
  function FormatMatchTime(minutes: int): (r: string)
    ensures |r| == |MinutePrefix| + |FormatArabicNumber(minutes)|
    ensures r[..|MinutePrefix|] == MinutePrefix && r[|MinutePrefix|..] == FormatArabicNumber(minutes)
  {
    MinutePrefix + FormatArabicNumber(minutes)
  }

  /** The caption of a non-negative minute reads back as that minute. */
  lemma MatchTimeReadsBack(minutes: nat)
    ensures var tail := FormatMatchTime(minutes)[|MinutePrefix|..];
      AllArabic(tail) && DigitsValue(WesternText(tail)) == minutes
  {
    ArabicRoundTrip(minutes);
  }

  /** `formatScore(homeScore, awayScore)`: the away score is written first. */
  function FormatScore(homeScore: int, awayScore: int): (r: string)
    ensures |r| == |FormatArabicNumber(awayScore)| + 3 + |FormatArabicNumber(homeScore)|
    ensures r[..|FormatArabicNumber(awayScore)|] == FormatArabicNumber(awayScore)
    ensures r[|r| - |FormatArabicNumber(homeScore)|..] == FormatArabicNumber(homeScore)
  {
    FormatArabicNumber(awayScore) + " - " + FormatArabicNumber(homeScore)
  }

  /** Digits contain no space, so the first space of a score line ends the away score. */
  lemma FirstSpace(x: string, u: string)
    requires AllArabic(x)
    ensures (x + " - " + u)[|x|] == ' '
    ensures forall i :: 0 <= i < |x| ==> (x + " - " + u)[i] != ' '
  {
  }

  /** For non-negative scores the score line determines both scores. */
  lemma ScoreLineInjective(h1: nat, a1: nat, h2: nat, a2: nat)
    requires FormatScore(h1, a1) == FormatScore(h2, a2)
    ensures h1 == h2 && a1 == a2
  {
    var x, y := FormatArabicNumber(a1), FormatArabicNumber(a2);
    var line := FormatScore(h1, a1);
    var u, v := FormatArabicNumber(h1), FormatArabicNumber(h2);
    FirstSpace(x, u);
    FirstSpace(y, v);
    assert |x| == |y|;
    assert x == line[..|x|] == y;
    FormatArabicInjective(a1, a2);
    assert |u| == |v|;
    assert u == line[|line| - |u|..] == v;
    FormatArabicInjective(h1, h2);
  }

  /** `getMatchStatus(status)`: the three known statuses get their Arabic label; the
      labels are non-empty, so `|| status` only applies to any other string. */
  function GetMatchStatus(status: string): (r: string)
    ensures status == "live" ==> r == "مباشر"
    ensures status == "upcoming" ==> r == "قادم"
    ensures status == "finished" ==> r == "انتهت"
    ensures status !in {"live", "upcoming", "finished"} ==> r == status
  {
    if status == "live" then "مباشر"
    else if status == "upcoming" then "قادم"
    else if status == "finished" then "انتهت"
    else status
  }

  /** A label is not itself a status key, so labelling twice changes nothing. */
  lemma MatchStatusIdempotent(status: string)
    ensures GetMatchStatus(GetMatchStatus(status)) == GetMatchStatus(status)
  {
    var r := GetMatchStatus(status);
    if status in {"live", "upcoming", "finished"} {
      assert r[0] != 'l' && r[0] != 'u' && r[0] != 'f';
    }
  }
}

=== FILE: fixtures.dfy ===
/** The upcoming-fixtures list: the set of matches with a reminder, and the kick-off
    time in Arabic-Indic digits. */
module UpcomingFixtures {
  import opened Js
  import opened ArabicUtils

  /** `toggleReminder(matchId)`: a fresh copy of the previous set with the id flipped. */
  function ToggleReminder(reminders: set<int>, matchId: int): (r: set<int>)
    ensures matchId in r <==> matchId !in reminders
    ensures forall id :: id != matchId ==> (id in r <==> id in reminders)
  {
    if matchId in reminders then reminders - {matchId} else reminders + {matchId}
  }

  /** Toggling twice restores the set; toggling two different ids commutes. */
  lemma ToggleInvolution(reminders: set<int>, matchId: int, other: int)
    ensures ToggleReminder(ToggleReminder(reminders, matchId), matchId) == reminders
    ensures ToggleReminder(ToggleReminder(reminders, matchId), other) == ToggleReminder(ToggleReminder(reminders, other), matchId)
  {
  }

  /** The local time a `Date` built from the match's date string reports: an invalid
      date reports NaN for both. */
  datatype Clock = InvalidDate | At(hours: int, minutes: int)

  predicate WellFormed(c: Clock)
  {
    c.At? ==> 0 <= c.hours < 24 && 0 <= c.minutes < 60
  }

  /** `formatArabicNumber` of an hour or minute reading; NaN prints as `NaN`, none of
      whose characters is a digit. */
  function FormatReading(c: Clock, minutes: bool): string
  {
    match c
    case InvalidDate => ArabicText("NaN")
    case At(h, m) => FormatArabicNumber(if minutes then m else h)
  }

  /** `formatTime(dateString)` */
  function FormatTime(c: Clock): (r: string)
    requires WellFormed(c)
    ensures c.At? ==> |r| == |FormatArabicNumber(c.hours)| + 3
    ensures c.At? ==> r[|r| - 2..] == [ArabicDigit(c.minutes / 10), ArabicDigit(c.minutes % 10)]
  {
    PaddedMinute(if c.At? then c.minutes else 0);
    FormatReading(c, false) + ":" + PadStart(FormatReading(c, true), 2, '٠')
  }

  /** A minute reading padded to two places is its tens digit then its units digit. */
  lemma PaddedMinute(m: int)
    requires 0 <= m < 60
    ensures PadStart(FormatArabicNumber(m), 2, '٠') == [ArabicDigit(m / 10), ArabicDigit(m % 10)]
  {
    var text := FormatArabicNumber(m);
    if m < 10 {
      assert Digits(m) == [DigitChar(m)];
      assert |text| == 1;
      assert PadStart(text, 2, '٠') == ['٠'] + text;
    } else {
      assert Digits(m) == Digits(m / 10) + [DigitChar(m % 10)];
      assert Digits(m / 10) == [DigitChar(m / 10)];
    }
  }

  /** An hour reading has one digit below ten and two from ten on. */
  lemma HourWidth(h: int)
    requires 0 <= h < 24
    ensures |FormatArabicNumber(h)| == 1 <==> h < 10
  {
    if h >= 10 {
      assert Digits(h) == Digits(h / 10) + [DigitChar(h % 10)];
    }
  }

  /** The hour is written as is, then a colon, then the minute as exactly two
      Arabic-Indic digits, tens first; an invalid date shows only `:٠٠`. */
  lemma FormatTimeSpec(c: Clock)
    requires WellFormed(c)
    ensures c.InvalidDate? ==> FormatTime(c) == ":٠٠"
    ensures c.At? ==>
      var r := FormatTime(c);
      && |r| == |FormatArabicNumber(c.hours)| + 3
      && r[..|r| - 3] == FormatArabicNumber(c.hours)
      && r[|r| - 3] == ':'
      && r[|r| - 2..] == [ArabicDigit(c.minutes / 10), ArabicDigit(c.minutes % 10)]
    ensures c.At? ==> (|FormatArabicNumber(c.hours)| == 1 <==> c.hours < 10)
  {
    if c.InvalidDate? {
      assert "NaN"[1..][1..][1..] == "";
      assert ArabicText("NaN") == "";
      assert PadStart("", 2, '٠') == "٠٠";
    } else {
      PaddedMinute(c.minutes);
      HourWidth(c.hours);
      var hours := FormatArabicNumber(c.hours);
      var r := FormatTime(c);
      assert r == hours + ":" + [ArabicDigit(c.minutes / 10), ArabicDigit(c.minutes % 10)];
    }
  }
}

=== FILE: js.dfy ===
/** The pieces of JavaScript value semantics that the backend and the client
    helpers rely on: property slots that may hold `undefined`, `null` or `NaN`,
    the nullish and truthy tests, `x++`, integer `toString`, `parseInt`,
    `String.prototype.includes` and `padStart`. */
module Js {

  datatype Option<+T> = None | Some(value: T)

  /** A property of an object whose declared type is T, as it is at run time:
      absent or `undefined`, `null`, the number `NaN` (only arithmetic on a
      non-number produces it), or a value of T. */
  datatype Slot<+T> = Undefined | Null | NaN | Val(v: T)

  /** A value `Math.random()` can return. */
  predicate IsRandom(r: real)
  {
    0.0 <= r < 1.0
  }

  /** `s ?? d` */
  function OrElse<T>(s: Slot<T>, d: Slot<T>): Slot<T>
  {
    if s.Undefined? || s.Null? then d else s
  }

  /** `s || 0` for a numeric slot: every falsy value (undefined, null, NaN, 0) becomes 0. */
  function OrZero(s: Slot<int>): (r: int)
    ensures s.Val? ==> r == s.v
    ensures !s.Val? ==> r == 0
  {
    if s.Val? then s.v else 0
  }

  /** `x++` on a numeric property: null counts as 0, undefined and NaN give NaN. */
  function Increment(s: Slot<int>): (r: Slot<int>)
    ensures s.Val? ==> r == Val(s.v + 1)
    ensures s.Null? ==> r == Val(1)
    ensures (s.Undefined? || s.NaN?) ==> r.NaN?
  {
    match s
    case Val(n) => Val(n + 1)
    case Null => Val(1)
    case _ => NaN
  }

  /** `${s}` in a template literal. */
  function Interpolate(s: Slot<string>): string
  {
    match s
    case Undefined => "undefined"
    case Null => "null"
    case NaN => "NaN"
    case Val(x) => x
  }

  // ---------------------------------------------------------------- decimal text

  predicate IsDigit(c: char)
  {
    '0' <= c <= '9'
  }

  predicate AllDigits(s: string)
  {
    forall i :: 0 <= i < |s| ==> IsDigit(s[i])
  }

  function DigitChar(d: int): (c: char)
    requires 0 <= d < 10
    ensures IsDigit(c)
  {
    ('0' as int + d) as char
  }

  function DigitValue(c: char): (d: nat)
    requires IsDigit(c)
    ensures d < 10
  {
    c as int - '0' as int
  }

  /** The decimal digits of a natural number, most significant first, no leading zero. */
  function Digits(n: nat): (s: string)
    ensures |s| >= 1
    ensures AllDigits(s)
    ensures |s| > 1 ==> s[0] != '0'
  {
    if n < 10 then [DigitChar(n)] else Digits(n / 10) + [DigitChar(n % 10)]
  }

  /** The number a string of decimal digits denotes. */
  function DigitsValue(s: string): nat
    requires AllDigits(s)
  {
    if |s| == 0 then 0 else DigitsValue(s[..|s| - 1]) * 10 + DigitValue(s[|s| - 1])
  }

  /** `Number.prototype.toString` on an integer-valued number. */
  function ToDecimal(n: int): (s: string)
    ensures n >= 0 ==> s == Digits(n)
    ensures n < 0 ==> s == "-" + Digits(-n)
  {
    if n >= 0 then Digits(n) else "-" + Digits(-n)
  }

  lemma {:induction false} DigitsRoundTrip(n: nat)
    ensures DigitsValue(Digits(n)) == n
  {
    if n >= 10 {
      var s := Digits(n);
      assert s[..|s| - 1] == Digits(n / 10);
      DigitsRoundTrip(n / 10);
    }
  }

  /** Distinct naturals have distinct decimal texts. */
  lemma DigitsInjective(m: nat, n: nat)
    requires Digits(m) == Digits(n)
    ensures m == n
  {
    DigitsRoundTrip(m);
    DigitsRoundTrip(n);
  }

  // ---------------------------------------------------------------- parseInt

  /** The longest prefix of `s` made of decimal digits. */
  function DigitPrefix(s: string): (p: string)
    ensures AllDigits(p)
    ensures |p| <= |s| && p == s[..|p|]
    ensures |p| < |s| ==> !IsDigit(s[|p|])
  {
    if |s| == 0 || !IsDigit(s[0]) then [] else [s[0]] + DigitPrefix(s[1..])
  }

  /** `parseInt(s)` for text without leading white space or a `0x` prefix:
      an optional sign, then the longest run of digits; no digit gives NaN (None). */
  function ParseInt(s: string): Option<int>
  {
    var sign := if |s| > 0 && (s[0] == '-' || s[0] == '+') then 1 else 0;
    var p := DigitPrefix(s[sign..]);
    if |p| == 0 then None
    else if sign == 1 && s[0] == '-' then Some(-(DigitsValue(p) as int))
    else Some(DigitsValue(p))
  }

  lemma DigitPrefixOfDigits(s: string)
    requires AllDigits(s)
    ensures DigitPrefix(s) == s
  {
    if |s| > 0 {
      DigitPrefixOfDigits(s[1..]);
    }
  }

  /** `parseInt` reads back exactly the number `toString` wrote. */
  lemma ParseIntToDecimal(n: int)
    ensures ParseInt(ToDecimal(n)) == Some(n)
  {
    var s := ToDecimal(n);
    if n >= 0 {
      DigitPrefixOfDigits(Digits(n));
      DigitsRoundTrip(n);
      assert s[0] != '-' && s[0] != '+';
      assert s[0..] == s;
    } else {
      var d := Digits(-n);
      assert s[0] == '-' && s[1..] == d;
      DigitPrefixOfDigits(d);
      DigitsRoundTrip(-n);
      assert DigitPrefix(s[1..]) == d;
    }
  }

  // ---------------------------------------------------------------- strings

  predicate OccursAt(s: string, sub: string, i: int)
  {
    0 <= i && i + |sub| <= |s| && s[i..i + |sub|] == sub
  }

  /** `s.includes(sub)` */
  predicate Includes(s: string, sub: string)
  {
    exists i | 0 <= i <= |s| - |sub| :: OccursAt(s, sub, i)
  }

  lemma IncludesMiddle(a: string, b: string, c: string)
    ensures Includes(a + b + c, b)
  {
    assert (a + b + c)[|a|..|a| + |b|] == b;
    assert OccursAt(a + b + c, b, |a|);
  }

  /** `s.padStart(n, [fill])` with a one-character fill string. */
  function PadStart(s: string, n: nat, fill: char): (r: string)
    ensures |s| >= n ==> r == s
    ensures |s| < n ==> |r| == n && r[n - |s|..] == s
    ensures forall i :: 0 <= i < |r| - |s| ==> r[i] == fill
  {
    if |s| >= n then s else seq(n - |s|, _ => fill) + s
  }
}

=== FILE: realtime.dfy ===
/** The live-match hub: the set of connected sockets, the snapshot sent on connect
    and on request, the fan-out of an update to every open socket, the per-tick
    simulation step of one live match, the tick over all live matches, and the
    out-of-band `broadcastMatchUpdate`. Random draws and the clock are parameters. */
module Realtime {
  import opened Js
  import opened Seqs
  import opened Schema
  import opened Storage

  type ClientId = nat

  /** `Partial<LiveMatchUpdate>` without `matchId`: None means the key is absent. */
  datatype PartialUpdate = PartialUpdate(
    homeScore: Option<Slot<int>>, awayScore: Option<Slot<int>>,
    currentMinute: Option<Slot<int>>, status: Option<Slot<string>>,
    events: Option<Slot<seq<MatchEvent>>>)

  /** `{ matchId, ...update }` */
  datatype UpdatePayload = UpdatePayload(matchId: Slot<int>, fields: PartialUpdate)

  /** The two server-to-client messages. */
  datatype ServerMessage =
    | LiveMatches(data: seq<Match>)        // { type: 'live_matches', data }
    | MatchUpdate(update: UpdatePayload)   // { type: 'match_update', data }

  /** One `ws.send` call: which socket, which message. */
  datatype Delivery = Delivery(to: ClientId, message: ServerMessage)

  /** An inbound frame: text `JSON.parse` rejects, or a parsed value and its `type` property. */
  datatype ClientMessage = Unparseable | Parsed(kind: Slot<string>)

  /** `clients` is the registered set in insertion order; `open` holds the sockets whose
      `readyState` is OPEN, which the transport, not the hub, decides. */
  datatype Hub = Hub(clients: seq<ClientId>, open: set<ClientId>)

  /** The store, the hub, and every `ws.send` made so far. */
  datatype System = System(store: Store, hub: Hub, sent: seq<Delivery>)

  ghost predicate DistinctClients(h: Hub)
  {
    forall i, j :: 0 <= i < j < |h.clients| ==> h.clients[i] != h.clients[j]
  }

  // ---------------------------------------------------------------- fan-out

  function IsOpenIn(h: Hub): ClientId -> bool
  {
    (c: ClientId) => c in h.open
  }

  function SendTo(message: ServerMessage): ClientId -> Delivery
  {
    (c: ClientId) => Delivery(c, message)
  }

  /** The sockets a broadcast reaches: registered and OPEN, in registration order. */
  function Recipients(h: Hub): seq<ClientId>
  {
    Filter(h.clients, IsOpenIn(h))
  }

  /** `broadcastToAll`: one send of the same message to each registered OPEN socket. */
  function BroadcastToAll(h: Hub, message: ServerMessage): (r: seq<Delivery>)
    ensures |r| == |Recipients(h)|
    ensures forall i :: 0 <= i < |r| ==> r[i].message == message && r[i].to in h.open && r[i].to in h.clients
    ensures forall c :: c in h.clients && c in h.open ==> Delivery(c, message) in r
  {
    var rs := Recipients(h);
    var r := Map(rs, SendTo(message));
    assert forall c :: c in h.clients && c in h.open ==> c in rs;
    assert forall c :: c in rs ==> Delivery(c, message) in r by {
      forall c | c in rs ensures Delivery(c, message) in r {
        var i :| 0 <= i < |rs| && rs[i] == c;
        assert r[i] == Delivery(c, message);
      }
    }
    r
  }

  /** With no duplicate registration, each recipient gets the message exactly once. */
  lemma BroadcastOncePerSocket(h: Hub, message: ServerMessage, c: ClientId)
    requires DistinctClients(h)
    ensures multiset(BroadcastToAll(h, message))[Delivery(c, message)] == if c in h.clients && c in h.open then 1 else 0
  {
    CountOnce(h.clients, c);
    FilterCounts(h.clients, IsOpenIn(h), c);
    MapCounts(Recipients(h), message, c);
  }

  lemma {:induction false} CountOnce(s: seq<ClientId>, c: ClientId)
    requires forall i, j :: 0 <= i < j < |s| ==> s[i] != s[j]
    ensures multiset(s)[c] == if c in s then 1 else 0
    decreases |s|
  {
    if |s| > 0 {
      assert s == [s[0]] + s[1..];
      CountOnce(s[1..], c);
    }
  }

  lemma {:induction false} MapCounts(s: seq<ClientId>, message: ServerMessage, c: ClientId)
    ensures multiset(Map(s, SendTo(message)))[Delivery(c, message)] == multiset(s)[c]
    decreases |s|
  {
    if |s| > 0 {
      var init := s[..|s| - 1];
      MapCounts(init, message, c);
      assert s == init + [s[|s| - 1]];
      assert Map(s, SendTo(message)) == Map(init, SendTo(message)) + [Delivery(s[|s| - 1], message)];
    }
  }

  function Broadcast(sys: System, message: ServerMessage): System
  {
    sys.(sent := sys.sent + BroadcastToAll(sys.hub, message))
  }

  // ---------------------------------------------------------------- connections

  /** The `live_matches` snapshot: the store's matches whose status is "live". */
  function Snapshot(s: Store): ServerMessage
  {
    LiveMatches(GetMatchesByStatus(s, "live"))
  }

  /** `sendLiveMatches(ws)`: one send to that socket only, with a fresh read of the store. */
  function SendLiveMatches(sys: System, c: ClientId): System
  {
    sys.(sent := sys.sent + [Delivery(c, Snapshot(sys.store))])
  }

  /** `handleConnection`: register the (OPEN) socket, then send it the snapshot. */
  function Connect(sys: System, c: ClientId): (r: System)
    ensures r.store == sys.store
    ensures c in r.hub.clients && c in r.hub.open
    ensures r.sent == sys.sent + [Delivery(c, Snapshot(sys.store))]
    ensures c !in sys.hub.clients ==> r.hub.clients == sys.hub.clients + [c]
    ensures c in sys.hub.clients ==> r.hub.clients == sys.hub.clients
    ensures DistinctClients(sys.hub) ==> DistinctClients(r.hub)
  {
    var clients := if c in sys.hub.clients then sys.hub.clients else sys.hub.clients + [c];
    SendLiveMatches(sys.(hub := Hub(clients, sys.hub.open + {c})), c)
  }

  function IsNot(c: ClientId): ClientId -> bool
  {
    (x: ClientId) => x != c
  }

  /** The socket's `close` handler: `clients.delete(ws)`; the socket is no longer OPEN. */
  function Close(sys: System, c: ClientId): (r: System)
    ensures r.store == sys.store && r.sent == sys.sent
    ensures c !in r.hub.clients && c !in r.hub.open
    ensures forall x :: x != c ==> (x in r.hub.clients <==> x in sys.hub.clients)
    ensures DistinctClients(sys.hub) ==> DistinctClients(r.hub)
  {
    var rest := Filter(sys.hub.clients, IsNot(c));
    FilterIsSubsequence(sys.hub.clients, IsNot(c));
    SubsequenceKeepsDistinct(rest, sys.hub.clients);
    sys.(hub := Hub(rest, sys.hub.open - {c}))
  }

  lemma {:induction false} SubsequenceKeepsDistinct(s: seq<ClientId>, t: seq<ClientId>)
    requires IsSubsequence(s, t)
    ensures (forall i, j :: 0 <= i < j < |t| ==> t[i] != t[j]) ==> forall i, j :: 0 <= i < j < |s| ==> s[i] != s[j]
    ensures forall x :: x in s ==> x in t
    decreases |t|
  {
    if |s| > 0 && |t| > 0 {
      if s[0] == t[0] && IsSubsequence(s[1..], t[1..]) {
        SubsequenceKeepsDistinct(s[1..], t[1..]);
        assert forall x :: x in s ==> x == s[0] || x in s[1..];
        if forall i, j :: 0 <= i < j < |t| ==> t[i] != t[j] {
          assert t[0] !in t[1..];
          forall i, j | 0 <= i < j < |s| ensures s[i] != s[j] {
            if i == 0 {
              assert s[j] == s[1..][j - 1];
            } else {
              assert s[i] == s[1..][i - 1] && s[j] == s[1..][j - 1];
            }
          }
        }
      } else {
        SubsequenceKeepsDistinct(s, t[1..]);
      }
    }
  }

  /** Closing a socket twice is the same as closing it once. */
  lemma CloseIdempotent(sys: System, c: ClientId)
    ensures Close(Close(sys, c), c) == Close(sys, c)
  {
    var once := Close(sys, c);
    forall i | 0 <= i < |once.hub.clients| ensures once.hub.clients[i] != c {
      assert once.hub.clients[i] in once.hub.clients;
    }
    FilterAll(once.hub.clients, IsNot(c));
  }

  /** The transport takes a socket out of OPEN before its `close` event reaches the hub. */
  function LeaveOpen(sys: System, c: ClientId): (r: System)
    ensures r.store == sys.store && r.sent == sys.sent && r.hub.clients == sys.hub.clients
    ensures c !in r.hub.open
    ensures forall d :: d != c ==> (d in r.hub.open <==> d in sys.hub.open)
  {
    sys.(hub := sys.hub.(open := sys.hub.open - {c}))
  }

  /** Between leaving OPEN and its `close` event a socket is still registered, yet a
      broadcast skips it, while every other registered OPEN socket is still reached. */
  lemma ClosingSocketIsSkipped(sys: System, c: ClientId, message: ServerMessage)
    requires c in sys.hub.clients
    ensures c in LeaveOpen(sys, c).hub.clients
    ensures forall i :: 0 <= i < |BroadcastToAll(LeaveOpen(sys, c).hub, message)| ==>
      BroadcastToAll(LeaveOpen(sys, c).hub, message)[i].to != c
    ensures forall d :: d != c && d in sys.hub.clients && d in sys.hub.open ==>
      Delivery(d, message) in BroadcastToAll(LeaveOpen(sys, c).hub, message)
  {
  }

  /** The socket's `message` handler and `handleMessage`: only `get_live_matches` does
      anything, and that is a fresh snapshot to the sender alone. */
  function Receive(sys: System, c: ClientId, m: ClientMessage): (r: System)
    ensures r.store == sys.store && r.hub == sys.hub
    ensures m == Parsed(Val("get_live_matches")) ==> r.sent == sys.sent + [Delivery(c, Snapshot(sys.store))]
    ensures m != Parsed(Val("get_live_matches")) ==> r.sent == sys.sent
  {
    match m
    case Unparseable => sys
    case Parsed(kind) =>
      if kind == Val("subscribe") then sys
      else if kind == Val("get_live_matches") then SendLiveMatches(sys, c)
      else sys
  }

  // ---------------------------------------------------------------- simulation

  const MinuteCap := 95
  const FullTime := 90
  const GoalChance := 0.05
  const HomeChance := 0.5
  const FinishChance := 0.3

  /** The values of `Math.random()` one simulation step consumes, and `Date.now()`. */
  datatype Draws = Draws(minute: real, goal: real, side: real, finish: real, now: int)

  predicate ValidDraws(d: Draws)
  {
    IsRandom(d.minute) && IsRandom(d.goal) && IsRandom(d.side) && IsRandom(d.finish)
  }

  /** `Math.floor(r * n)` for `r = Math.random()` lies in 0 .. n-1. */
  lemma FloorOfRandom(r: real, n: nat)
    requires IsRandom(r) && n > 0
    ensures 0 <= (r * n as real).Floor < n
  {
    assert r * n as real < n as real;
  }

  /** `Math.min(currentMinute + Math.floor(Math.random() * 3) + 1, 95)` with `currentMinute = match.currentMinute || 0`. */
  function NewMinute(m: Match, draw: real): int
  {
    var advanced := OrZero(m.currentMinute) + (draw * 3.0).Floor + 1;
    if advanced < MinuteCap then advanced else MinuteCap
  }

  function GoalEvent(m: Match, minute: int, teamId: Slot<int>, now: int): MatchEvent
  {
    MatchEvent(now, Val(m.id), Val(minute), Val("goal"), Val("Player Name"), Val("اسم اللاعب"), teamId,
      "Goal scored!", "هدف!")
  }

  /** The new values one step computes for a match. */
  datatype Step = Step(homeScore: Slot<int>, awayScore: Slot<int>, minute: int, status: Slot<string>, events: seq<MatchEvent>)

  /** `simulateMatchUpdate` up to the store write: advance the clock, maybe score, maybe finish. */
  function SimulateStep(m: Match, d: Draws): (r: Step)
    requires ValidDraws(d)
    // the clock: 1 to 3 minutes on from `currentMinute || 0`, never past 95
    ensures r.minute <= MinuteCap
    ensures r.minute <= OrZero(m.currentMinute) + 3
    ensures r.minute == MinuteCap || r.minute >= OrZero(m.currentMinute) + 1
    ensures OrZero(m.currentMinute) <= MinuteCap ==> OrZero(m.currentMinute) <= r.minute
    ensures OrZero(m.currentMinute) < MinuteCap ==> OrZero(m.currentMinute) < r.minute
    // a goal: only before minute 90, one side up by one, one goal event for that side
    ensures |r.events| <= 1
    ensures |r.events| == 1 <==> d.goal < GoalChance && r.minute < FullTime
    ensures |r.events| == 0 ==> r.homeScore == m.homeScore && r.awayScore == m.awayScore
    ensures |r.events| == 1 ==>
      var e := r.events[0];
      && e.kind == Val("goal") && e.matchId == Val(m.id) && e.minute == Val(r.minute) && e.id == d.now
      && ((e.teamId == m.homeTeamId && r.homeScore == Increment(m.homeScore) && r.awayScore == m.awayScore)
          || (e.teamId == m.awayTeamId && r.awayScore == Increment(m.awayScore) && r.homeScore == m.homeScore))
    // the final whistle: only at minute 90 or later, and only to "finished"
    ensures r.status != m.status ==> r.status == Val("finished") && r.minute >= FullTime
    ensures r.minute >= FullTime && d.finish < FinishChance ==> r.status == Val("finished")
    ensures !(r.minute >= FullTime && d.finish < FinishChance) ==> r.status == m.status
  {
    FloorOfRandom(d.minute, 3);
    var minute := NewMinute(m, d.minute);
    var goal := d.goal < GoalChance && minute < FullTime;
    var home := d.side < HomeChance;
    var events :=
      if !goal then []
      else if home then [GoalEvent(m, minute, m.homeTeamId, d.now)]
      else [GoalEvent(m, minute, m.awayTeamId, d.now)];
    Step(
      if goal && home then Increment(m.homeScore) else m.homeScore,
      if goal && !home then Increment(m.awayScore) else m.awayScore,
      minute,
      if minute >= FullTime && d.finish < FinishChance then Val("finished") else m.status,
      events)
  }

  /** The object handed to `updateMatch`: exactly the four live fields. */
  function StepPatch(st: Step): MatchPatch
  {
    LivePatch(st.homeScore, st.awayScore, Val(st.minute), st.status)
  }

  /** The `LiveMatchUpdate` broadcast after the write: every field present. */
  function StepPayload(m: Match, st: Step): UpdatePayload
  {
    UpdatePayload(Val(m.id), PartialUpdate(Some(st.homeScore), Some(st.awayScore), Some(Val(st.minute)), Some(st.status), Some(Val(st.events))))
  }

  /** `simulateMatchUpdate`: write the four fields, then broadcast the same values plus
      the events, whatever the write returned. */
  function SimulateMatchUpdate(sys: System, m: Match, d: Draws): (r: System)
    requires ValidDraws(d)
    ensures r.hub == sys.hub
    ensures r.store == UpdateMatch(sys.store, m.id, StepPatch(SimulateStep(m, d))).store
    ensures r.sent == sys.sent + BroadcastToAll(sys.hub, MatchUpdate(StepPayload(m, SimulateStep(m, d))))
  {
    var st := SimulateStep(m, d);
    var written := UpdateMatch(sys.store, m.id, StepPatch(st));
    Broadcast(sys.(store := written.store), MatchUpdate(StepPayload(m, st)))
  }

  /** What the clients are told is what the store now holds: each broadcast field equals
      the field just written, and the record of any other match is untouched. */
  lemma BroadcastMatchesWrite(sys: System, m: Match, d: Draws)
    requires ValidDraws(d) && Valid(sys.store)
    ensures var st := SimulateStep(m, d);
      var r := SimulateMatchUpdate(sys, m, d);
      var u := StepPayload(m, st);
      && u.matchId == Val(m.id)
      && (HasKey(sys.store.matches, m.id) ==>
            && GetMatchById(r.store, m.id).Some?
            && Some(GetMatchById(r.store, m.id).value.homeScore) == u.fields.homeScore
            && Some(GetMatchById(r.store, m.id).value.awayScore) == u.fields.awayScore
            && Some(GetMatchById(r.store, m.id).value.currentMinute) == u.fields.currentMinute
            && Some(GetMatchById(r.store, m.id).value.status) == u.fields.status)
      && (forall k :: k != m.id ==> GetMatchById(r.store, k) == GetMatchById(sys.store, k))
  {
    var st := SimulateStep(m, d);
    var p := StepPatch(st);
    var r := SimulateMatchUpdate(sys, m, d);
    UpdateMatchLookups(sys.store, m.id, p, m.id);
    forall k | k != m.id ensures GetMatchById(r.store, k) == GetMatchById(sys.store, k) {
      UpdateMatchLookups(sys.store, m.id, p, k);
    }
  }

  /** The rest of a tick: each match of the snapshot, in order, with its own draws. */
  function TickOver(sys: System, live: seq<Match>, draws: seq<Draws>): (r: System)
    requires |draws| == |live|
    requires forall i :: 0 <= i < |draws| ==> ValidDraws(draws[i])
    ensures r.hub == sys.hub
    ensures |sys.sent| <= |r.sent|
    decreases |live|
  {
    if |live| == 0 then sys
    else TickOver(SimulateMatchUpdate(sys, live[0], draws[0]), live[1..], draws[1..])
  }

  /** One timer tick: read the live matches once, then step each of them. */
  function Tick(sys: System, draws: seq<Draws>): (r: System)
    requires |draws| == |GetMatchesByStatus(sys.store, "live")|
    requires forall i :: 0 <= i < |draws| ==> ValidDraws(draws[i])
    ensures r.hub == sys.hub
    ensures |r.sent| == |sys.sent| + |GetMatchesByStatus(sys.store, "live")| * |Recipients(sys.hub)|
    ensures r.sent[..|sys.sent|] == sys.sent
  {
    TickOverSends(sys, GetMatchesByStatus(sys.store, "live"), draws);
    TickAnnouncementsCount(sys.hub, GetMatchesByStatus(sys.store, "live"), draws);
    TickOver(sys, GetMatchesByStatus(sys.store, "live"), draws)
  }

  lemma MultiplyStep(a: nat, n: nat)
    requires a > 0
    ensures a * n == n + (a - 1) * n
  {
  }

  /** The fan-out one simulation step ends with. */
  function StepAnnouncement(h: Hub, m: Match, d: Draws): seq<Delivery>
    requires ValidDraws(d)
  {
    BroadcastToAll(h, MatchUpdate(StepPayload(m, SimulateStep(m, d))))
  }

  /** The fan-outs of a tick, one per match, in snapshot order. */
  function TickAnnouncements(h: Hub, live: seq<Match>, draws: seq<Draws>): seq<Delivery>
    requires |draws| == |live|
    requires forall i :: 0 <= i < |draws| ==> ValidDraws(draws[i])
    decreases |live|
  {
    if |live| == 0 then [] else StepAnnouncement(h, live[0], draws[0]) + TickAnnouncements(h, live[1..], draws[1..])
  }

  /** `id` is the key of one of the matches. */
  predicate AmongMatches(id: Slot<int>, ms: seq<Match>)
  {
    exists j | 0 <= j < |ms| :: Val(ms[j].id) == id
  }

  /** A tick only appends to the record of sends, and leaves the hub alone. */
  lemma {:induction false} TickOverSends(sys: System, live: seq<Match>, draws: seq<Draws>)
    requires |draws| == |live|
    requires forall i :: 0 <= i < |draws| ==> ValidDraws(draws[i])
    ensures TickOver(sys, live, draws).hub == sys.hub
    ensures TickOver(sys, live, draws).sent == sys.sent + TickAnnouncements(sys.hub, live, draws)
    decreases |live|
  {
    if |live| > 0 {
      var next := SimulateMatchUpdate(sys, live[0], draws[0]);
      TickOverUnfold(sys, live, draws);
      TickOverSends(next, live[1..], draws[1..]);
      AppendAssoc(sys.sent, StepAnnouncement(sys.hub, live[0], draws[0]), TickAnnouncements(sys.hub, live[1..], draws[1..]));
    }
  }

  lemma AppendAssoc(a: seq<Delivery>, b: seq<Delivery>, c: seq<Delivery>)
    ensures (a + b) + c == a + (b + c)
  {
  }

  /** One step of a tick: the first match's update, then the rest of the run. */
  lemma TickOverUnfold(sys: System, live: seq<Match>, draws: seq<Draws>)
    requires |draws| == |live| > 0
    requires forall i :: 0 <= i < |draws| ==> ValidDraws(draws[i])
    ensures var next := SimulateMatchUpdate(sys, live[0], draws[0]);
      && next.hub == sys.hub
      && next.sent == sys.sent + StepAnnouncement(sys.hub, live[0], draws[0])
      && TickOver(sys, live, draws) == TickOver(next, live[1..], draws[1..])
      && TickAnnouncements(sys.hub, live, draws)
         == StepAnnouncement(sys.hub, live[0], draws[0]) + TickAnnouncements(sys.hub, live[1..], draws[1..])
  {
  }

  /** Every open socket hears once per live match. */
  lemma {:induction false} TickAnnouncementsCount(h: Hub, live: seq<Match>, draws: seq<Draws>)
    requires |draws| == |live|
    requires forall i :: 0 <= i < |draws| ==> ValidDraws(draws[i])
    ensures |TickAnnouncements(h, live, draws)| == |live| * |Recipients(h)|
    decreases |live|
  {
    if |live| > 0 {
      TickAnnouncementsCount(h, live[1..], draws[1..]);
      MultiplyStep(|live|, |Recipients(h)|);
    }
  }

  /** Every announcement of a tick is a match update about one of the live matches. */
  lemma {:induction false} TickAnnouncementsSpec(h: Hub, live: seq<Match>, draws: seq<Draws>)
    requires |draws| == |live|
    requires forall i :: 0 <= i < |draws| ==> ValidDraws(draws[i])
    ensures forall i :: 0 <= i < |TickAnnouncements(h, live, draws)| ==>
      && TickAnnouncements(h, live, draws)[i].message.MatchUpdate?
      && AmongMatches(TickAnnouncements(h, live, draws)[i].message.update.matchId, live)
    decreases |live|
  {
    if |live| > 0 {
      var fan: seq<Delivery> := StepAnnouncement(h, live[0], draws[0]);
      var rest: seq<Delivery> := TickAnnouncements(h, live[1..], draws[1..]);
      assert TickAnnouncements(h, live, draws) == fan + rest;
      TickAnnouncementsSpec(h, live[1..], draws[1..]);
      forall i | 0 <= i < |fan + rest|
        ensures (fan + rest)[i].message.MatchUpdate? && AmongMatches((fan + rest)[i].message.update.matchId, live)
      {
        if i < |fan| {
          assert (fan + rest)[i] == fan[i];
          assert Val(live[0].id) == fan[i].message.update.matchId;
        } else {
          var k := i - |fan|;
          assert (fan + rest)[i] == rest[k];
          assert rest[k].message.MatchUpdate? && AmongMatches(rest[k].message.update.matchId, live[1..]);
          var j :| 0 <= j < |live[1..]| && Val(live[1..][j].id) == rest[k].message.update.matchId;
          assert live[j + 1] == live[1..][j];
        }
      }
    }
  }

  /** The store after a tick: still valid, same keys in the same places, and every
      entry whose key no processed match carries is untouched. */
  lemma {:induction false} TickOverStore(sys: System, live: seq<Match>, draws: seq<Draws>)
    requires |draws| == |live|
    requires forall i :: 0 <= i < |draws| ==> ValidDraws(draws[i])
    requires Valid(sys.store)
    ensures var r := TickOver(sys, live, draws);
      && Valid(r.store)
      && |r.store.matches| == |sys.store.matches|
      && (forall i :: 0 <= i < |sys.store.matches| ==> r.store.matches[i].key == sys.store.matches[i].key)
      && (forall i :: 0 <= i < |sys.store.matches| && (forall j :: 0 <= j < |live| ==> live[j].id != sys.store.matches[i].key) ==>
            r.store.matches[i] == sys.store.matches[i])
    decreases |live|
  {
    if |live| > 0 {
      var next := SimulateMatchUpdate(sys, live[0], draws[0]);
      UpdateMatchFrame(sys.store, live[0].id, StepPatch(SimulateStep(live[0], draws[0])));
      TickOverStore(next, live[1..], draws[1..]);
      var r := TickOver(next, live[1..], draws[1..]);
      forall i | 0 <= i < |sys.store.matches| && (forall j :: 0 <= j < |live| ==> live[j].id != sys.store.matches[i].key)
        ensures r.store.matches[i] == sys.store.matches[i]
      {
        assert live[0].id != sys.store.matches[i].key;
        forall j | 0 <= j < |live[1..]| ensures live[1..][j].id != next.store.matches[i].key {
          assert live[1..][j] == live[j + 1];
        }
      }
    }
  }

  /** A tick leaves the hub alone, only appends to the sends, keeps the store valid, and
      never writes a match that was not live when the tick began: a finished match stays
      exactly as it is. */
  lemma TickKeepsOthers(sys: System, draws: seq<Draws>)
    requires |draws| == |GetMatchesByStatus(sys.store, "live")|
    requires forall i :: 0 <= i < |draws| ==> ValidDraws(draws[i])
    requires Valid(sys.store)
    ensures var r := Tick(sys, draws);
      && r.hub == sys.hub
      && Valid(r.store)
      && |r.store.matches| == |sys.store.matches|
      && (forall i :: 0 <= i < |sys.store.matches| && sys.store.matches[i].value.status != Val("live") ==>
            r.store.matches[i] == sys.store.matches[i])
  {
    var live := GetMatchesByStatus(sys.store, "live");
    TickOverSends(sys, live, draws);
    TickOverStore(sys, live, draws);
    forall i | 0 <= i < |sys.store.matches| && sys.store.matches[i].value.status != Val("live")
      ensures forall j :: 0 <= j < |live| ==> live[j].id != sys.store.matches[i].key
    {
      forall j | 0 <= j < |live| ensures live[j].id != sys.store.matches[i].key {
        var k :| 0 <= k < |sys.store.matches| && sys.store.matches[k].value == live[j];
        assert live[j].status == Val("live");
        assert k != i;
      }
    }
  }

  /** A tick step writes the status it read or "finished", so the known statuses stay known. */
  lemma {:induction false} TickOverKeepsKnown(sys: System, live: seq<Match>, draws: seq<Draws>)
    requires |draws| == |live|
    requires forall i :: 0 <= i < |draws| ==> ValidDraws(draws[i])
    requires Valid(sys.store) && KnownStatuses(sys.store)
    requires forall j :: 0 <= j < |live| ==> live[j].status in {Val("live"), Val("upcoming"), Val("finished")}
    ensures KnownStatuses(TickOver(sys, live, draws).store)
    decreases |live|
  {
    if |live| > 0 {
      var st := SimulateStep(live[0], draws[0]);
      var next := SimulateMatchUpdate(sys, live[0], draws[0]);
      UpdateMatchFrame(sys.store, live[0].id, StepPatch(st));
      forall i | 0 <= i < |next.store.matches|
        ensures next.store.matches[i].value.status in {Val("live"), Val("upcoming"), Val("finished")}
      {
        if sys.store.matches[i].key == live[0].id {
          assert next.store.matches[i].value.status == st.status;
        }
      }
      forall j | 0 <= j < |live[1..]| ensures live[1..][j].status in {Val("live"), Val("upcoming"), Val("finished")} {
        assert live[1..][j] == live[j + 1];
      }
      TickOverKeepsKnown(next, live[1..], draws[1..]);
    }
  }

  /** Ticks never introduce a status outside the known three. */
  lemma TickKeepsStatusesKnown(sys: System, draws: seq<Draws>)
    requires |draws| == |GetMatchesByStatus(sys.store, "live")|
    requires forall i :: 0 <= i < |draws| ==> ValidDraws(draws[i])
    requires Valid(sys.store) && KnownStatuses(sys.store)
    ensures KnownStatuses(Tick(sys, draws).store)
  {
    TickOverKeepsKnown(sys, GetMatchesByStatus(sys.store, "live"), draws);
  }

  /** A delivery carries an update about a match the store holds as live. */
  predicate AboutLiveMatch(s: Store, d: Delivery)
  {
    && d.message.MatchUpdate? && d.message.update.matchId.Val?
    && GetMatchById(s, d.message.update.matchId.v).Some?
    && GetMatchById(s, d.message.update.matchId.v).value.status == Val("live")
  }

  /** What a tick sends: appended after what was sent before, one update per live match
      to every open socket, each about a match the store held as live when the tick began. */
  lemma TickAnnouncesLive(sys: System, draws: seq<Draws>)
    requires |draws| == |GetMatchesByStatus(sys.store, "live")|
    requires forall i :: 0 <= i < |draws| ==> ValidDraws(draws[i])
    requires Valid(sys.store)
    ensures Tick(sys, draws).sent == sys.sent + TickAnnouncements(sys.hub, GetMatchesByStatus(sys.store, "live"), draws)
    ensures |TickAnnouncements(sys.hub, GetMatchesByStatus(sys.store, "live"), draws)|
         == |GetMatchesByStatus(sys.store, "live")| * |Recipients(sys.hub)|
    ensures forall i :: 0 <= i < |TickAnnouncements(sys.hub, GetMatchesByStatus(sys.store, "live"), draws)| ==>
      AboutLiveMatch(sys.store, TickAnnouncements(sys.hub, GetMatchesByStatus(sys.store, "live"), draws)[i])
  {
    var live := GetMatchesByStatus(sys.store, "live");
    TickOverSends(sys, live, draws);
    TickAnnouncementsCount(sys.hub, live, draws);
    TickAnnouncementsSpec(sys.hub, live, draws);
    var a := TickAnnouncements(sys.hub, live, draws);
    forall i | 0 <= i < |a| ensures AboutLiveMatch(sys.store, a[i]) {
      LiveIdIsLive(sys.store, a[i].message.update.matchId);
    }
  }

  lemma LiveIdIsLive(s: Store, id: Slot<int>)
    requires Valid(s) && AmongMatches(id, GetMatchesByStatus(s, "live"))
    ensures id.Val? && GetMatchById(s, id.v).Some? && GetMatchById(s, id.v).value.status == Val("live")
  {
    var live := GetMatchesByStatus(s, "live");
    var j :| 0 <= j < |live| && Val(live[j].id) == id;
    var k :| 0 <= k < |s.matches| && s.matches[k].value == live[j];
    LookupEntry(s.matches, k);
  }

  /** `broadcastMatchUpdate(matchId, update)`: a fan-out of `{matchId, ...update}` and
      nothing else: no store read, no store write, no existence check. */
  function BroadcastMatchUpdate(sys: System, matchId: Slot<int>, update: PartialUpdate): (r: System)
    ensures r.store == sys.store && r.hub == sys.hub
    ensures r.sent == sys.sent + BroadcastToAll(sys.hub, MatchUpdate(UpdatePayload(matchId, update)))
  {
    Broadcast(sys, MatchUpdate(UpdatePayload(matchId, update)))
  }
}

=== FILE: routes.dfy ===
/** The public read API: the match list with its query precedence, the lookups by
    id that answer 404 exactly when the store has no such record, the standings of a
    tournament, and the two enriched lists that join teams and tournaments in. */
module Routes {
  import opened Js
  import opened Seqs
  import opened Schema
  import opened Storage

  /** A query-string parameter: absent (None) or its text. */
  type Query = Option<string>

  /** A query value is truthy when present and not the empty string. */
  predicate Truthy(q: Query)
  {
    q.Some? && q.value != ""
  }

  /** The answer of a lookup by id. */
  datatype ByIdReply<T> = Found(record: T) | NotFound(error: string)

  // ---------------------------------------------------------------- lookups by id

  function TournamentRoute(s: Store, id: string): (r: ByIdReply<Tournament>)
    ensures r.NotFound? <==> ParseInt(id).None? || GetTournamentById(s, ParseInt(id).value).None?
    ensures r.Found? ==> Some(r.record) == GetTournamentById(s, ParseInt(id).value)
  {
    match ParseInt(id)
    case None => NotFound("Tournament not found")
    case Some(n) =>
      match GetTournamentById(s, n)
      case None => NotFound("Tournament not found")
      case Some(t) => Found(t)
  }

  function TeamRoute(s: Store, id: string): (r: ByIdReply<Team>)
    ensures r.NotFound? <==> ParseInt(id).None? || GetTeamById(s, ParseInt(id).value).None?
    ensures r.Found? ==> Some(r.record) == GetTeamById(s, ParseInt(id).value)
  {
    match ParseInt(id)
    case None => NotFound("Team not found")
    case Some(n) =>
      match GetTeamById(s, n)
      case None => NotFound("Team not found")
      case Some(t) => Found(t)
  }

  function MatchRoute(s: Store, id: string): (r: ByIdReply<Match>)
    ensures r.NotFound? <==> ParseInt(id).None? || GetMatchById(s, ParseInt(id).value).None?
    ensures r.Found? ==> Some(r.record) == GetMatchById(s, ParseInt(id).value)
  {
    match ParseInt(id)
    case None => NotFound("Match not found")
    case Some(n) =>
      match GetMatchById(s, n)
      case None => NotFound("Match not found")
      case Some(m) => Found(m)
  }

  /** The path a client builds from a stored record's id finds exactly that record, for
      each of the three tables. */
  lemma LookupByStoredId(s: Store, i: nat, j: nat, k: nat)
    requires Valid(s)
    ensures i < |s.tournaments| ==> TournamentRoute(s, ToDecimal(s.tournaments[i].key)) == Found(s.tournaments[i].value)
    ensures j < |s.teams| ==> TeamRoute(s, ToDecimal(s.teams[j].key)) == Found(s.teams[j].value)
    ensures k < |s.matches| ==> MatchRoute(s, ToDecimal(s.matches[k].key)) == Found(s.matches[k].value)
  {
    if i < |s.tournaments| {
      ParseIntToDecimal(s.tournaments[i].key);
      LookupEntry(s.tournaments, i);
    }
    if j < |s.teams| {
      ParseIntToDecimal(s.teams[j].key);
      LookupEntry(s.teams, j);
    }
    if k < |s.matches| {
      ParseIntToDecimal(s.matches[k].key);
      LookupEntry(s.matches, k);
    }
  }

  // ---------------------------------------------------------------- lists

  /** GET /api/matches: a truthy `status` wins, then a truthy `tournament`, else all. A
      tournament that `parseInt` cannot read selects nothing, since `=== NaN` never holds. */
  function MatchesRoute(s: Store, status: Query, tournament: Query): (r: seq<Match>)
    ensures Truthy(status) ==> r == GetMatchesByStatus(s, status.value)
    ensures !Truthy(status) && !Truthy(tournament) ==> r == GetMatches(s)
  {
    if Truthy(status) then GetMatchesByStatus(s, status.value)
    else if Truthy(tournament) then
      match ParseInt(tournament.value)
      case None => []
      case Some(n) => GetMatchesByTournament(s, n)
    else GetMatches(s)
  }

  /** Whichever filter applies, the answer lists stored matches in storage order, and
      exactly the ones the applicable filter admits. */
  lemma MatchesRouteSelects(s: Store, status: Query, tournament: Query)
    ensures IsSubsequence(MatchesRoute(s, status, tournament), GetMatches(s))
    ensures Truthy(status) ==> forall m :: m in MatchesRoute(s, status, tournament) <==> m in GetMatches(s) && m.status == Val(status.value)
    ensures !Truthy(status) && Truthy(tournament) && ParseInt(tournament.value).Some? ==>
      forall m :: m in MatchesRoute(s, status, tournament) <==> m in GetMatches(s) && m.tournamentId == Val(ParseInt(tournament.value).value)
    ensures !Truthy(status) && Truthy(tournament) && ParseInt(tournament.value).None? ==> MatchesRoute(s, status, tournament) == []
  {
    var r := MatchesRoute(s, status, tournament);
    if Truthy(status) {
      MatchFiltersPreserveOrder(s, status.value, 0);
    } else if Truthy(tournament) {
      if ParseInt(tournament.value).Some? {
        MatchFiltersPreserveOrder(s, "", ParseInt(tournament.value).value);
      }
    } else {
      SubsequenceReflexive(GetMatches(s));
    }
  }

  lemma {:induction false} SubsequenceReflexive<T>(s: seq<T>)
    ensures IsSubsequence(s, s)
    decreases |s|
  {
    if |s| > 0 {
      SubsequenceReflexive(s[1..]);
    }
  }

  /** GET /api/standings/:tournamentId; an unreadable id selects nothing. */
  function StandingsRoute(s: Store, tournamentId: string): (r: seq<Standing>)
    ensures ParseInt(tournamentId).None? ==> r == []
    ensures ParseInt(tournamentId).Some? ==> r == GetStandingsByTournament(s, ParseInt(tournamentId).value)
  {
    match ParseInt(tournamentId)
    case None => []
    case Some(n) => GetStandingsByTournament(s, n)
  }

  // ---------------------------------------------------------------- joins

  function TeamWithId(id: Slot<int>): Team -> bool
  {
    (t: Team) => id == Val(t.id)
  }

  function TournamentWithId(id: Slot<int>): Tournament -> bool
  {
    (t: Tournament) => id == Val(t.id)
  }

  /** `{ ...match, homeTeam, awayTeam, tournament }`: the match keeps every field. */
  datatype EnrichedMatch = EnrichedMatch(base: Match, homeTeam: Option<Team>, awayTeam: Option<Team>, tournament: Option<Tournament>)

  /** `{ ...standing, team }` */
  datatype EnrichedStanding = EnrichedStanding(base: Standing, team: Option<Team>)

  function Enrich(ms: seq<Match>, teams: seq<Team>, tournaments: seq<Tournament>): (r: seq<EnrichedMatch>)
    ensures |r| == |ms|
    ensures forall i :: 0 <= i < |r| ==> r[i].base == ms[i]
    ensures forall i :: 0 <= i < |r| ==>
      && r[i].homeTeam == Find(teams, TeamWithId(ms[i].homeTeamId))
      && r[i].awayTeam == Find(teams, TeamWithId(ms[i].awayTeamId))
      && r[i].tournament == Find(tournaments, TournamentWithId(ms[i].tournamentId))
  {
    seq(|ms|, i requires 0 <= i < |ms| =>
      EnrichedMatch(ms[i],
        Find(teams, TeamWithId(ms[i].homeTeamId)),
        Find(teams, TeamWithId(ms[i].awayTeamId)),
        Find(tournaments, TournamentWithId(ms[i].tournamentId))))
  }

  /** GET /api/matches-enriched: a truthy `status` filters, otherwise all matches. */
  function EnrichedMatchesRoute(s: Store, status: Query): (r: seq<EnrichedMatch>)
    ensures |r| == |if Truthy(status) then GetMatchesByStatus(s, status.value) else GetMatches(s)|
  {
    var ms := if Truthy(status) then GetMatchesByStatus(s, status.value) else GetMatches(s);
    Enrich(ms, GetTeams(s), GetTournaments(s))
  }

  /** GET /api/standings-enriched/:tournamentId */
  function EnrichedStandingsRoute(s: Store, tournamentId: string): (r: seq<EnrichedStanding>)
    ensures |r| == |StandingsRoute(s, tournamentId)|
    ensures forall i :: 0 <= i < |r| ==>
      r[i].base == StandingsRoute(s, tournamentId)[i]
      && r[i].team == Find(GetTeams(s), TeamWithId(StandingsRoute(s, tournamentId)[i].teamId))
  {
    var st := StandingsRoute(s, tournamentId);
    seq(|st|, i requires 0 <= i < |st| => EnrichedStanding(st[i], Find(GetTeams(s), TeamWithId(st[i].teamId))))
  }

  /** In a store whose ids are keys, joining by `find` on the id is the same as the
      lookup by id: a null or missing reference joins to nothing, any other reference to
      the record stored under it. */
  lemma JoinIsLookup(s: Store, ref: Slot<int>)
    requires Valid(s)
    ensures Find(GetTeams(s), TeamWithId(ref)) == (if ref.Val? then GetTeamById(s, ref.v) else None)
    ensures Find(GetTournaments(s), TournamentWithId(ref)) == (if ref.Val? then GetTournamentById(s, ref.v) else None)
  {
    if ref.Val? {
      FindByKey(s.teams, TeamWithId(ref), ref.v);
      FindByKey(s.tournaments, TournamentWithId(ref), ref.v);
    }
  }

  /** Searching the values for the one a predicate picks is looking up the key, when the
      predicate picks exactly the entries stored under that key. */
  lemma FindByKey<V>(t: seq<Entry<V>>, p: V -> bool, k: int)
    requires DistinctKeys(t)
    requires forall i :: 0 <= i < |t| ==> (p(t[i].value) <==> t[i].key == k)
    ensures Find(ValuesOf(t), p) == Lookup(t, k)
  {
    var vs := ValuesOf(t);
    match FindIndex(vs, p)
    case None =>
      assert !HasKey(t, k);
    case Some(i) =>
      assert Find(vs, p) == Some(t[i].value);
      LookupEntry(t, i);
  }

  /** The enriched match list is the selected list with each reference resolved by id,
      in the same order and with every match field unchanged. */
  lemma EnrichedMatchesResolve(s: Store, status: Query)
    requires Valid(s)
    ensures var ms := if Truthy(status) then GetMatchesByStatus(s, status.value) else GetMatches(s);
      var r := EnrichedMatchesRoute(s, status);
      forall i :: 0 <= i < |r| ==>
        && r[i].base == ms[i]
        && r[i].homeTeam == (if ms[i].homeTeamId.Val? then GetTeamById(s, ms[i].homeTeamId.v) else None)
        && r[i].awayTeam == (if ms[i].awayTeamId.Val? then GetTeamById(s, ms[i].awayTeamId.v) else None)
        && r[i].tournament == (if ms[i].tournamentId.Val? then GetTournamentById(s, ms[i].tournamentId.v) else None)
  {
    var ms := if Truthy(status) then GetMatchesByStatus(s, status.value) else GetMatches(s);
    var r := EnrichedMatchesRoute(s, status);
    forall i | 0 <= i < |r|
      ensures r[i].homeTeam == (if ms[i].homeTeamId.Val? then GetTeamById(s, ms[i].homeTeamId.v) else None)
      ensures r[i].awayTeam == (if ms[i].awayTeamId.Val? then GetTeamById(s, ms[i].awayTeamId.v) else None)
      ensures r[i].tournament == (if ms[i].tournamentId.Val? then GetTournamentById(s, ms[i].tournamentId.v) else None)
    {
      JoinIsLookup(s, ms[i].homeTeamId);
      JoinIsLookup(s, ms[i].awayTeamId);
      JoinIsLookup(s, ms[i].tournamentId);
    }
  }
}

=== FILE: schema.dfy ===
/** Record shapes of the four tables (tournaments, teams, matches, standings),
    the insert shapes `create*` accept, the partial match update, the live
    match event, and the `{...match, ...updates}` merge. */
module Schema {
  import opened Js

  /** A competition. `kind` is the source's `type` column: "league", "cup" or "international". */
  datatype Tournament = Tournament(
    id: int, name: string, nameAr: string, kind: string,
    country: Slot<string>, season: string, isActive: Slot<bool>)

  datatype Team = Team(id: int, name: string, nameAr: string, country: string, logo: Slot<string>)

  /** A fixture. Every column except the key may hold any run-time value, because a
      partial update can write `undefined` into it. `matchDate` is in epoch milliseconds. */
  datatype Match = Match(
    id: int,
    tournamentId: Slot<int>, homeTeamId: Slot<int>, awayTeamId: Slot<int>,
    homeScore: Slot<int>, awayScore: Slot<int>,
    status: Slot<string>, matchDate: Slot<int>,
    currentMinute: Slot<int>, streamUrl: Slot<string>)

  datatype Standing = Standing(
    id: int, tournamentId: Slot<int>, teamId: Slot<int>, position: int,
    played: Slot<int>, won: Slot<int>, drawn: Slot<int>, lost: Slot<int>,
    points: Slot<int>, goalsFor: Slot<int>, goalsAgainst: Slot<int>)

  // Insert shapes: what a caller hands to `create*`. An `id` in them is ignored.

  datatype InsertTournament = InsertTournament(
    id: Slot<int>, name: string, nameAr: string, kind: string,
    country: Slot<string>, season: string, isActive: Slot<bool>)

  datatype InsertTeam = InsertTeam(id: Slot<int>, name: string, nameAr: string, country: string, logo: Slot<string>)

  datatype InsertMatch = InsertMatch(
    id: Slot<int>,
    tournamentId: Slot<int>, homeTeamId: Slot<int>, awayTeamId: Slot<int>,
    homeScore: Slot<int>, awayScore: Slot<int>,
    status: Slot<string>, matchDate: Slot<int>,
    currentMinute: Slot<int>, streamUrl: Slot<string>)

  datatype InsertStanding = InsertStanding(
    id: Slot<int>, tournamentId: Slot<int>, teamId: Slot<int>, position: int,
    played: Slot<int>, won: Slot<int>, drawn: Slot<int>, lost: Slot<int>,
    points: Slot<int>, goalsFor: Slot<int>, goalsAgainst: Slot<int>)

  /** `Partial<Match>` without the key: None means the key is absent from the update
      object; Some(Undefined) means the key is present with the value `undefined`. */
  datatype MatchPatch = MatchPatch(
    tournamentId: Option<Slot<int>>, homeTeamId: Option<Slot<int>>, awayTeamId: Option<Slot<int>>,
    homeScore: Option<Slot<int>>, awayScore: Option<Slot<int>>,
    status: Option<Slot<string>>, matchDate: Option<Slot<int>>,
    currentMinute: Option<Slot<int>>, streamUrl: Option<Slot<string>>)

  /** The update object with exactly the keys homeScore, awayScore, currentMinute
      and status, the shape every writer of live state in the backend uses. */
  function LivePatch(homeScore: Slot<int>, awayScore: Slot<int>, currentMinute: Slot<int>, status: Slot<string>): MatchPatch
  {
    MatchPatch(None, None, None, Some(homeScore), Some(awayScore), Some(status), None, Some(currentMinute), None)
  }

  /** One thing that happened in a match, carried only inside a broadcast.
      `kind` is the source's `type` ("goal", "yellow_card", "red_card", ...). */
  datatype MatchEvent = MatchEvent(
    id: int, matchId: Slot<int>, minute: Slot<int>, kind: Slot<string>,
    playerName: Slot<string>, playerNameAr: Slot<string>, teamId: Slot<int>,
    description: string, descriptionAr: string)

  // ---------------------------------------------------------------- merge

  function Over<T>(u: Option<Slot<T>>, prior: Slot<T>): Slot<T>
  {
    if u.Some? then u.value else prior
  }

  /** `{ ...m, ...p }` */
  function Merge(m: Match, p: MatchPatch): Match
  {
    Match(m.id,
      Over(p.tournamentId, m.tournamentId), Over(p.homeTeamId, m.homeTeamId), Over(p.awayTeamId, m.awayTeamId),
      Over(p.homeScore, m.homeScore), Over(p.awayScore, m.awayScore),
      Over(p.status, m.status), Over(p.matchDate, m.matchDate),
      Over(p.currentMinute, m.currentMinute), Over(p.streamUrl, m.streamUrl))
  }

  // ---------------------------------------------------------------- object view

  datatype Property = IntProp(i: Slot<int>) | TextProp(t: Slot<string>)

  const MatchKeys: set<string> := {
    "id", "tournamentId", "homeTeamId", "awayTeamId", "homeScore",
    "awayScore", "status", "matchDate", "currentMinute", "streamUrl"}

  /** `m[key]` */
  function MatchProp(m: Match, key: string): Property
  {
    if key == "id" then IntProp(Val(m.id))
    else if key == "tournamentId" then IntProp(m.tournamentId)
    else if key == "homeTeamId" then IntProp(m.homeTeamId)
    else if key == "awayTeamId" then IntProp(m.awayTeamId)
    else if key == "homeScore" then IntProp(m.homeScore)
    else if key == "awayScore" then IntProp(m.awayScore)
    else if key == "status" then TextProp(m.status)
    else if key == "matchDate" then IntProp(m.matchDate)
    else if key == "currentMinute" then IntProp(m.currentMinute)
    else if key == "streamUrl" then TextProp(m.streamUrl)
    else IntProp(Undefined)
  }

  /** `p[key]` when `key in p`, None when the update object does not carry it. */
  function PatchProp(p: MatchPatch, key: string): Option<Property>
  {
    if key == "tournamentId" then IntKey(p.tournamentId)
    else if key == "homeTeamId" then IntKey(p.homeTeamId)
    else if key == "awayTeamId" then IntKey(p.awayTeamId)
    else if key == "homeScore" then IntKey(p.homeScore)
    else if key == "awayScore" then IntKey(p.awayScore)
    else if key == "status" then TextKey(p.status)
    else if key == "matchDate" then IntKey(p.matchDate)
    else if key == "currentMinute" then IntKey(p.currentMinute)
    else if key == "streamUrl" then TextKey(p.streamUrl)
    else None
  }

  function IntKey(u: Option<Slot<int>>): Option<Property>
  {
    if u.Some? then Some(IntProp(u.value)) else None
  }

  function TextKey(u: Option<Slot<string>>): Option<Property>
  {
    if u.Some? then Some(TextProp(u.value)) else None
  }

  /** A match record as the JavaScript object it is, keyed by property name. */
  function MatchObject(m: Match): map<string, Property>
  {
    map key | key in MatchKeys :: MatchProp(m, key)
  }

  /** The properties an update object actually carries. */
  function PatchObject(p: MatchPatch): map<string, Property>
  {
    map key | key in MatchKeys && PatchProp(p, key).Some? :: PatchProp(p, key).value
  }

  /** Object spread is map union with the right operand winning: every key the update
      carries (even with the value `undefined`) takes the new value, every other key
      keeps the old one, and no key appears or disappears. */
  lemma MergeIsSpread(m: Match, p: MatchPatch)
    ensures MatchObject(Merge(m, p)) == MatchObject(m) + PatchObject(p)
  {
    var merged, spread := MatchObject(Merge(m, p)), MatchObject(m) + PatchObject(p);
    assert merged.Keys == spread.Keys;
    forall key | key in MatchKeys
      ensures merged[key] == spread[key]
    {
      MergeProp(m, p, key);
    }
  }

  /** One property of the merged record. */
  lemma MergeProp(m: Match, p: MatchPatch, key: string)
    ensures MatchProp(Merge(m, p), key)
         == if PatchProp(p, key).Some? then PatchProp(p, key).value else MatchProp(m, key)
  {
  }

  /** Spreading the same update twice is the same as spreading it once. */
  lemma MergeIdempotent(m: Match, p: MatchPatch)
    ensures Merge(Merge(m, p), p) == Merge(m, p)
  {
  }
}

=== FILE: seqs.dfy ===
/** Array helpers the backend uses through JavaScript's `filter`, `find` and
    `map`, with the properties the callers depend on. */
module Seqs {
  import opened Js

  /** `s` is obtained from `t` by deleting elements, keeping the order of the rest. */
  ghost predicate IsSubsequence<T>(s: seq<T>, t: seq<T>)
    decreases |t|
  {
    if |s| == 0 then true
    else if |t| == 0 then false
    else (s[0] == t[0] && IsSubsequence(s[1..], t[1..])) || IsSubsequence(s, t[1..])
  }

  /** `s.filter(p)` */
  function Filter<T>(s: seq<T>, p: T -> bool): (r: seq<T>)
    ensures |r| <= |s|
    ensures forall i :: 0 <= i < |r| ==> r[i] in s && p(r[i])
    ensures forall i :: 0 <= i < |s| && p(s[i]) ==> s[i] in r
  {
    if |s| == 0 then [] else (if p(s[0]) then [s[0]] else []) + Filter(s[1..], p)
  }

  lemma {:induction false} FilterIsSubsequence<T>(s: seq<T>, p: T -> bool)
    ensures IsSubsequence(Filter(s, p), s)
    decreases |s|
  {
    if |s| > 0 {
      FilterIsSubsequence(s[1..], p);
      var r := Filter(s[1..], p);
      if p(s[0]) {
        assert Filter(s, p) == [s[0]] + r;
        assert ([s[0]] + r)[1..] == r;
      } else {
        assert Filter(s, p) == r;
        if |r| > 0 {
          assert IsSubsequence(r, s[1..]);
        }
      }
    }
  }

  /** Filtering keeps every element that passes with its multiplicity and drops the rest. */
  lemma {:induction false} FilterCounts<T>(s: seq<T>, p: T -> bool, x: T)
    ensures multiset(Filter(s, p))[x] == if p(x) then multiset(s)[x] else 0
    decreases |s|
  {
    if |s| > 0 {
      FilterCounts(s[1..], p, x);
      assert s == [s[0]] + s[1..];
      assert multiset(s) == multiset([s[0]]) + multiset(s[1..]);
    }
  }

  lemma {:induction false} FilterAll<T>(s: seq<T>, p: T -> bool)
    requires forall i :: 0 <= i < |s| ==> p(s[i])
    ensures Filter(s, p) == s
    decreases |s|
  {
    if |s| > 0 {
      FilterAll(s[1..], p);
      assert s == [s[0]] + s[1..];
    }
  }

  lemma {:induction false} FilterNone<T>(s: seq<T>, p: T -> bool)
    requires forall i :: 0 <= i < |s| ==> !p(s[i])
    ensures Filter(s, p) == []
    decreases |s|
  {
    if |s| > 0 {
      FilterNone(s[1..], p);
    }
  }

  lemma {:induction false} FilterAppend<T>(a: seq<T>, b: seq<T>, p: T -> bool)
    ensures Filter(a + b, p) == Filter(a, p) + Filter(b, p)
    decreases |a|
  {
    if |a| > 0 {
      assert (a + b)[1..] == a[1..] + b;
      FilterAppend(a[1..], b, p);
    } else {
      assert a + b == b;
    }
  }

  /** `s.map(f)` */
  function Map<T, U>(s: seq<T>, f: T -> U): (r: seq<U>)
    ensures |r| == |s|
    ensures forall i :: 0 <= i < |s| ==> r[i] == f(s[i])
  {
    seq(|s|, i requires 0 <= i < |s| => f(s[i]))
  }

  /** `s.findIndex(p)`; the "not found" answer -1 is None here. */
  function FindIndex<T>(s: seq<T>, p: T -> bool): (r: Option<nat>)
    ensures r.Some? ==> r.value < |s| && p(s[r.value])
    ensures r.Some? ==> forall j :: 0 <= j < r.value ==> !p(s[j])
    ensures r.None? <==> forall j :: 0 <= j < |s| ==> !p(s[j])
  {
    if |s| == 0 then None
    else if p(s[0]) then Some(0)
    else match FindIndex(s[1..], p)
      case None => None
      case Some(i) => Some(i + 1)
  }

  /** `s.find(p)`: the first element that passes, or undefined (None). */
  function Find<T>(s: seq<T>, p: T -> bool): (r: Option<T>)
    ensures r.None? <==> forall i :: 0 <= i < |s| ==> !p(s[i])
    ensures r.Some? ==> exists i :: 0 <= i < |s| && s[i] == r.value && p(s[i]) && forall j :: 0 <= j < i ==> !p(s[j])
  {
    match FindIndex(s, p)
    case None => None
    case Some(i) => Some(s[i])
  }
}

=== FILE: sports_api.dfy ===
/** The external sports feed: the simulated fetch that invents five matches, the
    fixed list of stream sources for a match, and the sync that copies an external
    match's live fields onto the first local match whose stream URL mentions it. */
module SportsApi {
  import opened Js
  import opened Seqs
  import opened Schema
  import opened Storage

  datatype ExternalMatch = ExternalMatch(
    id: string, homeTeam: string, awayTeam: string,
    homeScore: int, awayScore: int, status: string, minute: int,
    competition: string, streamUrl: string)

  const Competitions: seq<string> := ["UEFA Champions League", "Premier League", "La Liga", "Serie A", "Bundesliga"]
  const ExternalTeams: seq<string> := [
    "Real Madrid", "Barcelona", "Manchester City", "Liverpool",
    "Bayern Munich", "PSG", "Juventus", "AC Milan"]
  const GeneratedCount := 5

  /** The `Math.random()` values one generated match consumes. `away` holds the draws
      of the away team, the first one and every redraw after it. */
  datatype MatchDraws = MatchDraws(
    home: real, away: seq<real>, homeScore: real, awayScore: real,
    status: real, minute: real, competition: real)

  predicate ValidMatchDraws(d: MatchDraws)
  {
    && IsRandom(d.home) && IsRandom(d.homeScore) && IsRandom(d.awayScore)
    && IsRandom(d.status) && IsRandom(d.minute) && IsRandom(d.competition)
    && forall i :: 0 <= i < |d.away| ==> IsRandom(d.away[i])
  }

  /** `Math.floor(r * n)` for `r = Math.random()`. */
  function RandomIndex(r: real, n: nat): (k: nat)
    requires IsRandom(r) && n > 0
    ensures k < n
  {
    assert r * n as real < n as real;
    (r * n as real).Floor
  }

  /** `names[Math.floor(Math.random() * names.length)]` */
  function Pick(names: seq<string>, r: real): (name: string)
    requires IsRandom(r) && |names| > 0
    ensures name in names
  {
    names[RandomIndex(r, |names|)]
  }

  /** The away team: the first draw that differs from the home team. When every draw
      given repeats the home team the loop has not ended yet: None. */
  function AwayTeam(home: string, away: seq<real>): (r: Option<string>)
    requires forall i :: 0 <= i < |away| ==> IsRandom(away[i])
    ensures r.Some? ==> r.value != home && r.value in ExternalTeams
    ensures r.None? <==> forall i :: 0 <= i < |away| ==> Pick(ExternalTeams, away[i]) == home
    ensures r.Some? ==> exists i :: 0 <= i < |away| && r.value == Pick(ExternalTeams, away[i])
                                 && forall j :: 0 <= j < i ==> Pick(ExternalTeams, away[j]) == home
    decreases |away|
  {
    if |away| == 0 then None
    else if Pick(ExternalTeams, away[0]) != home then Some(Pick(ExternalTeams, away[0]))
    else
      var rest := AwayTeam(home, away[1..]);
      if rest.Some? then
        ghost var i :| 0 <= i < |away[1..]| && rest.value == Pick(ExternalTeams, away[1..][i])
          && forall j :: 0 <= j < i ==> Pick(ExternalTeams, away[1..][j]) == home;
        assert rest.value == Pick(ExternalTeams, away[i + 1]);
        assert forall j :: 0 <= j < i + 1 ==> Pick(ExternalTeams, away[j]) == home by {
          forall j | 0 <= j < i + 1 ensures Pick(ExternalTeams, away[j]) == home {
            if j > 0 { assert away[j] == away[1..][j - 1]; }
          }
        }
        rest
      else
        assert forall i :: 0 <= i < |away| ==> Pick(ExternalTeams, away[i]) == home by {
          forall i | 0 <= i < |away| ensures Pick(ExternalTeams, away[i]) == home {
            if i > 0 { assert away[i] == away[1..][i - 1]; }
          }
        }
        rest
  }

  /** The generated match at index `i` (0-based). */
  function GenerateOne(i: nat, d: MatchDraws): (r: Option<ExternalMatch>)
    requires ValidMatchDraws(d)
    ensures r.None? <==> AwayTeam(Pick(ExternalTeams, d.home), d.away).None?
    ensures r.Some? ==>
      && r.value.id == "ext_" + ToDecimal(i + 1)
      && r.value.streamUrl == "https://stream.example.com/live/" + ToDecimal(i + 1)
      && r.value.homeTeam != r.value.awayTeam
      && r.value.homeTeam in ExternalTeams && r.value.awayTeam in ExternalTeams
      && 0 <= r.value.homeScore <= 3 && 0 <= r.value.awayScore <= 3
      && 1 <= r.value.minute <= 90
      && (r.value.status == "live" <==> d.status > 0.3)
      && (r.value.status == "live" || r.value.status == "finished")
      && r.value.competition in Competitions
  {
    var home := Pick(ExternalTeams, d.home);
    match AwayTeam(home, d.away)
    case None => None
    case Some(away) =>
      Some(ExternalMatch(
        "ext_" + ToDecimal(i + 1), home, away,
        RandomIndex(d.homeScore, 4), RandomIndex(d.awayScore, 4),
        if d.status > 0.3 then "live" else "finished",
        RandomIndex(d.minute, 90) + 1,
        Pick(Competitions, d.competition),
        "https://stream.example.com/live/" + ToDecimal(i + 1)))
  }

  /** Matches `from` .. 4 of the loop. */
  function GenerateFrom(from: nat, ds: seq<MatchDraws>): (r: Option<seq<ExternalMatch>>)
    requires from <= GeneratedCount && |ds| == GeneratedCount
    requires forall i :: 0 <= i < |ds| ==> ValidMatchDraws(ds[i])
    ensures r.Some? ==> |r.value| == GeneratedCount - from
    decreases GeneratedCount - from
  {
    if from == GeneratedCount then Some([])
    else
      match GenerateOne(from, ds[from])
      case None => None
      case Some(m) =>
        match GenerateFrom(from + 1, ds)
        case None => None
        case Some(rest) => Some([m] + rest)
  }

  /** Each generated match is the one its own draws give at its own index. */
  lemma {:induction false} GenerateFromElements(from: nat, ds: seq<MatchDraws>)
    requires from <= GeneratedCount && |ds| == GeneratedCount
    requires forall i :: 0 <= i < |ds| ==> ValidMatchDraws(ds[i])
    ensures var r := GenerateFrom(from, ds);
      r.Some? ==> forall k :: 0 <= k < |r.value| ==> GenerateOne(from + k, ds[from + k]) == Some(r.value[k])
    decreases GeneratedCount - from
  {
    if from < GeneratedCount && GenerateFrom(from, ds).Some? {
      GenerateFromElements(from + 1, ds);
      var r := GenerateFrom(from, ds).value;
      var rest := GenerateFrom(from + 1, ds).value;
      assert r == [r[0]] + rest;
      forall k | 0 <= k < |r| ensures GenerateOne(from + k, ds[from + k]) == Some(r[k]) {
        if k > 0 {
          assert r[k] == rest[k - 1];
          assert from + k == (from + 1) + (k - 1);
        }
      }
    }
  }

  /** `generateRealisticMatchData`, given every draw the loop makes; None when some
      away-team redraw loop has not finished within the draws given. */
  function GenerateRealisticMatchData(ds: seq<MatchDraws>): (r: Option<seq<ExternalMatch>>)
    requires |ds| == GeneratedCount
    requires forall i :: 0 <= i < |ds| ==> ValidMatchDraws(ds[i])
    ensures r.Some? ==> |r.value| == GeneratedCount
  {
    GenerateFrom(0, ds)
  }

  /** Five matches with ids ext_1 .. ext_5 and URLs ending in /live/1 .. /live/5, two
      different teams each, scores 0..3, a minute in 1..90 and status live or finished. */
  lemma GeneratedMatches(ds: seq<MatchDraws>)
    requires |ds| == GeneratedCount
    requires forall i :: 0 <= i < |ds| ==> ValidMatchDraws(ds[i])
    ensures var r := GenerateRealisticMatchData(ds);
      r.Some? ==> forall k :: 0 <= k < |r.value| ==>
        && r.value[k].id == "ext_" + ToDecimal(k + 1)
        && r.value[k].streamUrl == "https://stream.example.com/live/" + ToDecimal(k + 1)
        && r.value[k].homeTeam != r.value[k].awayTeam
        && 0 <= r.value[k].homeScore <= 3 && 0 <= r.value[k].awayScore <= 3
        && 1 <= r.value[k].minute <= 90
        && (r.value[k].status == "live" || r.value[k].status == "finished")
  {
    var r := GenerateRealisticMatchData(ds);
    GenerateFromElements(0, ds);
    if r.Some? {
      forall k | 0 <= k < |r.value|
        ensures r.value[k].id == "ext_" + ToDecimal(k + 1)
      {
        assert GenerateOne(k, ds[k]) == Some(r.value[k]);
      }
    }
  }

  /** The generated ids are pairwise different. */
  lemma GeneratedIdsDistinct(ds: seq<MatchDraws>, j: nat, k: nat)
    requires |ds| == GeneratedCount
    requires forall i :: 0 <= i < |ds| ==> ValidMatchDraws(ds[i])
    requires GenerateRealisticMatchData(ds).Some?
    requires j < k < GeneratedCount
    ensures GenerateRealisticMatchData(ds).value[j].id != GenerateRealisticMatchData(ds).value[k].id
  {
    var r := GenerateRealisticMatchData(ds).value;
    GeneratedMatches(ds);
    if r[j].id == r[k].id {
      assert ("ext_" + Digits(j + 1))[4..] == Digits(j + 1);
      assert ("ext_" + Digits(k + 1))[4..] == Digits(k + 1);
      DigitsInjective(j + 1, k + 1);
    }
  }

  // ---------------------------------------------------------------- stream sources

  datatype StreamSource = StreamSource(quality: string, url: string, kind: string)

  /** One HLS source under `dir` for the match text `id`. */
  function Source(quality: string, dir: string, id: string): (s: StreamSource)
    ensures s.quality == quality && s.kind == "hls" && Includes(s.url, id)
  {
    IncludesMiddle(dir, id, ".m3u8");
    StreamSource(quality, dir + id + ".m3u8", "hls")
  }

  /** `getStreamSources(matchId)` */
  function GetStreamSources(matchId: int): (r: seq<StreamSource>)
    ensures |r| == 3
    ensures r[0].quality == "1080p" && r[1].quality == "720p" && r[2].quality == "480p"
    ensures forall i :: 0 <= i < 3 ==> r[i].kind == "hls" && Includes(r[i].url, ToDecimal(matchId))
  {
    var id := ToDecimal(matchId);
    [ Source("1080p", "https://stream.example.com/hd/", id),
      Source("720p", "https://stream.example.com/md/", id),
      Source("480p", "https://stream.example.com/sd/", id) ]
  }

  // ---------------------------------------------------------------- sync

  /** `m.streamUrl?.includes(id)`: a null or absent URL matches nothing. */
  function Mentions(id: string): Match -> bool
  {
    (m: Match) => m.streamUrl.Val? && Includes(m.streamUrl.v, id)
  }

  /** The four live fields of an external match, as the update object. */
  function ExternalPatch(e: ExternalMatch): MatchPatch
  {
    LivePatch(Val(e.homeScore), Val(e.awayScore), Val(e.minute), Val(e.status))
  }

  /** One iteration: find in the snapshot, then update that match by id. */
  function SyncOne(s: Store, local: seq<Match>, e: ExternalMatch): Store
  {
    match Find(local, Mentions(e.id))
    case None => s
    case Some(m) => UpdateMatch(s, m.id, ExternalPatch(e)).store
  }

  function SyncOver(s: Store, local: seq<Match>, exts: seq<ExternalMatch>): (r: Store)
    ensures r == s.(matches := r.matches)
    decreases |exts|
  {
    if |exts| == 0 then s else SyncOver(SyncOne(s, local, exts[0]), local, exts[1..])
  }

  /** `syncMatchData`, given what the fetch returned: the local list is read once, before
      any write, and each external match in turn updates at most one local match. */
  function SyncMatchData(s: Store, exts: seq<ExternalMatch>): (r: Store)
    ensures r == s.(matches := r.matches)
    ensures |exts| == 0 ==> r == s
  {
    SyncOver(s, GetMatches(s), exts)
  }

  /** One iteration changes nothing when no local match mentions the id; otherwise it
      changes only the first such match of the snapshot, and only its four live fields. */
  lemma SyncOneSpec(s: Store, e: ExternalMatch)
    requires Valid(s)
    ensures var r := SyncOne(s, GetMatches(s), e);
      && (Find(GetMatches(s), Mentions(e.id)).None? ==> r == s)
      && (Find(GetMatches(s), Mentions(e.id)).Some? ==>
            var m := Find(GetMatches(s), Mentions(e.id)).value;
            && GetMatchById(r, m.id) == Some(Merge(m, ExternalPatch(e)))
            && (forall k :: k != m.id ==> GetMatchById(r, k) == GetMatchById(s, k)))
  {
    var local := GetMatches(s);
    match Find(local, Mentions(e.id))
    case None =>
    case Some(m) =>
      var i :| 0 <= i < |local| && local[i] == m && Mentions(e.id)(local[i]);
      assert s.matches[i].key == m.id;
      var r := UpdateMatch(s, m.id, ExternalPatch(e)).store;
      UpdateMatchLookups(s, m.id, ExternalPatch(e), m.id);
      LookupEntry(s.matches, i);
      forall k | k != m.id ensures GetMatchById(r, k) == GetMatchById(s, k) {
        UpdateMatchLookups(s, m.id, ExternalPatch(e), k);
      }
  }

  /** Any iteration of the loop, on the store as the earlier iterations left it and the
      snapshot read before them: nothing changes when no snapshot match mentions the id or
      its id is no longer stored; otherwise the match stored under the first mentioning
      snapshot match's id gets the four fields merged into its current record, and every
      other id reads as before. */
  lemma SyncOneStep(s: Store, local: seq<Match>, e: ExternalMatch)
    requires Valid(s)
    ensures Find(local, Mentions(e.id)).None? ==> SyncOne(s, local, e) == s
    ensures Find(local, Mentions(e.id)).Some? && GetMatchById(s, Find(local, Mentions(e.id)).value.id).None? ==>
      SyncOne(s, local, e) == s
    ensures Find(local, Mentions(e.id)).Some? && GetMatchById(s, Find(local, Mentions(e.id)).value.id).Some? ==>
      GetMatchById(SyncOne(s, local, e), Find(local, Mentions(e.id)).value.id)
        == Some(Merge(GetMatchById(s, Find(local, Mentions(e.id)).value.id).value, ExternalPatch(e)))
    ensures Find(local, Mentions(e.id)).Some? ==> forall k :: k != Find(local, Mentions(e.id)).value.id ==>
      GetMatchById(SyncOne(s, local, e), k) == GetMatchById(s, k)
  {
    match Find(local, Mentions(e.id))
    case None =>
    case Some(m) =>
      UpdateMatchLookups(s, m.id, ExternalPatch(e), m.id);
      forall k | k != m.id ensures GetMatchById(SyncOne(s, local, e), k) == GetMatchById(s, k) {
        UpdateMatchLookups(s, m.id, ExternalPatch(e), k);
      }
  }

  /** No external id is mentioned by a snapshot entry carrying `key`. */
  ghost predicate Unmentioned(local: seq<Match>, exts: seq<ExternalMatch>, key: int)
  {
    forall j, n :: 0 <= j < |local| && 0 <= n < |exts| && local[j].id == key ==> !Mentions(exts[n].id)(local[j])
  }

  /** A sync keeps the store valid, keeps every key in its place, and leaves untouched
      every match that no snapshot entry with its key links to an external id. */
  lemma {:induction false} SyncOverFrame(s: Store, local: seq<Match>, exts: seq<ExternalMatch>)
    requires Valid(s)
    ensures var r := SyncOver(s, local, exts);
      && Valid(r)
      && |r.matches| == |s.matches|
      && (forall i :: 0 <= i < |s.matches| ==> r.matches[i].key == s.matches[i].key)
      && (forall i :: 0 <= i < |s.matches| && Unmentioned(local, exts, s.matches[i].key) ==> r.matches[i] == s.matches[i])
    decreases |exts|
  {
    if |exts| > 0 {
      var e := exts[0];
      var next := SyncOne(s, local, e);
      var found := Find(local, Mentions(e.id));
      if found.Some? {
        UpdateMatchFrame(s, found.value.id, ExternalPatch(e));
      }
      SyncOverFrame(next, local, exts[1..]);
      forall i | 0 <= i < |s.matches| && Unmentioned(local, exts, s.matches[i].key)
        ensures Unmentioned(local, exts[1..], s.matches[i].key)
        ensures found.Some? ==> found.value.id != s.matches[i].key
      {
        forall j, n | 0 <= j < |local| && 0 <= n < |exts[1..]| && local[j].id == s.matches[i].key
          ensures !Mentions(exts[1..][n].id)(local[j])
        {
          assert exts[1..][n] == exts[n + 1];
        }
        if found.Some? {
          var j :| 0 <= j < |local| && local[j] == found.value && Mentions(e.id)(local[j]);
        }
      }
    }
  }

  /** The whole sync on a valid store: a match whose stream URL (null included) mentions
      none of the external ids keeps its record, and no match is created. */
  lemma SyncMatchDataFrame(s: Store, exts: seq<ExternalMatch>)
    requires Valid(s)
    ensures var r := SyncMatchData(s, exts);
      && Valid(r)
      && |r.matches| == |s.matches|
      && forall i :: 0 <= i < |s.matches| && (forall n :: 0 <= n < |exts| ==> !Mentions(exts[n].id)(s.matches[i].value)) ==>
           r.matches[i] == s.matches[i]
  {
    var local := GetMatches(s);
    SyncOverFrame(s, local, exts);
    forall i | 0 <= i < |s.matches| && (forall n :: 0 <= n < |exts| ==> !Mentions(exts[n].id)(s.matches[i].value))
      ensures Unmentioned(local, exts, s.matches[i].key)
    {
      UnmentionedInSnapshot(s, exts, i);
    }
  }

  /** In a valid store only the entry itself carries its key, so a stored match that no
      external id mentions is unmentioned in the snapshot too. */
  lemma UnmentionedInSnapshot(s: Store, exts: seq<ExternalMatch>, i: int)
    requires Valid(s) && 0 <= i < |s.matches|
    requires forall n :: 0 <= n < |exts| ==> !Mentions(exts[n].id)(s.matches[i].value)
    ensures Unmentioned(GetMatches(s), exts, s.matches[i].key)
  {
    var local := GetMatches(s);
    forall j, n | 0 <= j < |local| && 0 <= n < |exts| && local[j].id == s.matches[i].key
      ensures !Mentions(exts[n].id)(local[j])
    {
      assert local[j] == s.matches[j].value;
      assert s.matches[j].key == s.matches[i].key;
    }
  }
}

=== FILE: storage.dfy ===
/** The in-memory store: four insertion-ordered maps keyed by id, one id counter
    per table, the seeded demo data, `create*` with defaults, the shallow
    merge-update of a match, and the filtered and sorted reads. */
module Storage {
  import opened Js
  import opened Seqs
  import opened Schema

  // ---------------------------------------------------------------- ordered map

  /** One key/value pair of a JavaScript `Map`; a map is the sequence of its pairs in insertion order. */
  datatype Entry<V> = Entry(key: int, value: V)

  predicate HasKey<V>(t: seq<Entry<V>>, k: int)
  {
    exists i | 0 <= i < |t| :: t[i].key == k
  }

  predicate DistinctKeys<V>(t: seq<Entry<V>>)
  {
    forall i, j :: 0 <= i < j < |t| ==> t[i].key != t[j].key
  }

  /** `Array.from(map.values())` */
  function ValuesOf<V>(t: seq<Entry<V>>): (r: seq<V>)
    ensures |r| == |t|
    ensures forall i :: 0 <= i < |t| ==> r[i] == t[i].value
  {
    seq(|t|, i requires 0 <= i < |t| => t[i].value)
  }

  /** `map.get(k)` */
  function Lookup<V>(t: seq<Entry<V>>, k: int): (r: Option<V>)
    ensures r.None? <==> !HasKey(t, k)
    ensures r.Some? ==> exists i :: 0 <= i < |t| && t[i] == Entry(k, r.value)
  {
    match FindIndex(t, (e: Entry<V>) => e.key == k)
    case None => None
    case Some(i) => Some(t[i].value)
  }

  /** `map.set(k, v)`: an existing key keeps its place and gets the new value; a new key goes last. */
  function Put<V>(t: seq<Entry<V>>, k: int, v: V): (r: seq<Entry<V>>)
    ensures HasKey(t, k) ==> |r| == |t|
    ensures HasKey(t, k) ==> forall i :: 0 <= i < |t| ==> r[i] == if t[i].key == k then Entry(k, v) else t[i]
    ensures !HasKey(t, k) ==> r == t + [Entry(k, v)]
  {
    if HasKey(t, k) then seq(|t|, i requires 0 <= i < |t| => if t[i].key == k then Entry(k, v) else t[i])
    else t + [Entry(k, v)]
  }

  /** The `forEach(x => map.set(x.id, x))` loops of the seeding code. */
  function PutAll<V>(t: seq<Entry<V>>, es: seq<Entry<V>>): seq<Entry<V>>
    decreases |es|
  {
    if |es| == 0 then t else PutAll(Put(t, es[0].key, es[0].value), es[1..])
  }

  lemma {:induction false} PutAllFresh<V>(t: seq<Entry<V>>, es: seq<Entry<V>>)
    requires DistinctKeys(es)
    requires forall i, j :: 0 <= i < |t| && 0 <= j < |es| ==> t[i].key != es[j].key
    ensures PutAll(t, es) == t + es
    decreases |es|
  {
    if |es| > 0 {
      assert !HasKey(t, es[0].key);
      var t' := t + [es[0]];
      assert Put(t, es[0].key, es[0].value) == t';
      PutAllFresh(t', es[1..]);
      assert t' + es[1..] == t + es;
    }
  }

  // ---------------------------------------------------------------- the store

  datatype Store = Store(
    tournaments: seq<Entry<Tournament>>, teams: seq<Entry<Team>>,
    matches: seq<Entry<Match>>, standings: seq<Entry<Standing>>,
    nextTournamentId: int, nextTeamId: int, nextMatchId: int, nextStandingId: int)

  /** Keys are distinct, each record's `id` is its key, and each counter is above every key in its table. */
  ghost predicate Valid(s: Store)
  {
    && DistinctKeys(s.tournaments) && DistinctKeys(s.teams) && DistinctKeys(s.matches) && DistinctKeys(s.standings)
    && (forall i :: 0 <= i < |s.tournaments| ==> s.tournaments[i].value.id == s.tournaments[i].key < s.nextTournamentId)
    && (forall i :: 0 <= i < |s.teams| ==> s.teams[i].value.id == s.teams[i].key < s.nextTeamId)
    && (forall i :: 0 <= i < |s.matches| ==> s.matches[i].value.id == s.matches[i].key < s.nextMatchId)
    && (forall i :: 0 <= i < |s.standings| ==> s.standings[i].value.id == s.standings[i].key < s.nextStandingId)
  }

  /** `counter = Math.max(counter, id + 1)` over the seeded ids. */
  function NextId(counter: int, ids: seq<int>): (r: int)
    ensures r >= counter
    ensures forall i :: 0 <= i < |ids| ==> ids[i] < r
    decreases |ids|
  {
    if |ids| == 0 then counter
    else NextId(if ids[0] + 1 > counter then ids[0] + 1 else counter, ids[1..])
  }

  // ---------------------------------------------------------------- seed data

  function T(id: int, name: string, nameAr: string, kind: string, country: string, season: string): Tournament
  {
    Tournament(id, name, nameAr, kind, Val(country), season, Val(true))
  }

  function SeedTournaments(): seq<Tournament>
  {
    [ T(1, "UEFA Champions League", "دوري أبطال أوروبا", "cup", "Europe", "2024-25"),
      T(2, "Premier League", "الدوري الإنجليزي الممتاز", "league", "England", "2024-25"),
      T(3, "La Liga", "الدوري الإسباني", "league", "Spain", "2024-25"),
      T(4, "Serie A", "الدوري الإيطالي", "league", "Italy", "2024-25"),
      T(5, "Bundesliga", "الدوري الألماني", "league", "Germany", "2024-25"),
      T(6, "Ligue 1", "الدوري الفرنسي", "league", "France", "2024-25"),
      T(7, "UEFA Europa League", "الدوري الأوروبي", "cup", "Europe", "2024-25"),
      T(8, "FIFA World Cup 2026", "كأس العالم ٢٠٢٦", "international", "International", "2026"),
      T(9, "FIFA Club World Cup", "كأس العالم للأندية", "international", "International", "2025"),
      T(10, "CAF Champions League", "دوري أبطال أفريقيا", "cup", "Africa", "2024-25"),
      T(11, "AFC Champions League", "دوري أبطال آسيا", "cup", "Asia", "2024-25"),
      T(12, "CONMEBOL Copa Libertadores", "كوبا ليبرتادوريس", "cup", "South America", "2024") ]
  }

  function SeedTeams(): seq<Team>
  {
    [ Team(1, "Real Madrid", "ريال مدريد", "Spain", Val("")),
      Team(2, "Manchester City", "مانشستر سيتي", "England", Val("")),
      Team(3, "Barcelona", "برشلونة", "Spain", Val("")),
      Team(4, "Liverpool", "ليفربول", "England", Val("")),
      Team(5, "Arsenal", "آرسنال", "England", Val("")),
      Team(6, "Chelsea", "تشيلسي", "England", Val("")),
      Team(7, "Bayern Munich", "بايرن ميونخ", "Germany", Val("")),
      Team(8, "AC Milan", "ميلان", "Italy", Val("")),
      Team(9, "Manchester United", "مانشستر يونايتد", "England", Val("")),
      Team(10, "Napoli", "نابولي", "Italy", Val("")),
      Team(11, "PSG", "باريس سان جيرمان", "France", Val("")),
      Team(12, "Inter Milan", "إنتر ميلان", "Italy", Val("")),
      Team(13, "Borussia Dortmund", "بوروسيا دورتموند", "Germany", Val("")),
      Team(14, "Atletico Madrid", "أتلتيكو مدريد", "Spain", Val("")),
      Team(15, "Juventus", "يوفنتوس", "Italy", Val("")),
      Team(16, "Tottenham", "توتنهام", "England", Val("")),
      Team(17, "Newcastle United", "نيوكاسل يونايتد", "England", Val("")),
      Team(18, "Brighton", "برايتون", "England", Val("")),
      Team(19, "West Ham United", "وست هام يونايتد", "England", Val("")),
      Team(20, "Aston Villa", "أستون فيلا", "England", Val("")) ]
  }

  const MinuteMs := 60000

  function LiveSeed(id: int, tournament: int, home: int, away: int, hs: int, aws: int, minute: int, now: int): Match
  {
    Match(id, Val(tournament), Val(home), Val(away), Val(hs), Val(aws), Val("live"),
      Val(now - minute * MinuteMs), Val(minute), Val("https://live-streaming.koralive.com/stream" + ToDecimal(id)))
  }

  function UpcomingSeed(id: int, tournament: int, home: int, away: int, hoursAhead: int, now: int): Match
  {
    Match(id, Val(tournament), Val(home), Val(away), Val(0), Val(0), Val("upcoming"),
      Val(now + hoursAhead * 60 * MinuteMs), Null, Null)
  }

  /** The nine seeded fixtures; `now` is the wall clock at start-up. */
  function SeedMatches(now: int): seq<Match>
  {
    [ LiveSeed(1, 1, 1, 7, 2, 1, 78, now),
      LiveSeed(2, 2, 4, 2, 1, 2, 67, now),
      LiveSeed(3, 3, 3, 14, 0, 1, 23, now),
      LiveSeed(4, 1, 8, 11, 3, 2, 45, now),
      LiveSeed(5, 4, 15, 12, 1, 0, 32, now),
      UpcomingSeed(6, 2, 5, 6, 3, now),
      UpcomingSeed(7, 3, 1, 3, 6, now),
      UpcomingSeed(8, 8, 1, 3, 24, now),
      UpcomingSeed(9, 10, 8, 12, 48, now) ]
  }

  function S(id: int, tournament: int, team: int, position: int, played: int, won: int, drawn: int, lost: int,
             points: int, goalsFor: int, goalsAgainst: int): Standing
  {
    Standing(id, Val(tournament), Val(team), position, Val(played), Val(won), Val(drawn), Val(lost),
      Val(points), Val(goalsFor), Val(goalsAgainst))
  }

  function SeedStandings(): seq<Standing>
  {
    [ S(1, 2, 4, 1, 16, 12, 3, 1, 39, 45, 15),
      S(2, 2, 2, 2, 16, 11, 3, 2, 36, 42, 18),
      S(3, 2, 5, 3, 16, 10, 4, 2, 34, 38, 20),
      S(4, 2, 6, 4, 16, 9, 4, 3, 31, 35, 22),
      S(5, 2, 9, 5, 16, 8, 5, 3, 29, 30, 25),
      S(6, 2, 16, 6, 16, 7, 6, 3, 27, 32, 28),
      S(7, 3, 1, 1, 15, 13, 1, 1, 40, 35, 8),
      S(8, 3, 3, 2, 15, 11, 2, 2, 35, 38, 15),
      S(9, 3, 14, 3, 15, 9, 4, 2, 31, 28, 18),
      S(10, 4, 12, 1, 14, 11, 2, 1, 35, 32, 8),
      S(11, 4, 15, 2, 14, 9, 3, 2, 30, 25, 12),
      S(12, 4, 8, 3, 14, 8, 4, 2, 28, 28, 15),
      S(13, 4, 10, 4, 14, 8, 2, 4, 26, 30, 20),
      S(14, 5, 7, 1, 13, 10, 2, 1, 32, 35, 12),
      S(15, 5, 13, 2, 13, 8, 3, 2, 27, 28, 15) ]
  }

  /** Keyed entries whose keys are 1, 2, 3, ... in order. */
  predicate NumberedFromOne<V>(es: seq<Entry<V>>)
  {
    forall i :: 0 <= i < |es| ==> es[i].key == i + 1
  }

  function KeysOf<V>(es: seq<Entry<V>>): (r: seq<int>)
    ensures |r| == |es|
    ensures forall i :: 0 <= i < |es| ==> r[i] == es[i].key
  {
    seq(|es|, i requires 0 <= i < |es| => es[i].key)
  }

  function TournamentEntries(): seq<Entry<Tournament>>
  {
    Map(SeedTournaments(), (t: Tournament) => Entry(t.id, t))
  }

  function TeamEntries(): seq<Entry<Team>>
  {
    Map(SeedTeams(), (t: Team) => Entry(t.id, t))
  }

  function MatchEntries(now: int): seq<Entry<Match>>
  {
    Map(SeedMatches(now), (m: Match) => Entry(m.id, m))
  }

  function StandingEntries(): seq<Entry<Standing>>
  {
    Map(SeedStandings(), (s: Standing) => Entry(s.id, s))
  }

  /** `new MemStorage()`: counters start at 1, then the seed data is loaded, each table
      holding its seeds in seed order. */
  function Initialize(now: int): (r: Store)
    ensures GetTournaments(r) == SeedTournaments() && GetTeams(r) == SeedTeams()
    ensures GetMatches(r) == SeedMatches(now) && ValuesOf(r.standings) == SeedStandings()
  {
    TournamentsLoaded();
    TeamsLoaded();
    MatchesLoaded(now);
    StandingsLoaded();
    Store(
      PutAll([], TournamentEntries()), PutAll([], TeamEntries()),
      PutAll([], MatchEntries(now)), PutAll([], StandingEntries()),
      NextId(1, KeysOf(TournamentEntries())), NextId(1, KeysOf(TeamEntries())),
      NextId(1, KeysOf(MatchEntries(now))), NextId(1, KeysOf(StandingEntries())))
  }

  lemma TournamentsLoaded()
    ensures ValuesOf(PutAll([], TournamentEntries())) == SeedTournaments()
  {
    SeedTournamentsLoad();
    LoadedInOrder(TournamentEntries(), SeedTournaments());
  }

  lemma TeamsLoaded()
    ensures ValuesOf(PutAll([], TeamEntries())) == SeedTeams()
  {
    SeedTeamsLoad();
    LoadedInOrder(TeamEntries(), SeedTeams());
  }

  lemma MatchesLoaded(now: int)
    ensures ValuesOf(PutAll([], MatchEntries(now))) == SeedMatches(now)
  {
    SeedMatchesLoad(now);
    LoadedInOrder(MatchEntries(now), SeedMatches(now));
  }

  lemma StandingsLoaded()
    ensures ValuesOf(PutAll([], StandingEntries())) == SeedStandings()
  {
    SeedStandingsLoad();
    LoadedInOrder(StandingEntries(), SeedStandings());
  }

  /** Loading entries numbered from 1 into an empty map keeps them in order. */
  lemma LoadedInOrder<V>(es: seq<Entry<V>>, xs: seq<V>)
    requires NumberedFromOne(es) && |es| == |xs|
    requires forall i :: 0 <= i < |es| ==> es[i].value == xs[i]
    ensures ValuesOf(PutAll([], es)) == xs
  {
    NumberedLoad(es);
  }

  lemma NumberedLoad<V>(es: seq<Entry<V>>)
    requires NumberedFromOne(es)
    ensures PutAll([], es) == es
    ensures DistinctKeys(es)
    ensures forall i :: 0 <= i < |es| ==> es[i].key < NextId(1, KeysOf(es))
  {
    PutAllFresh([], es);
    var n := NextId(1, KeysOf(es));
    forall i | 0 <= i < |es| ensures es[i].key < n {
      assert KeysOf(es)[i] == es[i].key;
    }
  }

  lemma SeedTournamentsLoad()
    ensures NumberedFromOne(TournamentEntries())
    ensures forall i :: 0 <= i < |TournamentEntries()| ==> TournamentEntries()[i].value.id == TournamentEntries()[i].key
  {
    var ts := SeedTournaments();
    assert forall i :: 0 <= i < |ts| ==> ts[i].id == i + 1;
  }

  lemma SeedTeamsLoad()
    ensures NumberedFromOne(TeamEntries())
    ensures forall i :: 0 <= i < |TeamEntries()| ==> TeamEntries()[i].value.id == TeamEntries()[i].key
  {
    var ts := SeedTeams();
    assert forall i :: 0 <= i < |ts| ==> ts[i].id == i + 1;
  }

  lemma SeedMatchesLoad(now: int)
    ensures NumberedFromOne(MatchEntries(now))
    ensures forall i :: 0 <= i < |MatchEntries(now)| ==> MatchEntries(now)[i].value.id == MatchEntries(now)[i].key
  {
    var ms := SeedMatches(now);
    assert forall i :: 0 <= i < |ms| ==> ms[i].id == i + 1;
  }

  lemma SeedStandingsLoad()
    ensures NumberedFromOne(StandingEntries())
    ensures forall i :: 0 <= i < |StandingEntries()| ==> StandingEntries()[i].value.id == StandingEntries()[i].key
  {
    var ss := SeedStandings();
    assert forall i :: 0 <= i < |ss| ==> ss[i].id == i + 1;
  }

  /** After start-up the store is valid: in particular every counter is above
      every seeded id, so ids handed out later never collide with seeded ones. */
  lemma InitializeValid(now: int)
    ensures Valid(Initialize(now))
  {
    SeedTournamentsLoad();
    SeedTeamsLoad();
    SeedMatchesLoad(now);
    SeedStandingsLoad();
    NumberedLoad(TournamentEntries());
    NumberedLoad(TeamEntries());
    NumberedLoad(MatchEntries(now));
    NumberedLoad(StandingEntries());
  }

  /** Seeded upcoming fixtures have no minute and a 0-0 score; seeded live ones have a minute. */
  lemma SeedMatchesConsistent(now: int)
    ensures forall m :: m in SeedMatches(now) && m.status == Val("upcoming") ==>
              m.currentMinute == Null && m.homeScore == Val(0) && m.awayScore == Val(0)
    ensures forall m :: m in SeedMatches(now) && m.status == Val("live") ==> m.currentMinute.Val?
  {
  }

  /** The three statuses seeding and the simulation ever store. */
  ghost predicate KnownStatuses(s: Store)
  {
    forall i :: 0 <= i < |s.matches| ==>
      s.matches[i].value.status in {Val("live"), Val("upcoming"), Val("finished")}
  }

  /** Every seeded match is "live" or "upcoming". */
  lemma InitialStatusesKnown(now: int)
    ensures KnownStatuses(Initialize(now))
  {
    SeedStatuses(now);
    StatusesKnownFrom(Initialize(now), SeedMatches(now));
  }

  lemma SeedStatuses(now: int)
    ensures forall i :: 0 <= i < |SeedMatches(now)| ==> SeedMatches(now)[i].status in {Val("live"), Val("upcoming")}
  {
  }

  lemma StatusesKnownFrom(s: Store, ms: seq<Match>)
    requires GetMatches(s) == ms
    requires forall i :: 0 <= i < |ms| ==> ms[i].status in {Val("live"), Val("upcoming")}
    ensures KnownStatuses(s)
  {
    forall i | 0 <= i < |s.matches| ensures s.matches[i].value.status in {Val("live"), Val("upcoming"), Val("finished")} {
      assert s.matches[i].value == ms[i];
    }
  }

  // ---------------------------------------------------------------- reads

  function GetTournaments(s: Store): seq<Tournament> { ValuesOf(s.tournaments) }
  function GetTeams(s: Store): seq<Team> { ValuesOf(s.teams) }
  function GetMatches(s: Store): seq<Match> { ValuesOf(s.matches) }

  function GetTournamentById(s: Store, id: int): Option<Tournament> { Lookup(s.tournaments, id) }
  function GetTeamById(s: Store, id: int): Option<Team> { Lookup(s.teams, id) }
  function GetMatchById(s: Store, id: int): Option<Match> { Lookup(s.matches, id) }

  function HasStatus(status: string): Match -> bool
  {
    (m: Match) => m.status == Val(status)
  }

  function InTournament(tournamentId: int): Match -> bool
  {
    (m: Match) => m.tournamentId == Val(tournamentId)
  }

  /** `getMatchesByStatus`: the matches whose status equals the argument, in insertion order. */
  function GetMatchesByStatus(s: Store, status: string): (r: seq<Match>)
    ensures forall i :: 0 <= i < |r| ==> r[i].status == Val(status) && r[i] in GetMatches(s)
    ensures forall m :: m in GetMatches(s) && m.status == Val(status) ==> m in r
  {
    Filter(GetMatches(s), HasStatus(status))
  }

  /** `getMatchesByTournament`: the matches of one tournament, in insertion order. */
  function GetMatchesByTournament(s: Store, tournamentId: int): (r: seq<Match>)
    ensures forall i :: 0 <= i < |r| ==> r[i].tournamentId == Val(tournamentId) && r[i] in GetMatches(s)
    ensures forall m :: m in GetMatches(s) && m.tournamentId == Val(tournamentId) ==> m in r
  {
    Filter(GetMatches(s), InTournament(tournamentId))
  }

  /** Both match filters keep the store's order and every multiplicity. */
  lemma MatchFiltersPreserveOrder(s: Store, status: string, tournamentId: int)
    ensures IsSubsequence(GetMatchesByStatus(s, status), GetMatches(s))
    ensures IsSubsequence(GetMatchesByTournament(s, tournamentId), GetMatches(s))
    ensures forall m: Match :: m.status == Val(status) ==>
              multiset(GetMatchesByStatus(s, status))[m] == multiset(GetMatches(s))[m]
  {
    FilterIsSubsequence(GetMatches(s), HasStatus(status));
    FilterIsSubsequence(GetMatches(s), InTournament(tournamentId));
    forall m: Match | m.status == Val(status)
      ensures multiset(GetMatchesByStatus(s, status))[m] == multiset(GetMatches(s))[m]
    {
      FilterCounts(GetMatches(s), HasStatus(status), m);
    }
  }

  // ---------------------------------------------------------------- standings

  ghost predicate SortedByPosition(s: seq<Standing>)
  {
    forall i, j :: 0 <= i < j < |s| ==> s[i].position <= s[j].position
  }

  /** Puts `x` after every element whose position is not above its own. */
  function InsertByPosition(x: Standing, s: seq<Standing>): seq<Standing>
  {
    if |s| == 0 then [x]
    else if x.position < s[0].position then [x] + s
    else [s[0]] + InsertByPosition(x, s[1..])
  }

  /** `sort((a, b) => a.position - b.position)`; JavaScript's sort is stable. */
  function SortByPosition(s: seq<Standing>): seq<Standing>
  {
    if |s| == 0 then [] else InsertByPosition(s[|s| - 1], SortByPosition(s[..|s| - 1]))
  }

  function AtPosition(q: int): Standing -> bool
  {
    (e: Standing) => e.position == q
  }

  ghost predicate PositionsAtLeast(s: seq<Standing>, b: int)
  {
    forall i :: 0 <= i < |s| ==> b <= s[i].position
  }

  lemma {:induction false} InsertByPositionBound(x: Standing, s: seq<Standing>, b: int)
    requires PositionsAtLeast(s, b) && b <= x.position
    ensures PositionsAtLeast(InsertByPosition(x, s), b)
    decreases |s|
  {
    if |s| > 0 && x.position >= s[0].position {
      InsertByPositionBound(x, s[1..], b);
    }
  }

  lemma {:induction false} InsertByPositionPermutes(x: Standing, s: seq<Standing>)
    ensures multiset(InsertByPosition(x, s)) == multiset(s) + multiset{x}
    decreases |s|
  {
    if |s| > 0 && x.position >= s[0].position {
      InsertByPositionPermutes(x, s[1..]);
      assert s == [s[0]] + s[1..];
    }
  }

  lemma {:induction false} InsertByPositionSorted(x: Standing, s: seq<Standing>)
    requires SortedByPosition(s)
    ensures SortedByPosition(InsertByPosition(x, s))
    decreases |s|
  {
    if |s| == 0 {
    } else if x.position < s[0].position {
      var r := [x] + s;
      forall i, j | 0 <= i < j < |r| ensures r[i].position <= r[j].position {
        assert r[j] == s[j - 1];
        if i > 0 { assert r[i] == s[i - 1]; }
      }
    } else {
      var tail := InsertByPosition(x, s[1..]);
      assert SortedByPosition(s[1..]) by {
        forall i, j | 0 <= i < j < |s[1..]| ensures s[1..][i].position <= s[1..][j].position {
          assert s[1..][i] == s[i + 1] && s[1..][j] == s[j + 1];
        }
      }
      InsertByPositionSorted(x, s[1..]);
      assert PositionsAtLeast(s[1..], s[0].position) by {
        forall i | 0 <= i < |s[1..]| ensures s[0].position <= s[1..][i].position {
          assert s[1..][i] == s[i + 1];
        }
      }
      InsertByPositionBound(x, s[1..], s[0].position);
      var r := [s[0]] + tail;
      forall i, j | 0 <= i < j < |r| ensures r[i].position <= r[j].position {
        assert r[j] == tail[j - 1];
        if i > 0 { assert r[i] == tail[i - 1]; }
      }
    }
  }

  lemma {:induction false} InsertByPositionStable(x: Standing, s: seq<Standing>, q: int)
    requires SortedByPosition(s)
    ensures Filter(InsertByPosition(x, s), AtPosition(q))
         == if x.position == q then Filter(s, AtPosition(q)) + [x] else Filter(s, AtPosition(q))
    decreases |s|
  {
    var p := AtPosition(q);
    if |s| == 0 {
    } else if x.position < s[0].position {
      assert InsertByPosition(x, s) == [x] + s;
      assert ([x] + s)[1..] == s;
      if x.position == q {
        forall i | 0 <= i < |s| ensures !p(s[i]) {
          assert s[0].position <= s[i].position;
        }
        FilterNone(s, p);
      }
    } else {
      var tail := InsertByPosition(x, s[1..]);
      assert InsertByPosition(x, s) == [s[0]] + tail;
      assert SortedByPosition(s[1..]) by {
        forall i, j | 0 <= i < j < |s[1..]| ensures s[1..][i].position <= s[1..][j].position {
          assert s[1..][i] == s[i + 1] && s[1..][j] == s[j + 1];
        }
      }
      InsertByPositionStable(x, s[1..], q);
      assert ([s[0]] + tail)[1..] == tail;
      var head := if p(s[0]) then [s[0]] else [];
      assert Filter([s[0]] + tail, p) == head + Filter(tail, p);
      assert Filter(s, p) == head + Filter(s[1..], p);
    }
  }

  lemma {:induction false} SortByPositionProperties(s: seq<Standing>)
    ensures SortedByPosition(SortByPosition(s))
    ensures multiset(SortByPosition(s)) == multiset(s)
    decreases |s|
  {
    if |s| > 0 {
      var init, last := s[..|s| - 1], s[|s| - 1];
      SortByPositionProperties(init);
      InsertByPositionSorted(last, SortByPosition(init));
      InsertByPositionPermutes(last, SortByPosition(init));
      assert s == init + [last];
    }
  }

  lemma FilterSnoc(init: seq<Standing>, last: Standing, q: int)
    ensures Filter(init + [last], AtPosition(q))
         == if last.position == q then Filter(init, AtPosition(q)) + [last] else Filter(init, AtPosition(q))
  {
    FilterAppend(init, [last], AtPosition(q));
    assert [last][1..] == [];
  }

  lemma {:induction false} SortByPositionStable(s: seq<Standing>, q: int)
    ensures Filter(SortByPosition(s), AtPosition(q)) == Filter(s, AtPosition(q))
    decreases |s|
  {
    if |s| > 0 {
      var init, last := s[..|s| - 1], s[|s| - 1];
      assert s == init + [last];
      var t := SortByPosition(init);
      var p := AtPosition(q);
      SortByPositionProperties(init);
      SortByPositionStable(init, q);
      InsertByPositionStable(last, t, q);
      FilterSnoc(init, last, q);
      calc {
        Filter(SortByPosition(s), p);
        Filter(InsertByPosition(last, t), p);
        if last.position == q then Filter(t, p) + [last] else Filter(t, p);
        if last.position == q then Filter(init, p) + [last] else Filter(init, p);
        Filter(init + [last], p);
      }
    }
  }

  function OfTournament(tournamentId: int): Standing -> bool
  {
    (e: Standing) => e.tournamentId == Val(tournamentId)
  }

  /** `getStandingsByTournament` */
  function GetStandingsByTournament(s: Store, tournamentId: int): (r: seq<Standing>)
    ensures SortedByPosition(r)
    ensures multiset(r) == multiset(Filter(ValuesOf(s.standings), OfTournament(tournamentId)))
  {
    SortByPositionProperties(Filter(ValuesOf(s.standings), OfTournament(tournamentId)));
    SortByPosition(Filter(ValuesOf(s.standings), OfTournament(tournamentId)))
  }

  /** The standings of a tournament are exactly that tournament's rows, each as often
      as stored, in ascending position, rows sharing a position in stored order. */
  lemma StandingsByTournamentSpec(s: Store, tournamentId: int, q: int)
    ensures SortedByPosition(GetStandingsByTournament(s, tournamentId))
    ensures forall e :: e in GetStandingsByTournament(s, tournamentId) ==> e.tournamentId == Val(tournamentId)
    ensures forall e: Standing :: e.tournamentId == Val(tournamentId) ==>
              multiset(GetStandingsByTournament(s, tournamentId))[e] == multiset(ValuesOf(s.standings))[e]
    ensures Filter(GetStandingsByTournament(s, tournamentId), AtPosition(q))
         == Filter(Filter(ValuesOf(s.standings), OfTournament(tournamentId)), AtPosition(q))
  {
    var f := Filter(ValuesOf(s.standings), OfTournament(tournamentId));
    SortByPositionProperties(f);
    SortByPositionStable(f, q);
    forall e | e in GetStandingsByTournament(s, tournamentId) ensures e.tournamentId == Val(tournamentId) {
      assert e in multiset(f);
    }
    forall e: Standing | e.tournamentId == Val(tournamentId)
      ensures multiset(GetStandingsByTournament(s, tournamentId))[e] == multiset(ValuesOf(s.standings))[e]
    {
      FilterCounts(ValuesOf(s.standings), OfTournament(tournamentId), e);
    }
  }

  // ---------------------------------------------------------------- writes

  datatype Created<R> = Created(store: Store, record: R)

  /** `createTournament` */
  function CreateTournament(s: Store, t: InsertTournament): (r: Created<Tournament>)
    ensures r.record.id == s.nextTournamentId && r.store.nextTournamentId == s.nextTournamentId + 1
    ensures r.record.name == t.name && r.record.nameAr == t.nameAr && r.record.kind == t.kind && r.record.season == t.season
    ensures r.record.country == (if t.country.Val? || t.country.NaN? then t.country else Null)
    ensures r.record.isActive == (if t.isActive.Val? || t.isActive.NaN? then t.isActive else Val(true))
    ensures r.store == s.(tournaments := Put(s.tournaments, r.record.id, r.record), nextTournamentId := r.store.nextTournamentId)
  {
    var id := s.nextTournamentId;
    var rec := Tournament(id, t.name, t.nameAr, t.kind, OrElse(t.country, Null), t.season, OrElse(t.isActive, Val(true)));
    Created(s.(tournaments := Put(s.tournaments, id, rec), nextTournamentId := id + 1), rec)
  }

  /** `createTeam` */
  function CreateTeam(s: Store, t: InsertTeam): (r: Created<Team>)
    ensures r.record.id == s.nextTeamId && r.store.nextTeamId == s.nextTeamId + 1
    ensures r.record.name == t.name && r.record.nameAr == t.nameAr && r.record.country == t.country
    ensures r.record.logo == (if t.logo.Val? || t.logo.NaN? then t.logo else Null)
    ensures r.store == s.(teams := Put(s.teams, r.record.id, r.record), nextTeamId := r.store.nextTeamId)
  {
    var id := s.nextTeamId;
    var rec := Team(id, t.name, t.nameAr, t.country, OrElse(t.logo, Null));
    Created(s.(teams := Put(s.teams, id, rec), nextTeamId := id + 1), rec)
  }

  /** `createMatch` */
  function CreateMatch(s: Store, m: InsertMatch): (r: Created<Match>)
    ensures r.record.id == s.nextMatchId && r.store.nextMatchId == s.nextMatchId + 1
    ensures r.record.status == m.status && r.record.matchDate == m.matchDate
    ensures r.record.tournamentId == (if m.tournamentId.Val? || m.tournamentId.NaN? then m.tournamentId else Null)
    ensures r.record.homeTeamId == (if m.homeTeamId.Val? || m.homeTeamId.NaN? then m.homeTeamId else Null)
    ensures r.record.awayTeamId == (if m.awayTeamId.Val? || m.awayTeamId.NaN? then m.awayTeamId else Null)
    ensures r.record.homeScore == (if m.homeScore.Val? || m.homeScore.NaN? then m.homeScore else Val(0))
    ensures r.record.awayScore == (if m.awayScore.Val? || m.awayScore.NaN? then m.awayScore else Val(0))
    ensures r.record.currentMinute == (if m.currentMinute.Val? || m.currentMinute.NaN? then m.currentMinute else Null)
    ensures r.record.streamUrl == (if m.streamUrl.Val? || m.streamUrl.NaN? then m.streamUrl else Null)
    ensures r.store == s.(matches := Put(s.matches, r.record.id, r.record), nextMatchId := r.store.nextMatchId)
  {
    var id := s.nextMatchId;
    var rec := Match(id,
      OrElse(m.tournamentId, Null), OrElse(m.homeTeamId, Null), OrElse(m.awayTeamId, Null),
      OrElse(m.homeScore, Val(0)), OrElse(m.awayScore, Val(0)),
      m.status, m.matchDate,
      OrElse(m.currentMinute, Null), OrElse(m.streamUrl, Null));
    Created(s.(matches := Put(s.matches, id, rec), nextMatchId := id + 1), rec)
  }

  /** `createStanding` */
  function CreateStanding(s: Store, t: InsertStanding): (r: Created<Standing>)
    ensures r.record.id == s.nextStandingId && r.store.nextStandingId == s.nextStandingId + 1
    ensures r.record.position == t.position
    ensures r.record.tournamentId == (if t.tournamentId.Val? || t.tournamentId.NaN? then t.tournamentId else Null)
    ensures r.record.teamId == (if t.teamId.Val? || t.teamId.NaN? then t.teamId else Null)
    ensures r.record.played == (if t.played.Val? || t.played.NaN? then t.played else Val(0))
    ensures r.record.won == (if t.won.Val? || t.won.NaN? then t.won else Val(0))
    ensures r.record.drawn == (if t.drawn.Val? || t.drawn.NaN? then t.drawn else Val(0))
    ensures r.record.lost == (if t.lost.Val? || t.lost.NaN? then t.lost else Val(0))
    ensures r.record.points == (if t.points.Val? || t.points.NaN? then t.points else Val(0))
    ensures r.record.goalsFor == (if t.goalsFor.Val? || t.goalsFor.NaN? then t.goalsFor else Val(0))
    ensures r.record.goalsAgainst == (if t.goalsAgainst.Val? || t.goalsAgainst.NaN? then t.goalsAgainst else Val(0))
    ensures r.store == s.(standings := Put(s.standings, r.record.id, r.record), nextStandingId := r.store.nextStandingId)
  {
    var id := s.nextStandingId;
    var rec := Standing(id, OrElse(t.tournamentId, Null), OrElse(t.teamId, Null), t.position,
      OrElse(t.played, Val(0)), OrElse(t.won, Val(0)), OrElse(t.drawn, Val(0)), OrElse(t.lost, Val(0)),
      OrElse(t.points, Val(0)), OrElse(t.goalsFor, Val(0)), OrElse(t.goalsAgainst, Val(0)));
    Created(s.(standings := Put(s.standings, id, rec), nextStandingId := id + 1), rec)
  }

  lemma PutFreshKey<V>(t: seq<Entry<V>>, k: int, v: V, bound: int)
    requires DistinctKeys(t)
    requires forall i :: 0 <= i < |t| ==> t[i].key < bound
    requires k == bound
    ensures Put(t, k, v) == t + [Entry(k, v)]
    ensures DistinctKeys(Put(t, k, v))
  {
  }

  /** A created match never lands on an existing key: it is appended, the store stays
      valid, every earlier record is untouched, and it can be read back by its id. */
  lemma CreateMatchAppends(s: Store, m: InsertMatch)
    requires Valid(s)
    ensures var r := CreateMatch(s, m);
      && Valid(r.store)
      && r.store.matches == s.matches + [Entry(r.record.id, r.record)]
      && GetMatches(r.store) == GetMatches(s) + [r.record]
      && GetMatchById(r.store, r.record.id) == Some(r.record)
  {
    var r := CreateMatch(s, m);
    PutFreshKey(s.matches, r.record.id, r.record, s.nextMatchId);
    assert r.store.matches[|s.matches|] == Entry(r.record.id, r.record);
  }

  /** The same for the other three tables. */
  lemma CreateOthersValid(s: Store, t: InsertTournament, team: InsertTeam, st: InsertStanding)
    requires Valid(s)
    ensures Valid(CreateTournament(s, t).store)
    ensures Valid(CreateTeam(s, team).store)
    ensures Valid(CreateStanding(s, st).store)
    ensures ValuesOf(CreateStanding(s, st).store.standings) == ValuesOf(s.standings) + [CreateStanding(s, st).record]
  {
    PutFreshKey(s.tournaments, s.nextTournamentId, CreateTournament(s, t).record, s.nextTournamentId);
    PutFreshKey(s.teams, s.nextTeamId, CreateTeam(s, team).record, s.nextTeamId);
    PutFreshKey(s.standings, s.nextStandingId, CreateStanding(s, st).record, s.nextStandingId);
  }

  datatype Updated = Updated(store: Store, result: Option<Match>)

  /** `updateMatch(id, updates)`: an absent id gives undefined and changes nothing;
      otherwise the stored record becomes `{...match, ...updates}` in place. */
  function UpdateMatch(s: Store, id: int, p: MatchPatch): (r: Updated)
    ensures !HasKey(s.matches, id) ==> r.result.None? && r.store == s
    ensures HasKey(s.matches, id) ==> r.result.Some? && r.store == s.(matches := r.store.matches)
    ensures HasKey(s.matches, id) ==> Lookup(s.matches, id).Some? && r.result.value == Merge(Lookup(s.matches, id).value, p)
  {
    match Lookup(s.matches, id)
    case None => Updated(s, None)
    case Some(m) =>
      var merged := Merge(m, p);
      Updated(s.(matches := Put(s.matches, id, merged)), Some(merged))
  }

  /** In a map with distinct keys, `get` of a stored key finds the value stored with it. */
  lemma LookupEntry<V>(t: seq<Entry<V>>, i: int)
    requires DistinctKeys(t) && 0 <= i < |t|
    ensures Lookup(t, t[i].key) == Some(t[i].value)
  {
  }

  /** Only the entry keyed `id` changes, its key and place stay, and validity is kept. */
  lemma UpdateMatchFrame(s: Store, id: int, p: MatchPatch)
    requires Valid(s)
    ensures var r := UpdateMatch(s, id, p);
      && Valid(r.store)
      && |r.store.matches| == |s.matches|
      && (forall i :: 0 <= i < |s.matches| ==> r.store.matches[i].key == s.matches[i].key)
      && (forall i :: 0 <= i < |s.matches| && s.matches[i].key != id ==> r.store.matches[i] == s.matches[i])
      && (forall i :: 0 <= i < |s.matches| && s.matches[i].key == id ==>
            r.store.matches[i].value == Merge(s.matches[i].value, p))
  {
    forall i | 0 <= i < |s.matches| && s.matches[i].key == id
      ensures Lookup(s.matches, id) == Some(s.matches[i].value)
    {
      LookupEntry(s.matches, i);
    }
  }

  /** Read back by id after an update: the updated id gives the record the update
      returned, every other id gives what it gave before. */
  lemma UpdateMatchLookups(s: Store, id: int, p: MatchPatch, k: int)
    requires Valid(s)
    ensures var r := UpdateMatch(s, id, p);
      && (HasKey(s.matches, id) ==> GetMatchById(r.store, id) == r.result)
      && (k != id ==> GetMatchById(r.store, k) == GetMatchById(s, k))
  {
    var r := UpdateMatch(s, id, p);
    UpdateMatchFrame(s, id, p);
    if HasKey(s.matches, id) {
      var i :| 0 <= i < |s.matches| && s.matches[i].key == id;
      LookupEntry(s.matches, i);
      LookupEntry(r.store.matches, i);
    }
    if k != id && HasKey(s.matches, k) {
      var j :| 0 <= j < |s.matches| && s.matches[j].key == k;
      LookupEntry(s.matches, j);
      LookupEntry(r.store.matches, j);
    }
  }

  /** Applying the same update twice leaves the store as applying it once. */
  lemma UpdateMatchIdempotent(s: Store, id: int, p: MatchPatch)
    requires Valid(s)
    ensures UpdateMatch(UpdateMatch(s, id, p).store, id, p) == UpdateMatch(s, id, p)
  {
    var r1 := UpdateMatch(s, id, p);
    UpdateMatchFrame(s, id, p);
    if HasKey(s.matches, id) {
      var i :| 0 <= i < |s.matches| && s.matches[i].key == id;
      var m := s.matches[i].value;
      LookupEntry(s.matches, i);
      var t := r1.store.matches;
      LookupEntry(t, i);
      MergeIdempotent(m, p);
      PutStored(t, id, Merge(m, p));
    }
  }

  /** Putting the value a key already holds changes nothing. */
  lemma PutStored<V>(t: seq<Entry<V>>, k: int, v: V)
    requires DistinctKeys(t) && Lookup(t, k) == Some(v)
    ensures Put(t, k, v) == t
  {
    forall i | 0 <= i < |t| && t[i].key == k ensures t[i] == Entry(k, v) {
      LookupEntry(t, i);
    }
  }
}

=== FILE: streaming.dfy ===
/** The streaming service: the three edge servers, the choice of the least-loaded
    server in the viewer's region, the per-quality playlist URLs, the simulated load
    fluctuation, the health classification and the quality recommendation. */
module Streaming {
  import opened Js

  type Capacity = c: int | c > 0 witness 1

  datatype ServerStatus = Active | Maintenance | Offline

  datatype StreamingServer = StreamingServer(
    id: string, name: string, region: string,
    capacity: Capacity, currentLoad: int, status: ServerStatus, endpoint: string)

  const InitialServers: seq<StreamingServer> := [
    StreamingServer("srv-eu-1", "Europe Primary", "eu-west-1", 100000, 45000, Active, "https://eu.stream.kooralive.com"),
    StreamingServer("srv-me-1", "Middle East Primary", "me-south-1", 150000, 89000, Active, "https://me.stream.kooralive.com"),
    StreamingServer("srv-us-1", "US Primary", "us-east-1", 80000, 23000, Active, "https://us.stream.kooralive.com")]

  // ---------------------------------------------------------------- server choice

  predicate StartsWith(s: string, prefix: string)
  {
    |prefix| <= |s| && s[..|prefix|] == prefix
  }

  /** `userRegion = 'me'` when the argument is undefined, then the prefix rule. */
  function PreferredRegion(userRegion: Option<string>): (r: string)
    ensures r in {"me-south-1", "eu-west-1", "us-east-1"}
    ensures userRegion.None? ==> r == "me-south-1"
    ensures userRegion.Some? && StartsWith(userRegion.value, "me") ==> r == "me-south-1"
    ensures userRegion.Some? && !StartsWith(userRegion.value, "me") && StartsWith(userRegion.value, "eu") ==> r == "eu-west-1"
    ensures userRegion.Some? && !StartsWith(userRegion.value, "me") && !StartsWith(userRegion.value, "eu") ==> r == "us-east-1"
  {
    var given := if userRegion.Some? then userRegion.value else "me";
    if StartsWith(given, "me") then "me-south-1"
    else if StartsWith(given, "eu") then "eu-west-1"
    else "us-east-1"
  }

  /** `currentLoad / capacity` */
  function LoadRatio(s: StreamingServer): real
  {
    s.currentLoad as real / s.capacity as real
  }

  /** `ss.reduce((best, cur) => ratio(cur) < ratio(best) ? cur : best)`, as the index of
      the server it returns: the least ratio, the earliest of equals. */
  function LeastLoadedIndex(ss: seq<StreamingServer>): (k: nat)
    requires |ss| > 0
    ensures k < |ss|
    ensures forall j :: 0 <= j < |ss| ==> LoadRatio(ss[k]) <= LoadRatio(ss[j])
    ensures forall j :: 0 <= j < k ==> LoadRatio(ss[k]) < LoadRatio(ss[j])
  {
    if |ss| == 1 then 0
    else
      var b := LeastLoadedIndex(ss[..|ss| - 1]);
      assert forall j :: 0 <= j < |ss| - 1 ==> ss[..|ss| - 1][j] == ss[j];
      if LoadRatio(ss[|ss| - 1]) < LoadRatio(ss[b]) then |ss| - 1 else b
  }

  function IsActive(s: StreamingServer): bool
  {
    s.status == Active
  }

  function ActiveServers(ss: seq<StreamingServer>): (r: seq<StreamingServer>)
    ensures |r| <= |ss|
    ensures forall i :: 0 <= i < |r| ==> IsActive(r[i]) && r[i] in ss
    ensures forall i :: 0 <= i < |ss| && IsActive(ss[i]) ==> ss[i] in r
  {
    if |ss| == 0 then [] else (if IsActive(ss[0]) then [ss[0]] else []) + ActiveServers(ss[1..])
  }

  function ActiveIn(ss: seq<StreamingServer>, region: string): (r: seq<StreamingServer>)
    ensures |r| <= |ss|
    ensures forall i :: 0 <= i < |r| ==> IsActive(r[i]) && r[i].region == region && r[i] in ss
    ensures forall i :: 0 <= i < |ss| && IsActive(ss[i]) && ss[i].region == region ==> ss[i] in r
  {
    if |ss| == 0 then []
    else (if IsActive(ss[0]) && ss[0].region == region then [ss[0]] else []) + ActiveIn(ss[1..], region)
  }

  /** `getOptimalServer(userRegion)`: the least-loaded active server of the preferred
      region, else the least-loaded active server anywhere; with no active server the
      fallback `reduce` of an empty array throws (None). */
  function GetOptimalServer(ss: seq<StreamingServer>, userRegion: Option<string>): (r: Option<StreamingServer>)
    ensures r.None? <==> forall i :: 0 <= i < |ss| ==> !IsActive(ss[i])
    ensures r.Some? ==> IsActive(r.value) && r.value in ss
  {
    var local := ActiveIn(ss, PreferredRegion(userRegion));
    if |local| > 0 then Some(local[LeastLoadedIndex(local)])
    else
      var active := ActiveServers(ss);
      if |active| > 0 then Some(active[LeastLoadedIndex(active)])
      else None
  }

  /** The chosen server is in the preferred region whenever that region has an active
      server, and no active server it was chosen among is less loaded. */
  lemma OptimalServerIsLeastLoaded(ss: seq<StreamingServer>, userRegion: Option<string>)
    ensures var r := GetOptimalServer(ss, userRegion);
      var region := PreferredRegion(userRegion);
      && ((exists i :: 0 <= i < |ss| && IsActive(ss[i]) && ss[i].region == region) ==>
            r.Some? && r.value.region == region
            && forall i :: 0 <= i < |ss| && IsActive(ss[i]) && ss[i].region == region ==> LoadRatio(r.value) <= LoadRatio(ss[i]))
      && ((forall i :: 0 <= i < |ss| && IsActive(ss[i]) ==> ss[i].region != region) ==>
            forall i :: 0 <= i < |ss| && IsActive(ss[i]) ==> r.Some? && LoadRatio(r.value) <= LoadRatio(ss[i]))
  {
    var region := PreferredRegion(userRegion);
    var local := ActiveIn(ss, region);
    var r := GetOptimalServer(ss, userRegion);
    if exists i :: 0 <= i < |ss| && IsActive(ss[i]) && ss[i].region == region {
      var i :| 0 <= i < |ss| && IsActive(ss[i]) && ss[i].region == region;
      assert ss[i] in local;
      forall i | 0 <= i < |ss| && IsActive(ss[i]) && ss[i].region == region
        ensures LoadRatio(r.value) <= LoadRatio(ss[i])
      {
        assert ss[i] in local;
      }
    }
    if forall i :: 0 <= i < |ss| && IsActive(ss[i]) ==> ss[i].region != region {
      assert |local| == 0;
      var active := ActiveServers(ss);
      forall i | 0 <= i < |ss| && IsActive(ss[i]) ensures r.Some? && LoadRatio(r.value) <= LoadRatio(ss[i]) {
        assert ss[i] in active;
      }
    }
  }

  // ---------------------------------------------------------------- playlist URLs

  /** The five renditions, from highest to lowest. */
  datatype Quality = UHD | FullHD | HD | SD | Low

  /** The key of a rendition in the URL object and in the quality recommendation. */
  function QualityKey(q: Quality): string
  {
    match q
    case UHD => "4K"
    case FullHD => "1080p"
    case HD => "720p"
    case SD => "480p"
    case Low => "360p"
  }

  /** The path segment of a rendition: lower-case `4k` for the 4K key. */
  function QualityPath(q: Quality): string
  {
    if q == UHD then "4k" else QualityKey(q)
  }

  /** The object `generateStreamUrls` returns, one field per key. */
  datatype StreamUrls = StreamUrls(uhd: string, fullHd: string, hd: string, sd: string, low: string)
  {
    function Url(q: Quality): string
    {
      match q
      case UHD => uhd
      case FullHD => fullHd
      case HD => hd
      case SD => sd
      case Low => low
    }
  }

  function PlaylistUrl(endpoint: string, matchId: int, q: Quality): string
  {
    endpoint + "/live/match-" + ToDecimal(matchId) + "/" + QualityPath(q) + "/playlist.m3u8"
  }

  /** `generateStreamUrls(matchId, userRegion)`; it throws when no server is active. */
  function GenerateStreamUrls(ss: seq<StreamingServer>, matchId: int, userRegion: Option<string>): (r: Option<StreamUrls>)
    ensures r.None? <==> GetOptimalServer(ss, userRegion).None?
  {
    match GetOptimalServer(ss, userRegion)
    case None => None
    case Some(server) =>
      var base := server.endpoint + "/live/match-" + ToDecimal(matchId);
      Some(StreamUrls(
        base + "/4k/playlist.m3u8",
        base + "/1080p/playlist.m3u8",
        base + "/720p/playlist.m3u8",
        base + "/480p/playlist.m3u8",
        base + "/360p/playlist.m3u8"))
  }

  /** Two texts that agree around a differing middle differ. */
  lemma MiddlesDiffer(a: string, p1: string, p2: string, b: string)
    requires p1 != p2
    ensures a + p1 + b != a + p2 + b
  {
    if |p1| == |p2| {
      var i :| 0 <= i < |p1| && p1[i] != p2[i];
      assert (a + p1 + b)[|a| + i] == p1[i];
      assert (a + p2 + b)[|a| + i] == p2[i];
    } else {
      assert |a + p1 + b| != |a + p2 + b|;
    }
  }

  /** One rendition's URL, written with its path as a separate segment. */
  lemma UrlOf(urls: StreamUrls, base: string, q: Quality)
    requires urls == StreamUrls(
      base + "/4k/playlist.m3u8", base + "/1080p/playlist.m3u8", base + "/720p/playlist.m3u8",
      base + "/480p/playlist.m3u8", base + "/360p/playlist.m3u8")
    ensures urls.Url(q) == base + "/" + QualityPath(q) + "/playlist.m3u8"
  {
    var tail := "/playlist.m3u8";
    match q
    case UHD => assert "/4k/playlist.m3u8" == "/" + "4k" + tail; assert base + "/" + "4k" + tail == base + ("/" + "4k" + tail);
    case FullHD => assert "/1080p/playlist.m3u8" == "/" + "1080p" + tail; assert base + "/" + "1080p" + tail == base + ("/" + "1080p" + tail);
    case HD => assert "/720p/playlist.m3u8" == "/" + "720p" + tail; assert base + "/" + "720p" + tail == base + ("/" + "720p" + tail);
    case SD => assert "/480p/playlist.m3u8" == "/" + "480p" + tail; assert base + "/" + "480p" + tail == base + ("/" + "480p" + tail);
    case Low => assert "/360p/playlist.m3u8" == "/" + "360p" + tail; assert base + "/" + "360p" + tail == base + ("/" + "360p" + tail);
  }

  /** Every URL is the chosen server's endpoint, the match, the rendition's own path and
      the playlist name, and no two renditions share a playlist. */
  lemma StreamUrlsSpec(ss: seq<StreamingServer>, matchId: int, userRegion: Option<string>, q1: Quality, q2: Quality)
    requires GetOptimalServer(ss, userRegion).Some?
    ensures var urls := GenerateStreamUrls(ss, matchId, userRegion).value;
      urls.Url(q1) == PlaylistUrl(GetOptimalServer(ss, userRegion).value.endpoint, matchId, q1)
    ensures var urls := GenerateStreamUrls(ss, matchId, userRegion).value;
      q1 != q2 ==> urls.Url(q1) != urls.Url(q2)
  {
    var endpoint := GetOptimalServer(ss, userRegion).value.endpoint;
    var base := endpoint + "/live/match-" + ToDecimal(matchId);
    var urls := GenerateStreamUrls(ss, matchId, userRegion).value;
    UrlOf(urls, base, q1);
    UrlOf(urls, base, q2);
    if q1 != q2 {
      var p1, p2 := QualityPath(q1), QualityPath(q2);
      assert p1 != p2 by {
        if |p1| == |p2| {
          assert p1[0] != p2[0];
        }
      }
      MiddlesDiffer(base + "/", p1, p2, "/playlist.m3u8");
    }
  }

  // ---------------------------------------------------------------- load fluctuation

  /** `Math.floor(Math.random() * 2000) - 1000` */
  function Fluctuation(draw: real): (f: int)
    requires IsRandom(draw)
    ensures -1000 <= f < 1000
  {
    assert draw * 2000.0 < 2000.0;
    (draw * 2000.0).Floor - 1000
  }

  /** One server's load after a tick: `max(0, min(capacity, load + fluctuation))`. */
  function Fluctuate(s: StreamingServer, draw: real): (r: StreamingServer)
    requires IsRandom(draw)
    ensures r == s.(currentLoad := r.currentLoad)
    ensures 0 <= r.currentLoad <= s.capacity
    ensures 0 <= s.currentLoad + Fluctuation(draw) <= s.capacity ==> r.currentLoad == s.currentLoad + Fluctuation(draw)
    ensures 0 <= s.currentLoad <= s.capacity ==> -1000 <= r.currentLoad - s.currentLoad < 1000
  {
    var moved := s.currentLoad + Fluctuation(draw);
    var capped := if s.capacity < moved then s.capacity else moved;
    s.(currentLoad := if 0 < capped then capped else 0)
  }

  /** The tracking interval's body: every server in turn, with its own draw. */
  function FluctuateAll(ss: seq<StreamingServer>, draws: seq<real>): (r: seq<StreamingServer>)
    requires |draws| == |ss|
    requires forall i :: 0 <= i < |draws| ==> IsRandom(draws[i])
    ensures |r| == |ss|
    ensures forall i :: 0 <= i < |ss| ==> r[i] == Fluctuate(ss[i], draws[i])
  {
    seq(|ss|, i requires 0 <= i < |ss| => Fluctuate(ss[i], draws[i]))
  }

  predicate LoadsWithinCapacity(ss: seq<StreamingServer>)
  {
    forall i :: 0 <= i < |ss| ==> 0 <= ss[i].currentLoad <= ss[i].capacity
  }

  /** After any tick every load is within its capacity, whatever it was before; the
      servers, their order and every other field stay; the configured servers start
      within capacity. */
  lemma FluctuationKeepsLoadInRange(ss: seq<StreamingServer>, draws: seq<real>)
    requires |draws| == |ss|
    requires forall i :: 0 <= i < |draws| ==> IsRandom(draws[i])
    ensures LoadsWithinCapacity(FluctuateAll(ss, draws))
    ensures forall i :: 0 <= i < |ss| ==>
      var r := FluctuateAll(ss, draws)[i];
      r.id == ss[i].id && r.capacity == ss[i].capacity && r.status == ss[i].status && r.region == ss[i].region
    ensures LoadsWithinCapacity(InitialServers)
  {
  }

  // ---------------------------------------------------------------- health

  datatype Health = Healthy | Degraded | Down

  /** `latency < 100 && buffer > 70 ? 'healthy' : latency < 150 && buffer > 50 ? 'degraded' : 'offline'` */
  function HealthStatus(latency: real, bufferHealth: real): (h: Health)
    ensures h == Healthy <==> latency < 100.0 && bufferHealth > 70.0
    ensures h == Degraded <==> !(latency < 100.0 && bufferHealth > 70.0) && latency < 150.0 && bufferHealth > 50.0
  {
    if latency < 100.0 && bufferHealth > 70.0 then Healthy
    else if latency < 150.0 && bufferHealth > 50.0 then Degraded
    else Down
  }

  datatype HealthReport = HealthReport(status: Health, latency: real, bufferHealth: real, bitrate: real)

  /** `checkStreamHealth`, given its three draws. */
  function CheckStreamHealth(latencyDraw: real, bufferDraw: real, bitrateDraw: real): (r: HealthReport)
    requires IsRandom(latencyDraw) && IsRandom(bufferDraw) && IsRandom(bitrateDraw)
    ensures 50.0 <= r.latency < 150.0 && 0.0 <= r.bufferHealth < 100.0 && 3000.0 <= r.bitrate < 5000.0
    ensures r.status == HealthStatus(r.latency, r.bufferHealth)
  {
    var latency := latencyDraw * 100.0 + 50.0;
    var bufferHealth := bufferDraw * 100.0;
    HealthReport(HealthStatus(latency, bufferHealth), latency, bufferHealth, bitrateDraw * 2000.0 + 3000.0)
  }

  /** The simulated latency never reaches 150, so the check reports offline exactly when
      the buffer is at most 50. */
  lemma SimulatedHealthOfflineOnlyByBuffer(latencyDraw: real, bufferDraw: real, bitrateDraw: real)
    requires IsRandom(latencyDraw) && IsRandom(bufferDraw) && IsRandom(bitrateDraw)
    ensures var r := CheckStreamHealth(latencyDraw, bufferDraw, bitrateDraw);
      r.status == Down <==> r.bufferHealth <= 50.0
  {
  }

  // ---------------------------------------------------------------- quality

  /** `getRecommendedQuality(bandwidth, device)` */
  function GetRecommendedQuality(bandwidth: real, device: string): (q: string)
    ensures q in {"4K", "1080p", "720p", "480p", "360p"}
    ensures q == "4K" ==> device != "mobile"
  {
    if bandwidth > 10000.0 && device != "mobile" then "4K"
    else if bandwidth > 5000.0 then "1080p"
    else if bandwidth > 2500.0 then "720p"
    else if bandwidth > 1000.0 then "480p"
    else "360p"
  }

  /** The qualities from lowest to highest. */
  function QualityRank(q: string): int
  {
    if q == "4K" then 4 else if q == "1080p" then 3 else if q == "720p" then 2 else if q == "480p" then 1 else 0
  }

  /** More bandwidth never lowers the recommendation, and it is the highest rung whose
      threshold the bandwidth exceeds: 4K above 10000 off mobile, 1080p or better above
      5000, 720p or better above 2500, 480p or better above 1000. */
  lemma QualityMonotone(b1: real, b2: real, device: string)
    requires b1 <= b2
    ensures QualityRank(GetRecommendedQuality(b1, device)) <= QualityRank(GetRecommendedQuality(b2, device))
    ensures GetRecommendedQuality(b1, device) == "4K" <==> b1 > 10000.0 && device != "mobile"
    ensures QualityRank(GetRecommendedQuality(b1, device)) >= 3 <==> b1 > 5000.0
    ensures QualityRank(GetRecommendedQuality(b1, device)) >= 2 <==> b1 > 2500.0
    ensures QualityRank(GetRecommendedQuality(b1, device)) >= 1 <==> b1 > 1000.0
  {
  }
}

=== FILE: tournament_cards.dfy ===
/** The tournament cards: the icon, the gradient colour and the type label of a card. */
module TournamentCards {
  import opened Js

  datatype Icon = Trophy | Crown | Globe | Medal

  /** `getTournamentIcon(type)` */
  function TournamentIcon(kind: string): (i: Icon)
    ensures i == Trophy <==> kind == "cup"
    ensures i == Crown <==> kind == "league"
    ensures i == Globe <==> kind == "international"
  {
    if kind == "cup" then Trophy
    else if kind == "league" then Crown
    else if kind == "international" then Globe
    else Medal
  }

  const Palette: seq<string> := [
    "from-blue-500 to-blue-600",
    "from-purple-500 to-purple-600",
    "from-orange-500 to-red-500",
    "from-green-500 to-green-600"]

  /** JavaScript's `id % 4`: the remainder takes the sign of the dividend. */
  function JsRemainder4(a: int): (r: int)
    ensures -4 < r < 4
    ensures a >= 0 ==> r == a % 4
    ensures a < 0 ==> r <= 0 && (r == 0 <==> a % 4 == 0)
  {
    if a >= 0 then a % 4 else -((-a) % 4)
  }

  /** `getTournamentColor(id)`: `colors[id % colors.length]`; a negative id with a
      non-zero remainder indexes outside the palette and yields undefined (None). */
  function TournamentColor(id: int): (r: Option<string>)
    ensures id >= 0 ==> r == Some(Palette[id % 4])
    ensures r.Some? ==> r.value in Palette
    ensures r.None? <==> id < 0 && id % 4 != 0
  {
    var k := JsRemainder4(id);
    if 0 <= k then Some(Palette[k]) else None
  }

  /** Ids that agree modulo 4 (and are not negative) share a colour; neighbouring ids
      never do. */
  lemma ColorPeriodic(a: nat, b: nat)
    ensures a % 4 == b % 4 ==> TournamentColor(a) == TournamentColor(b)
    ensures b == a + 1 ==> TournamentColor(a) != TournamentColor(b)
  {
    if b == a + 1 {
      assert a % 4 != b % 4;
      assert Palette[a % 4][5] != Palette[b % 4][5];
    }
  }

  /** The type label: `league`, then `cup`, else the international label. */
  function TypeLabel(kind: string): (r: string)
    ensures kind == "league" ==> r == "دوري"
    ensures kind == "cup" ==> r == "كأس"
    ensures kind != "league" && kind != "cup" ==> r == "بطولة دولية"
  {
    if kind == "league" then "دوري" else if kind == "cup" then "كأس" else "بطولة دولية"
  }

  /** Label and icon single out the same two types: a card has the international label
      exactly when its icon is neither the trophy nor the crown. */
  lemma LabelMatchesIcon(kind: string)
    ensures TypeLabel(kind) == "بطولة دولية" <==> TournamentIcon(kind) !in {Trophy, Crown}
  {
    var r := TypeLabel(kind);
    if kind == "league" || kind == "cup" {
      assert |r| != |"بطولة دولية"|;
    }
  }
}
